=== FILE: README.md ===
# Polyomino counter, countdown timer and weekly alarms in Dafny

This project models the pure logic of three small Python programs and proves
properties of it.

- **kt.py, the polyomino placement counter.** Cells marked on an input grid
  are split into 4-connected components. Each component becomes a tight
  bounding-box shape with up to four distinct quarter-turn variants. The
  counter then enumerates every way to place all the blocks without overlap
  on a 6-by-6 result board, some of whose cells are fixed. It reports the
  number of complete placements, and for every cell how many of them cover
  it. Modules: `Matrices`, `Rotations`, `Extraction`, `Sums`, `Placement`,
  `PlacementLaws`, `Pipeline`, with `Cardinality` for set sizes.
- **timer.py, the console countdown timer.** It reads a duration written as
  `H:M:S`, `M:S` or `S` and shows seconds as `HH:MM:SS`. Its flags form a
  state machine driven by key presses (space, `r`, `q`, Ctrl+C) and by
  whole elapsed seconds. Module: `Timer`.
- **event_timer.py, the weekly alarm clock.** Alarm rules are read one per
  line: an optional `UTC±N` zone, an optional weekday, a time and an
  optional `#` comment. Each rule yields its next occurrences in the coming
  week. The alarm loop picks the earliest advance warning (five minutes
  ahead, then on time) that has not yet fired. Modules: `Alarms` and
  `Schedule`. `Text` models the Python string built-ins they use:
  `str.split`, `str.strip`, `str.splitlines`, `str.upper` and `int()`.

Grids are `seq<seq<int>>`. Python's in-place count grid becomes a value
threaded through the search. Times are whole seconds since 1970-01-01 UTC,
and zones are fixed offsets. Errors Python raises (`ValueError`, and
the `OverflowError` of `timedelta` for a huge offset) are the `Err` side
of a `Result`.

Two features of the placement code shape the model:

- `all_rotations` (kt.py:102-108) does not trim a rotated shape back to its
  bounding box. None is needed: `Matrices.RotateTight` shows that a quarter
  turn of a tight shape is tight.
- The search (kt.py:164-180) has no cancellation flag and undoes nothing on
  return, because `place` copies the grid (kt.py:154-162). A search that a
  new button press supersedes is killed with `terminate()` (kt.py:231-233).

## Model

| member | source | states |
|---|---|---|
| Matrices.Rotate | kt.py:99-100 | An h-by-w matrix turns into a w-by-h matrix. A matrix with no rows stays empty. |
| Matrices.RotateAt | kt.py:99-100 | Entry (i, j) of the rotation is entry (h-1-j, i) of the input. |
| Matrices.RotateTwice | kt.py:99-100 | Two quarter turns keep the dimensions and send entry (r, c) to (h-1-r, w-1-c). |
| Matrices.RotateFour | kt.py:99-100 | Four quarter turns give back the input, so the rotation has order 4. |
| Matrices.RotateOnes | kt.py:99-100 | The 1-cells of the rotation are exactly the input's 1-cells moved by the quarter-turn cell map. |
| Matrices.RotateArea | kt.py:99-100 | A rotation covers as many cells as the input. |
| Matrices.RotateTight | kt.py:99-100 | A tight shape stays tight: its first and last rows and columns each still hold a 1. |
| Matrices.RotateBinary | kt.py:99-100 | A 0/1 matrix stays 0/1. |
| Rotations.CollectSpec | kt.py:103-108 | The deduplicating loop keeps the earlier list as a prefix and never adds a duplicate. It ends holding the earlier entries plus exactly the first k turns. |
| Rotations.TurnFour | kt.py:104-105 | The fourth turn the loop makes is the input itself. |
| Rotations.AllRotationsSpec | kt.py:102-108 | 1 to 4 pairwise-distinct matrices. As a set they are the input and its three turns, so the input is among them. |
| Rotations.VariantsKeep | kt.py:102-108 | Every variant of a tight 0/1 shape is tight and 0/1 and covers as many cells. |
| Rotations.SquareHasOneVariant | kt.py:102-108 | A full 2-by-2 block has exactly one variant. |
| Rotations.AllRotations | kt.py:102-108 | `all_rotations`: the input's distinct quarter turns, in turn order. Its contract is stated by `Rotations.AllRotationsSpec` and `Rotations.VariantsKeep`. |
| Rotations.DominoHasTwoVariants | kt.py:102-108 | A 1-by-2 domino has two variants: upright first, then flat. |
| Extraction.NeighboursAdjacent | kt.py:123 | The four offsets reach exactly the cells sharing a side; there are no diagonals. |
| Extraction.Enqueue | kt.py:125-128 | A marked, unvisited, in-grid neighbour is queued and marked visited. The queue and visited set only grow, and the flood-fill invariant is kept. |
| Extraction.ExpandHead | kt.py:121-128 | Taking the head cell keeps the invariant and marks it explored. The visited set either stays put with the queue unchanged, or strictly grows within the marked cells. |
| Extraction.FloodFill | kt.py:117-128 | The collected cells start at the start cell and have no repeats. All are marked and were unvisited, each touches an earlier one, and no marked cell outside them touches them. The visited set grows by exactly these cells. |
| Extraction.NewComponent | kt.py:116-128 | A fill started at the first unvisited marked cell in row-major order is a maximal 4-connected component listed from its first cell. |
| Extraction.ScanStep | kt.py:116-139 | A fill at an unvisited marked cell keeps the scan invariant. Components found so far are components, disjoint and ordered, they cover every marked cell before the cursor, and they cover exactly the visited cells. |
| Extraction.ScanSkip | kt.py:116 | A cell that is unmarked or already visited moves the cursor on and keeps the invariant. |
| Extraction.ScanCell | kt.py:114-139 | One cell of the row-major scan keeps the scan invariant. |
| Extraction.ScanDone | kt.py:114-115 | After the last row, the components found are exactly the decomposition of the grid. |
| Extraction.ExtractComponents | kt.py:110-128 | Every marked cell lies in exactly one component. Each component is maximal, connected and listed without repeats, and components come in row-major order of their first cell. |
| Extraction.ArgMin | kt.py:129-130 | The chosen cell is a component cell whose key is least, as `min` over the cells. |
| Extraction.ArgMax | kt.py:131-132 | The chosen cell is a component cell whose key is greatest, as `max` over the cells. |
| Extraction.BoxAt | kt.py:135-137 | The box is h-by-w, and its entry (r, c) is 1 exactly when cell (x0+c, y0+r) is in the component. |
| Extraction.WithinBounds | kt.py:129-134 | Every cell of the component lies inside the box spanned by its minima and maxima. |
| Extraction.BoxOnes | kt.py:135-137 | The 1s of the box are the component's cells shifted by the box corner. |
| Extraction.BoxTight | kt.py:129-137 | A box whose edges each touch a component cell is tight. |
| Extraction.BlockShapeSpec | kt.py:129-137 | The shape is (max_y-min_y+1)-by-(max_x-min_x+1) and 0/1. It holds 1s exactly at the shifted component cells, so its area is the component size, and its border rows and columns each hold a 1. |
| Extraction.BlockShape | kt.py:129-137 | The component's bounding-box shape. Its contract is stated by `Extraction.BlockShapeSpec`. |
| Extraction.BlockOfComponent | kt.py:129-138 | One component gives 1 to 4 variants, each tight and 0/1 with the component's size. |
| Extraction.EveryBlockGood | kt.py:138-139 | Every appended block has that form for its component. |
| Extraction.NoBlocksWhenBlank | kt.py:110-141 | There are no components exactly when no cell is marked. |
| Extraction.ExtractBlocks | kt.py:110-141 | One block per component, in discovery order. Each block is the component's rotation variants, and the result is empty iff the grid is blank. |
| Placement.CanPlace | kt.py:143-152 | True iff the shape lies on the 6-by-6 board and none of its 1s lands on a 1 of the grid or of the fixed grid. In particular it is false when top+h > 6 or left+w > 6. |
| Placement.PlaceRow | kt.py:159-161 | The inner loop writes 1 exactly under the row's 1s from column x on and leaves every other cell as it was. |
| Placement.PlaceRows | kt.py:158-161 | The outer loop writes 1 exactly under the shape's 1s from row y on and leaves every other cell as it was. |
| Placement.Place | kt.py:154-162 | The new grid is 1 under the shape's 1s at the offset and equal to the old grid everywhere else. |
| Placement.LeftsSpec | kt.py:176 | Every tried `left` keeps the shape within the width, and there are 7-w-left of them. |
| Placement.TopsSpec | kt.py:175-176 | Every tried offset keeps the shape on the board. |
| Placement.TopsCount | kt.py:175-176 | A shape has (7-h-top)·(7-w) offsets from row `top` on. |
| Placement.AllLefts | kt.py:176 | Every `left` that keeps the shape on the board is tried. |
| Placement.AllOffsets | kt.py:175-176 | Every offset that keeps the shape on the board is tried. |
| Placement.CandidatesSpec | kt.py:172-176 | The loops try only variants of the block at on-board offsets, and they try every such variant and offset. |
| Placement.FixedOf | kt.py:193 | The fixed grid is 1 exactly where the board's state is 1 and 0 elsewhere. |
| Placement.Search | kt.py:164-180 | `enumerate_placements`: the counts stay a 6-by-6 board. Its bounds, conservation law and blocked case are stated by `PlacementLaws.SearchBounds`, `PlacementLaws.SearchSum` and `PlacementLaws.SearchBlocked`. |
| Placement.Try | kt.py:164-180 | The loop over a block's variants and offsets: the counts stay a 6-by-6 board. `PlacementLaws.TryBounds`, `PlacementLaws.TrySum`, `PlacementLaws.TryBlocked` and `PlacementLaws.TryLast` state the rest. |
| Placement.Run | kt.py:190-194 | `ComputeThread.run`: a search from an empty grid with zero counts and the board's fixed cells. `PlacementLaws.RunBounds`, `PlacementLaws.RunSum` and `PlacementLaws.RunNoBlocks` state its contract. |
| PlacementLaws.BumpBetween | kt.py:165-170 | A completed placement adds at most 1 to each cell and nothing to a fixed cell. |
| PlacementLaws.OccupiedMember | kt.py:168 | A cell is counted exactly when it is on the board, occupied and not fixed. |
| PlacementLaws.SearchBounds | kt.py:164-180 | Each cell's count grows by between 0 and the returned total, and fixed cells' counts do not change. |
| PlacementLaws.TryBounds | kt.py:171-180 | Over the remaining candidates, the running total only grows. Each count grows by at most the total gained, and not at all on fixed cells. |
| PlacementLaws.PlaceOnes | kt.py:154-162 | After a fitting placement, the counted cells are the earlier ones plus the shape's cells at the offset. |
| PlacementLaws.PlaceDisjoint | kt.py:143-152 | A fitting shape lands only on cells that were not yet counted. |
| PlacementLaws.PlaceArea | kt.py:154-162 | A fitting placement adds exactly the shape's area to the counted cells. |
| PlacementLaws.SearchSum | kt.py:164-180 | The counts grow in total by the returned total times the cells each completion covers: the occupied free cells plus the areas of the blocks still to place. |
| PlacementLaws.TrySum | kt.py:171-180 | The same conservation law holds over the remaining candidates of one block. |
| PlacementLaws.TrySumFits | kt.py:177-179 | The same law holds when the first candidate fits and its recursive search runs. |
| PlacementLaws.FitsGain | kt.py:177-179 | The recursion after a fitting placement adds its total times the covered-cell weight at this level. |
| PlacementLaws.WeightStep | kt.py:178-179 | Placing a fitting variant keeps the covered-cell weight: the placed area moves from the blocks still to place to the occupied cells. |
| PlacementLaws.BlockedGrows | kt.py:143-152 | A block that fits nowhere still fits nowhere once more cells are occupied. |
| PlacementLaws.PlaceGrows | kt.py:154-162 | Placing only adds 1s. |
| PlacementLaws.SearchBlocked | kt.py:164-180 | If some block still to place fits nowhere, the total is 0 and the counts are untouched. |
| PlacementLaws.TryBlocked | kt.py:171-180 | Under a block that fits nowhere, the candidate loop gains nothing. |
| PlacementLaws.TryLast | kt.py:165-180 | For the last block, each fitting candidate adds exactly 1 to the total. |
| PlacementLaws.AllFitOnBlank | kt.py:143-152 | On an empty board with nothing fixed, every on-board candidate fits. |
| PlacementLaws.LoneBlock | kt.py:164-180 | A single block's total is the number of its variant-offset pairs that fit. |
| PlacementLaws.OffsetCount | kt.py:175-176 | An h-by-w shape has (7-h)·(7-w) offsets on the board. |
| PlacementLaws.DominoCandidates | kt.py:172-176 | The two domino variants have 60 offsets together. |
| PlacementLaws.DominoSixty | kt.py:164-180 | A lone domino on an empty, unfixed board has 60 placements. |
| PlacementLaws.BlankArea | kt.py:191-192 | The zero start grid covers no cell. |
| PlacementLaws.RunNoBlocks | kt.py:190-194 | With no blocks there is exactly one (empty) completion, and every count stays 0. |
| PlacementLaws.RunBounds | kt.py:190-194 | From an empty start, every count lies between 0 and the total, and fixed cells count 0. |
| PlacementLaws.RunSum | kt.py:190-194 | The counts add up to the total times the summed block areas. |
| Pipeline.CellCountMarked | kt.py:110-128 | The component sizes add up to the number of marked cells. |
| Pipeline.GoodBlocksUsable | kt.py:138-139 | The extracted blocks are valid search input: all variants of a block have its area, and the areas sum to the component sizes. |
| Pipeline.Compute | kt.py:223-237 | The blocks are the rotation variants of the input grid's components, in discovery order, and the components decompose the grid. Counting them gives counts between 0 and the total, 0 on fixed cells, and a count sum equal to the total times the number of marked input cells. |
| Text.SplitOn | event_timer.py:75 | `str.split(sep)` gives at least one piece, and no piece holds the separator. |
| Text.JoinSplit | event_timer.py:75 | Joining the pieces of a split with the separator gives back the text. |
| Text.SplitJoin | event_timer.py:75 | Splitting separator-free pieces joined by the separator gives back the pieces. |
| Text.TrimStartDrops | event_timer.py:38 | `strip` removes only whitespace at the front, and stops at a non-space. |
| Text.TrimEndDrops | event_timer.py:38 | `strip` removes only whitespace at the end, and stops at a non-space. |
| Text.RStripChar | event_timer.py:35 | `rstrip("\n")` drops exactly the trailing line feeds. |
| Text.WordsSolid | event_timer.py:48 | `split()` gives non-empty words without whitespace. |
| Text.WordsJoin | event_timer.py:48 | Splitting space-joined words gives back the words. |
| Text.SplitLinesJoin | event_timer.py:95 | `splitlines()` of break-free lines joined by line feeds, with a non-empty last line, gives back the lines. |
| Text.Upper | event_timer.py:52 | `upper()` keeps the length and maps exactly a to z onto A to Z. |
| Text.ShowNatValue | timer.py:44 | A natural number's decimal digits read back as the number, with no leading zero. |
| Text.ParseInt | event_timer.py:58 | `int()` of text: the whitespace it skips, a sign and underscore-joined digit groups. Its contract is stated by `Text.ParseIntStrip`, `Text.ParseIntNoSeparator`, `Text.DigitsParse`, `Text.NegativeParse`, `Text.SignedChars` and `Text.ParseShowInt`. |
| Text.ParseIntStrip | event_timer.py:75 | On text without the separators U+001C to U+001F, `int()` ignores exactly the whitespace that `strip()` removes. |
| Text.ParseIntNoSeparator | event_timer.py:75 | `int()` refuses text holding any of U+001C to U+001F, even though `isspace()` accepts them. |
| Text.SeparatorRefused | event_timer.py:75 | `strip()` turns U+001C followed by digits into the digits, but `int()` refuses that text. |
| Text.DigitsParse | event_timer.py:75 | `int()` of plain digits is their value. |
| Text.NegativeParse | event_timer.py:75 | `int()` of a minus sign and digits is minus their value. |
| Text.SignedChars | event_timer.py:75 | Text that `int()` accepts, once stripped, holds only digits, signs and underscores. |
| Text.ParseShowInt | event_timer.py:75 | For every integer, `Text.ParseInt` reads back the decimal text `Text.ShowInt` writes. |
| Timer.ParseTime | timer.py:27-32 | `parse_time`. Its contract is stated by `Timer.ParseDigitFields`, `Timer.MinutesAndSeconds`, `Timer.TooManyFields`, `Timer.ParseTimeChars` and `Timer.ParseFormat`. |
| Timer.ParseDigitFields | timer.py:27-31 | One to three digit fields joined by ':' read as hours·3600 + minutes·60 + seconds, missing fields counting 0 and with no fraction. |
| Timer.FieldsValue | timer.py:30-31 | Digit fields read as `int(h or 0)·3600 + int(m or 0)·60 + s`. |
| Timer.MinutesAndSeconds | timer.py:27-31 | `M:S` reads as 60·M + S with no range check, so "1:75" is 135. |
| Timer.ParseFraction | timer.py:28-31 | `S.F` reads as S whole seconds with the fraction digits F. |
| Timer.TooManyFields | timer.py:28-32 | More than three fields raise the format error. |
| Timer.ParseTimeChars | timer.py:28-32 | Accepted text, less one final line break, holds only digits, ':' and '.', in at most three fields. Signs, letters and other characters are refused. |
| Timer.Pad2Small | timer.py:44 | `{n:02d}` of 0 ≤ n < 60 is exactly two digits reading n. |
| Timer.Pad2Nat | timer.py:44 | `{n:02d}` of a natural number reads back as n. |
| Timer.FormatHHMMSS | timer.py:40-44 | `format_hhmmss`. Its contract is stated by `Timer.FormatFields` and `Timer.ParseFormat`. |
| Timer.FormatFields | timer.py:40-44 | `HH:MM:SS` has three digit fields, with minutes and seconds of two digits below 60, and hours·3600 + minutes·60 + seconds equals the input. |
| Timer.ParseFormat | timer.py:27-44 | For every natural n, `Timer.ParseTime` accepts the text `Timer.FormatHHMMSS` makes of n, and it reads back as n whole seconds with no fraction. |
| Timer.StartConsistent | timer.py:143-158 | The state `main` sets up is consistent, counting down, with the full duration remaining. |
| Timer.ProcessKey | timer.py:92-118 | One key of `process_keys`. `Timer.ProcessKeyConsistent`, `Timer.QuitAbsorbs`, `Timer.PauseResume`, `Timer.RestartRefills`, `Timer.OtherKeysIgnored` and `Timer.AlarmRestarts` state its contract. |
| Timer.ProcessKeys | timer.py:92-118 | A batch of keys, in order. `Timer.ProcessKeysConsistent` and `Timer.QuitAbsorbs` state its contract. |
| Timer.ProcessKeyConsistent | timer.py:95-118 | Any key keeps the state consistent and the total unchanged. |
| Timer.ProcessKeysConsistent | timer.py:92-118 | A batch of keys keeps the state consistent and the total unchanged. |
| Timer.QuitAbsorbs | timer.py:96-100 | `q`, `Q` or Ctrl+C stops, clearing countdown, alarm and sound. No later key in the batch changes anything. |
| Timer.PauseResume | timer.py:101-107 | While counting, space toggles pause and changes nothing else, so two spaces give back the state. |
| Timer.RestartRefills | timer.py:108-111 | While counting, `r` refills the remainder to the total and unpauses, and changes nothing else. |
| Timer.OtherKeysIgnored | timer.py:101-111 | While counting, any key other than space, `r`, `q` and Ctrl+C leaves the state unchanged. |
| Timer.AlarmRestarts | timer.py:112-118 | While ringing, any non-quit key restarts the countdown from the total, unpaused and silent. |
| Timer.Tick | timer.py:57-68 | The per-second update of the main loop. `Timer.TickConsistent`, `Timer.StoppedIgnoresTime`, `Timer.PausedIgnoresTime`, `Timer.TickAdditive` and `Timer.RunsOut` state its contract. |
| Timer.TickConsistent | timer.py:57-68 | A tick keeps the state consistent, never raises the remainder, and leaves total, pause and stop alone. |
| Timer.StoppedIgnoresTime | timer.py:51 | A stopped timer does not count. |
| Timer.PausedIgnoresTime | timer.py:52-55 | A paused timer does not count. |
| Timer.TickAdditive | timer.py:57-61 | Elapsed seconds taken in two ticks count as one tick of their sum. |
| Timer.RunsOut | timer.py:59-68 | From the start, the alarm rings iff the elapsed seconds reach the duration. It then rings with remainder 0 and the countdown over. |
| Alarms.DayNumber | event_timer.py:31 | A known weekday name maps to a number below 7. |
| Alarms.DayNamesNumbers | event_timer.py:31 | The map pairs each number 0..6 with exactly one name, Mo through Su, case included. |
| Alarms.DigitPrefix | event_timer.py:57 | `\d+` takes the longest run of leading digits. |
| Alarms.ReadInts | event_timer.py:75 | Either every field reads with `int()`, giving one value per field, or the refused field is reported. |
| Alarms.ReadIntsAll | event_timer.py:75 | If every field reads with `int()`, the list of their values is the result. |
| Alarms.ReadIntsFails | event_timer.py:75 | Reading fails iff some field is refused. |
| Alarms.StripAfterBreaks | event_timer.py:35-38 | Dropping final line feeds before `strip()` changes nothing. |
| Alarms.ParseAlarmLine | event_timer.py:34-91 | `parse_alarm_line`. Its contract is stated by `Alarms.NotARule`, `Alarms.CommentIgnored`, `Alarms.WordsParse`, `Alarms.RenderParses`, `Alarms.PlainUtc`, `Alarms.UtcNoOffset`, `Alarms.UtcDigitsPrefix`, `Alarms.OffsetRaises`, `Alarms.UnknownDaily`, `Alarms.ClockDefaults`, `Alarms.SecondDefault`, `Alarms.ClockExtraIgnored` and `Alarms.LineUntriggered`. |
| Alarms.Repeat | event_timer.py:90 | `[b]*n` holds n copies of b; a fresh alarm has one unfired flag per advance. |
| Alarms.NotARule | event_timer.py:35-40 | Blank lines and lines whose first non-blank character is '#' are no rule. |
| Alarms.CommentIgnored | event_timer.py:42-46 | Only the stripped text before the first '#' is parsed. The stripped text after it becomes the comment, and the whole stripped line is kept. |
| Alarms.AnnotateWords | event_timer.py:48-91 | The line and comment are only stored: they never change whether or how the words parse. |
| Alarms.NotUtc | event_timer.py:52-63 | A first word not starting with u or U leaves the zone local. |
| Alarms.UtcReads | event_timer.py:52-58 | "UTC+N" and "UTC-N" name a zone word and read as ±N hours. |
| Alarms.RuleWordCount | event_timer.py:65-73 | Without a zone word, a rule with more than two words is no rule, and one or two words are parsed. |
| Alarms.ClockParses | event_timer.py:75-78 | A written `h:m:s` reads as that hour, minute and second. |
| Alarms.ThreeFields | event_timer.py:75-78 | Three integer fields become hour, minute and second. |
| Alarms.ClockErrors | event_timer.py:75-78 | A time word raises iff one of its ':' fields is refused by `int()`, and the error is then a bad number. |
| Alarms.PlainUtc | event_timer.py:52-60 | A first word that upper-cases to "UTC" fixes offset 0, records "UTC" as the zone text, and is consumed. |
| Alarms.UtcNoOffset | event_timer.py:52-60 | A `UTC` word not followed by a sign and a digit ("UTCX", "UTC+", "UTC5") is offset 0 and is still consumed. |
| Alarms.UtcDigitsPrefix | event_timer.py:57-58 | After the sign, the offset is the digits read only as far as they go, so "UTC+5X" is 5 and "UTC-12AB" is -12. |
| Alarms.OffsetRaises | event_timer.py:52-60 | A `UTC±N` word gives zone N when -24 < N < 24, and otherwise raises the offset error naming N. |
| Alarms.UnknownDaily | event_timer.py:65-68 | A weekday word that is not one of the seven names makes the alarm daily, exactly as if the word were absent. |
| Alarms.ClockDefaults | event_timer.py:75-78 | A time word of the hour alone gives that hour with minute and second 0. |
| Alarms.SecondDefault | event_timer.py:75-78 | A time word `h:m` gives that hour and minute with second 0. |
| Alarms.ClockExtraIgnored | event_timer.py:75-78 | Fields after the third must still be integers, but their values are ignored: `h:m:s:x…` gives h, m and s. |
| Alarms.LineUntriggered | event_timer.py:80-91 | Every alarm a line gives starts with all its advance flags clear. |
| Alarms.RestParses | event_timer.py:65-78 | An optional weekday name then a time word give that weekday (or daily) and that time. |
| Alarms.WordsParse | event_timer.py:48-91 | The words of a rule give its zone, zone text, weekday and time. |
| Alarms.RenderParses | event_timer.py:34-91 | A rule written out as a line reads back as that rule, with no comment and nothing triggered. |
| Alarms.KeptSpec | event_timer.py:95-98 | The kept line positions rise strictly and are exactly the lines holding a rule. |
| Alarms.CollectOk | event_timer.py:95-98 | Collecting succeeds iff no line raises. |
| Alarms.CollectKept | event_timer.py:95-98 | A successful collection holds, in order, the alarms of exactly the kept lines. |
| Alarms.CollectErr | event_timer.py:95-98 | A failed collection raises the error of the first line that raises. |
| Alarms.CollectAll | event_timer.py:93-99 | A successful collection lists one alarm per rule line, in line order, and every other line is no rule. |
| Alarms.LoadAlarms | event_timer.py:93-99 | `load_alarms`. Its contract is stated by `Alarms.LoadOk`, `Alarms.LoadKept`, `Alarms.LoadErr` and `Alarms.LoadedWellFormed`. |
| Alarms.LoadOk | event_timer.py:93-99 | `load_alarms` succeeds iff no line of the text raises. |
| Alarms.LoadKept | event_timer.py:93-99 | A successful load lists the alarms of the rule lines in line order, and every other line is no rule. |
| Alarms.LoadErr | event_timer.py:93-99 | A failed load raises the error of the first line that raises. |
| Alarms.LoadedWellFormed | event_timer.py:90-99 | Every alarm of a successful load has all its flags clear and one flag per advance, which is what `Schedule.PlanNext` requires. |
| Schedule.WeekdayShift | event_timer.py:119 | Moving forward (w - weekday) % 7 days lands on weekday w. |
| Schedule.OccurrenceSpec | event_timer.py:125-127 | The occurrence falls on the target weekday at the alarm's time, strictly after now and at most a week later. |
| Schedule.OccurrenceFirst | event_timer.py:125-127 | No instant after now on that weekday at that time comes earlier. |
| Schedule.NextOccurrences | event_timer.py:101-131 | `compute_next_occurrences`. Its contract is stated by `Schedule.OccurrencesErr`, `Schedule.OccurrencesSpec`, `Schedule.OccurrenceFirst` and `Schedule.DailyDistinct`. |
| Schedule.OccurrencesErr | event_timer.py:110-115 | The computation raises iff hour, minute or second is out of the clock's range. |
| Schedule.OccurrencesSpec | event_timer.py:117-131 | A daily alarm has 7 occurrences, the i-th on weekday i; any other alarm has 1. Each is the first matching instant after now, in the alarm's zone. |
| Schedule.DailyDistinct | event_timer.py:117-123 | The seven occurrences of a daily alarm are distinct. |
| Schedule.BuildSchedule | event_timer.py:133-139 | `build_alarm_schedule`. Its contract is stated by `Schedule.BuildOk`, `Schedule.BuildSound`, `Schedule.BuildComplete` and `Schedule.ScheduledWithinWeek`. |
| Schedule.BuildOk | event_timer.py:133-139 | Building the schedule succeeds iff every alarm's time is in range. |
| Schedule.BuildSplit | event_timer.py:135-138 | The schedule lists the first alarm's occurrences, then the rest. |
| Schedule.BuildSound | event_timer.py:133-139 | Every entry is an occurrence of some alarm. |
| Schedule.BuildComplete | event_timer.py:133-139 | Every occurrence of every alarm is an entry. |
| Schedule.ScheduledWithinWeek | event_timer.py:117-139 | Every entry lies strictly after now and at most a week later. |
| Schedule.Step | event_timer.py:229-238 | Looking at one more (entry, advance) pair keeps the best choice so far. |
| Schedule.NextEntry | event_timer.py:228-229 | Finishing an entry's advances moves on to the next entry and keeps the choice. |
| Schedule.Conclude | event_timer.py:240-242 | After all pairs, the choice is "none" iff no pair can fire. Otherwise it can fire and has the least fire time, the first such in loop order. |
| Schedule.SelectNextFire | event_timer.py:228-242 | Among untriggered pairs whose fire time (occurrence less advance) is not before now: none iff there are none, else the one with the least fire time, the first found on ties. |
| Schedule.PlanNext | event_timer.py:219-242 | A pass of the loop fails iff some alarm's time is out of range. Otherwise it chooses from the built schedule: nothing iff no untriggered pair has a fire time not before now, else such a pair with the least fire time, the first in loop order on ties. A chosen fire time lies between now and a week later. Its requirement of one flag per advance holds for every successful load, by `Alarms.LoadedWellFormed`. |
| Schedule.MarkTriggered | event_timer.py:266 | Marks the fired advance of the fired alarm. Its contract is stated by `Schedule.FiresOnce`. |
| Schedule.FiresOnce | event_timer.py:266 | After firing, a pair can fire iff it could before and is not the fired advance of the fired alarm. |
| Schedule.Largest | event_timer.py:204 | 0 for an empty list; otherwise an element of the list that is at least every element. |
| Schedule.MarkMissedFrom | event_timer.py:202-214 | `check_missed_alarms_on_start`. Its contract is stated by `Schedule.MarkMissedSpec` and `Schedule.MissedSilenced`. |
| Schedule.MarkMissedSpec | event_timer.py:202-214 | An alarm with an occurrence after now and no further ahead than the largest advance (five minutes) has every advance marked fired; every other alarm is unchanged. |
| Schedule.MissedSilenced | event_timer.py:207-214 | No advance of an alarm silenced at start can then be chosen to fire. |

## Left out

- kt.py user interface: the `GridInput` and `MainUI` widgets, mouse toggling and painting. They are Qt code with no logic of the counter.
- kt.py `ComputeThread` as a thread: the Qt signal, `start`, `terminate()` and `wait()` are concurrency. Only the computation in `run` is modelled (`Placement.Run`, `Pipeline.Compute`).
- kt.py `pprint` at kt.py:140: it is output only.
- kt.py `on_compute_finished`: float division, Python `round` and widget writes.
- timer.py threads, `winsound`, `msvcrt`, `display`, `signal_handler` and the usage and error printing of `main`: I/O.
- timer.py `time.monotonic`: elapsed time reaches `Timer.Tick` as whole seconds. The fractional carry in `last_time` is left to the caller.
- Timer.Start: the timer state holds whole seconds. A duration with a fraction (a float `total_seconds` in the source) keeps its fraction only in `Duration`. So the extra tick the fraction costs before the alarm in the source is not modelled.
- Timer.ParseTime: the source adds `float(d['s'])` (timer.py:31), so it returns a float, and a whole-second total above 2^53 rounds to a nearby float. The model keeps the exact integer.
- Timer.ParseFraction: the fraction is kept as its digit text, not added to the seconds as a float, because floating point is not modelled.
- Python's `\d`, `int()` and `str.upper()` accept or change non-ASCII characters. The model handles ASCII digits and letters only. Whitespace for `str.split()` and `str.strip()`, and line breaks for `str.splitlines()`, follow Python's own tables. `int()` skips the same whitespace except U+001C to U+001F, which it refuses.
- event_timer.py sound and keyboard threads, `display` and `print_alarm_schedule` (formatting with `strftime`, sorting for display): I/O.
- event_timer.py `datetime.now` and the `LOCAL_TZ` lookup: `now` and the local offset are parameters. The local zone is a fixed offset, as `astimezone().tzinfo` gives, and `datetime`'s year limits are not modelled.
- event_timer.py `tz_offset_str`: display only.
- event_timer.py `alarm_loop` waits, key handling and sleeps: blocking I/O. The choice of the next fire (`Schedule.SelectNextFire`) and the marking of the fired advance (`Schedule.MarkTriggered`) are modelled.
- Rotations.AllRotationsSpec: bounds the number of variants by 1 to 4. It does not show that the number is always 1, 2 or 4.
- Schedule.SelectNextFire: `now` is whole seconds. The source compares with `fire_local < now_local` (event_timer.py:234), where `now_local` has microseconds. Fire times are whole seconds. So a fire time equal to the current second is skipped by the source once any fraction of that second has passed, but chosen by the model.
- Schedule.NextOccurrences: one `now` serves every alarm. The source reads the clock again for each alarm (`datetime.now(alarm["tz"])`, event_timer.py:109), apart from the `now_local` of the loop (event_timer.py:219), so the instants may differ by the time the loop takes.
- Text.ParseInt: reads a digit run of any length. CPython 3.11 and later, and the security releases of earlier versions, refuse more than 4300 digits by default with `ValueError`. The bound is interpreter configuration (`PYTHONINTMAXSTRDIGITS`, `sys.set_int_max_str_digits`), not code of these programs. So a time field or `UTC` offset of more than 4300 digits raises in such an interpreter (event_timer.py:58 and :75, and `int(d['h'])` at timer.py:31) but parses in the model.
- Timer.FormatHHMMSS: the same bound makes `{h:02d}` raise for an hour count of more than 4300 digits. So `Timer.ParseFormat` and `Text.ParseShowInt` hold in such an interpreter only for numbers of at most 4300 digits.

=== FILE: alarms.dfy ===
/** The weekly alarm rules of event_timer.py: one rule per line, an optional
    `UTC` offset, an optional weekday, a time and an optional comment. */
module Alarms {
  import opened Wrappers
  import opened Text

  /** `ADVANCE_SECONDS_LIST`: every alarm warns five minutes ahead and then
      fires on time. */
  const Advances: seq<int> := [300, 0]

  /** The zone an alarm's time is read in: the machine's own, or a fixed
      whole number of hours east of UTC. */
  datatype Zone = Local | Utc(hours: int)

  /** One parsed rule, with the same fields as the dictionary the source
      builds. `weekday` is 0 for Monday up to 6 for Sunday, or `None` for an
      alarm that rings every day. */
  datatype Alarm = Alarm(
    hour: int,
    minute: int,
    second: int,
    weekday: Option<nat>,
    zone: Zone,
    zoneText: Option<string>,  // tz_str
    raw: string,               // the rule without its comment
    line: string,              // original_line
    comment: string,
    triggered: seq<bool>)      // advance_triggered, one flag per advance

  /** The errors a rule can raise: an offset of a day or more, which
      `timedelta` or `timezone` refuses, or a time field `int()` refuses. */
  datatype AlarmError = BadOffset(hours: int) | BadNumber(field: string)

  /** `[b]*n`: a list of n copies of one flag. */
  function Repeat(b: bool, n: nat): (r: seq<bool>)
    ensures |r| == n && forall i :: 0 <= i < n ==> r[i] == b
  {
    if n == 0 then [] else [b] + Repeat(b, n - 1)
  }

  /** No advance has fired yet: `[False]*len(ADVANCE_SECONDS_LIST)`. */
  const Untriggered: seq<bool> := Repeat(false, |Advances|)

  /** `weekday_map`: the English two-letter names, case included. */
  function DayNumber(name: string): (r: Option<nat>)
    ensures r.Some? ==> r.value < 7
  {
    if name == "Mo" then Some(0)
    else if name == "Tu" then Some(1)
    else if name == "We" then Some(2)
    else if name == "Th" then Some(3)
    else if name == "Fr" then Some(4)
    else if name == "Sa" then Some(5)
    else if name == "Su" then Some(6)
    else None
  }

  /** The names by weekday number. */
  const DayNames: seq<string> := ["Mo", "Tu", "We", "Th", "Fr", "Sa", "Su"]

  /** The names and the numbers are inverse to each other. */
  lemma DayNamesNumbers(name: string, d: nat)
    requires d < 7
    ensures DayNumber(name) == Some(d) <==> name == DayNames[d]
  {
  }

  /** Position of the first `c` in `s`. */
  function IndexOf(s: string, c: char): (r: nat)
    requires c in s
    ensures r < |s| && s[r] == c && c !in s[..r]
  {
    if s[0] == c then 0 else 1 + IndexOf(s[1..], c)
  }

  /** The rule text of a stripped line: everything before the first `#`,
      stripped again. */
  function RawOf(whole: string): string
  {
    if '#' in whole then Strip(whole[..IndexOf(whole, '#')]) else whole
  }

  /** The comment of a stripped line: everything after the first `#`,
      stripped. */
  function CommentOf(whole: string): string
  {
    if '#' in whole then Strip(whole[IndexOf(whole, '#') + 1..]) else ""
  }

  /** Whether an upper-cased word names a fixed offset. */
  predicate StartsUtc(word: string)
  {
    |word| >= 3 && word[..3] == "UTC"
  }

  /** The leading ASCII digits. */
  function DigitPrefix(s: string): (r: string)
    ensures |r| <= |s| && r == s[..|r|]
    ensures forall i :: 0 <= i < |r| ==> IsDigit(r[i])
    ensures |r| < |s| ==> !IsDigit(s[|r|])
  {
    if |s| == 0 || !IsDigit(s[0]) then [] else [s[0]] + DigitPrefix(s[1..])
  }

  /** The hours of an upper-cased `UTC` word: plain "UTC" is 0; a sign and
      digits right after "UTC" give that signed number, the digits read as
      far as they go; anything else is 0. */
  function UtcHours(word: string): int
    requires StartsUtc(word)
  {
    if word == "UTC" then 0
    else
      var rest := word[3..];
      if |rest| >= 2 && (rest[0] == '+' || rest[0] == '-') && IsDigit(rest[1]) then
        var n: int := Value(DigitPrefix(rest[1..]));
        if rest[0] == '-' then -n else n
      else 0
  }

  /** `list(map(int, fields))`: every field read with `int()`, or the first
      field it refuses. */
  function ReadInts(fields: seq<string>): (r: Result<seq<int>, string>)
    ensures r.Ok? ==> |r.value| == |fields|
    ensures r.Ok? ==> forall i :: 0 <= i < |fields| ==> ParseInt(fields[i]) == Some(r.value[i])
    ensures r.Err? ==> exists i :: 0 <= i < |fields| && fields[i] == r.error && ParseInt(fields[i]).None?
  {
    if |fields| == 0 then Ok([])
    else
      match ParseInt(fields[0])
      case None => Err(fields[0])
      case Some(n) =>
        match ReadInts(fields[1..])
        case Err(f) => Err(f)
        case Ok(ns) => Ok([n] + ns)
  }

  /** The time word: colon-separated integers, minute and second defaulting
      to 0, fields past the third ignored, and no range check. */
  function ParseClock(time: string, day: Option<nat>, zone: Zone, zoneText: Option<string>,
                      raw: string, line: string, comment: string): Result<Option<Alarm>, AlarmError>
  {
    var fields := SplitOn(time, ':');
    match ReadInts(fields)
    case Err(f) => Err(BadNumber(f))
    case Ok(ns) =>
      Ok(Some(Alarm(ns[0], if |ns| > 1 then ns[1] else 0, if |ns| > 2 then ns[2] else 0,
                    day, zone, zoneText, raw, line, comment, Untriggered)))
  }

  /** The words after the zone: a weekday and a time, or a time alone;
      any other number of words is not a rule. An unknown weekday name makes
      the alarm daily. */
  function ParseRest(words: seq<string>, zone: Zone, zoneText: Option<string>,
                     raw: string, line: string, comment: string): Result<Option<Alarm>, AlarmError>
  {
    if |words| == 2 then ParseClock(words[1], DayNumber(words[0]), zone, zoneText, raw, line, comment)
    else if |words| == 1 then ParseClock(words[0], None, zone, zoneText, raw, line, comment)
    else Ok(None)
  }

  /** The words of a rule: a first word starting with "UTC" in any case
      fixes the zone and is consumed; an offset of 24 hours or more is the
      error `timezone` raises. */
  function ParseWords(words: seq<string>, raw: string, line: string, comment: string): Result<Option<Alarm>, AlarmError>
    requires |words| >= 1
  {
    var first := Upper(words[0]);
    if StartsUtc(first) then
      var hours := UtcHours(first);
      if !(-24 < hours < 24) then Err(BadOffset(hours))
      else ParseRest(words[1..], Utc(hours), Some(first), raw, line, comment)
    else ParseRest(words, Local, None, raw, line, comment)
  }

  /** `parse_alarm_line`: blank and comment lines are no rule; otherwise the
      part before any `#` is parsed and the rest kept as the comment. */
  function ParseAlarmLine(text: string): Result<Option<Alarm>, AlarmError>
  {
    var line := RStripChar(text, '\n');
    if |line| == 0 then Ok(None)
    else
      var whole := Strip(line);
      if |whole| == 0 || whole[0] == '#' then Ok(None)
      else
        StripEnds(line);
        RuleHasWords(whole);
        ParseWords(Words(RawOf(whole)), RawOf(whole), whole, CommentOf(whole))
  }

  /** Stripped text starts and ends with a non-blank character. */
  lemma StripEnds(s: string)
    ensures var t := Strip(s); |t| > 0 ==> !IsSpace(t[0]) && !IsSpace(t[|t| - 1])
  {
  }

  /** Stripping text that starts with a non-blank character keeps that
      character in front. */
  lemma StripKeepsFirst(s: string)
    requires |s| > 0 && !IsSpace(s[0])
    ensures |Strip(s)| > 0 && Strip(s)[0] == s[0]
  {
    assert TrimStart(s) == s;
    TrimEndDrops(s);
  }

  /** Text that starts with a non-blank character has a first word. */
  lemma HasWord(s: string)
    requires |s| > 0 && !IsSpace(s[0])
    ensures |Words(s)| >= 1
  {
    assert TrimStart(s) == s;
  }

  /** A line that starts with neither a blank nor `#` keeps a word before
      any comment, so the rule always has a first word. */
  lemma RuleHasWords(whole: string)
    requires |whole| > 0 && !IsSpace(whole[0]) && whole[0] != '#'
    ensures |Words(RawOf(whole))| >= 1
  {
    if '#' in whole {
      var body := whole[..IndexOf(whole, '#')];
      assert |body| > 0 && body[0] == whole[0];
      var raw := Strip(body);
      assert |raw| > 0 && !IsSpace(raw[0]) by {
        StripKeepsFirst(body);
      }
      assert |Words(raw)| >= 1 by {
        HasWord(raw);
      }
      assert RawOf(whole) == raw;
    } else {
      assert |Words(whole)| >= 1 by {
        HasWord(whole);
      }
      assert RawOf(whole) == whole;
    }
  }

  /** Removing final line breaks first does not change what `strip()`
      leaves. */
  lemma {:induction false} StripAfterBreaks(s: string)
    ensures Strip(RStripChar(s, '\n')) == Strip(s)
    decreases |s|
  {
    if |s| > 0 && s[|s| - 1] == '\n' {
      StripAfterBreaks(s[..|s| - 1]);
      StripDropsSpace(s);
    }
  }

  /** `TrimStart` drops exactly the blank characters before position `k`
      when `k` is the first non-blank one. */
  lemma {:induction false} TrimStartAt(s: string, k: nat)
    requires k <= |s| && (forall i :: 0 <= i < k ==> IsSpace(s[i])) && (k < |s| ==> !IsSpace(s[k]))
    ensures TrimStart(s) == s[k..]
  {
    if k > 0 {
      assert IsSpace(s[0]);
      TrimStartAt(s[1..], k - 1);
      assert s[1..][k - 1..] == s[k..];
    }
  }

  /** A final blank character does not change what `strip()` leaves. */
  lemma StripDropsSpace(s: string)
    requires |s| > 0 && IsSpace(s[|s| - 1])
    ensures Strip(s) == Strip(s[..|s| - 1])
  {
    var s' := s[..|s| - 1];
    var t := TrimStart(s);
    var k := |s| - |t|;
    assert t == s[k..];
    TrimStartDrops(s);
    if k == |s| {
      forall i | 0 <= i < |s'| ensures IsSpace(s'[i]) {
        assert s'[i] == s[i];
      }
      TrimStartAt(s', |s'|);
    } else {
      assert s[k] == t[0];
      forall i | 0 <= i < k ensures IsSpace(s'[i]) {
        assert s'[i] == s[i];
      }
      assert s'[k] == s[k];
      TrimStartAt(s', k);
      assert s'[k..] == t[..|t| - 1];
      TrimEndSpace(t);
    }
  }

  /** Trimming the end of text ending in a blank character trims it without
      that character. */
  lemma TrimEndSpace(t: string)
    requires |t| > 0 && IsSpace(t[|t| - 1])
    ensures TrimEnd(t) == TrimEnd(t[..|t| - 1])
  {
  }

  /** Blank lines and lines whose first non-blank character is `#` are no
      rule and raise nothing. */
  lemma NotARule(text: string)
    requires |Strip(text)| == 0 || Strip(text)[0] == '#'
    ensures ParseAlarmLine(text) == Ok(None)
  {
    StripAfterBreaks(text);
  }

  /** The comment's text and the stripped line are attached to the alarm
      parsed from the part before the comment. */
  function Annotate(r: Result<Option<Alarm>, AlarmError>, line: string, comment: string): Result<Option<Alarm>, AlarmError>
  {
    if r.Ok? && r.value.Some? then Ok(Some(r.value.value.(line := line, comment := comment))) else r
  }

  /** Only the part before the first `#` is parsed: a line with a comment
      gives what that part alone gives, with the comment and the whole
      stripped line recorded. */
  lemma CommentIgnored(text: string)
    requires var whole := Strip(text); |whole| > 0 && whole[0] != '#' && '#' in whole
    ensures var whole := Strip(text); var body := whole[..IndexOf(whole, '#')];
      ParseAlarmLine(text) == Annotate(ParseAlarmLine(body), whole, Strip(whole[IndexOf(whole, '#') + 1..]))
  {
    var whole := Strip(text);
    var body := whole[..IndexOf(whole, '#')];
    var raw := RawOf(whole);
    assert !IsSpace(whole[0]) by {
      StripEnds(text);
    }
    assert |Words(raw)| >= 1 by {
      RuleHasWords(whole);
    }
    assert ParseAlarmLine(text) == ParseWords(Words(raw), raw, whole, CommentOf(whole)) by {
      StripAfterBreaks(text);
      assert |RStripChar(text, '\n')| > 0;
    }
    assert ParseAlarmLine(body) == ParseWords(Words(raw), raw, raw, "") by {
      assert |body| > 0 && body[0] == whole[0];
      StripAfterBreaks(body);
      StripKeepsFirst(body);
      assert |RStripChar(body, '\n')| > 0;
      assert Strip(RStripChar(body, '\n')) == raw;
      assert '#' !in raw by {
        assert raw == Strip(body);
        StripInside(body);
      }
      NoComment(raw);
    }
    var comment := Strip(whole[IndexOf(whole, '#') + 1..]);
    assert CommentOf(whole) == comment;
    assert ParseWords(Words(raw), raw, whole, comment) == Annotate(ParseWords(Words(raw), raw, raw, ""), whole, comment) by {
      AnnotateWords(Words(raw), raw, whole, comment);
    }
  }

  /** A line without `#` is all rule and no comment. */
  lemma NoComment(whole: string)
    requires '#' !in whole
    ensures RawOf(whole) == whole && CommentOf(whole) == ""
  {
  }

  /** Stripping only removes characters. */
  lemma StripInside(s: string)
    ensures forall c :: c in Strip(s) ==> c in s
  {
    var t := TrimStart(s);
    assert forall c :: c in t ==> c in s;
  }

  /** The line and the comment only flow into the record. */
  lemma AnnotateWords(words: seq<string>, raw: string, line: string, comment: string)
    requires |words| >= 1
    ensures ParseWords(words, raw, line, comment) == Annotate(ParseWords(words, raw, raw, ""), line, comment)
  {
  }

  /** A rule as its parts: an optional offset in hours, an optional weekday
      and the three time fields. */
  datatype Rule = Rule(offset: Option<int>, day: Option<nat>, hour: int, minute: int, second: int)

  /** Offsets the `timezone` constructor accepts and weekdays that have a
      name. */
  predicate Writable(r: Rule)
  {
    && (r.offset.Some? ==> -24 < r.offset.value < 24)
    && (r.day.Some? ==> r.day.value < 7)
  }

  /** "UTC" followed by the signed hours. */
  function UtcWord(hours: int): string
  {
    ['U', 'T', 'C'] + [if hours < 0 then '-' else '+'] + ShowNat(if hours < 0 then -hours else hours)
  }

  /** The time as `hour:minute:second`. */
  function ClockWord(r: Rule): string
  {
    Join([ShowInt(r.hour), ShowInt(r.minute), ShowInt(r.second)], ':')
  }

  /** The weekday word, if any, and the time word. */
  function DayWords(r: Rule): seq<string>
    requires Writable(r)
  {
    (if r.day.Some? then [DayNames[r.day.value]] else []) + [ClockWord(r)]
  }

  /** The words of a written rule. */
  function RuleWords(r: Rule): seq<string>
    requires Writable(r)
  {
    (if r.offset.Some? then [UtcWord(r.offset.value)] else []) + DayWords(r)
  }

  /** A rule written out as a line, words separated by single spaces. */
  function Render(r: Rule): string
    requires Writable(r)
  {
    Join(RuleWords(r), ' ')
  }

  function ZoneOf(r: Rule): Zone
  {
    if r.offset.Some? then Utc(r.offset.value) else Local
  }

  function ZoneTextOf(r: Rule): Option<string>
  {
    if r.offset.Some? then Some(UtcWord(r.offset.value)) else None
  }

  /** The characters written rules are made of. */
  predicate Tame(c: char)
  {
    IsDigit(c) || ('A' <= c <= 'Z') || ('a' <= c <= 'z') || c == '+' || c == '-' || c == ':'
  }

  predicate TameWord(w: string)
  {
    |w| > 0 && forall j :: 0 <= j < |w| ==> Tame(w[j])
  }

  lemma ShowIntTame(n: int)
    ensures TameWord(ShowInt(n)) && ':' !in ShowInt(n)
    ensures IsDigit(ShowInt(n)[|ShowInt(n)| - 1])
    ensures ShowInt(n)[0] == '-' || IsDigit(ShowInt(n)[0])
  {
    var m := if n < 0 then -n else n;
    ShowNatValue(m);
    var d := ShowNat(m);
    if n < 0 {
      assert ShowInt(n) == ['-'] + d;
    }
  }

  lemma ClockTame(r: Rule)
    ensures TameWord(ClockWord(r))
    ensures ClockWord(r)[0] == '-' || IsDigit(ClockWord(r)[0])
    ensures IsDigit(ClockWord(r)[|ClockWord(r)| - 1])
  {
    var pieces := [ShowInt(r.hour), ShowInt(r.minute), ShowInt(r.second)];
    ShowIntTame(r.hour);
    ShowIntTame(r.minute);
    ShowIntTame(r.second);
    var w := ClockWord(r);
    forall k | 0 <= k < |w| ensures Tame(w[k]) {
      JoinMember(pieces, ':', k);
      if w[k] != ':' {
        var i, j :| 0 <= i < 3 && 0 <= j < |pieces[i]| && w[k] == pieces[i][j];
        assert TameWord(pieces[i]);
      }
    }
    JoinStarts(pieces, ':');
    JoinEnds(pieces, ':');
  }

  lemma UtcTame(hours: int)
    ensures TameWord(UtcWord(hours)) && Upper(UtcWord(hours)) == UtcWord(hours)
  {
    var m := if hours < 0 then -hours else hours;
    ShowNatValue(m);
    var w := UtcWord(hours);
    assert forall j :: 3 < j < |w| ==> w[j] == ShowNat(m)[j - 4];
  }

  /** Every word of a written rule is made of rule characters. */
  lemma WordsTame(r: Rule)
    requires Writable(r)
    ensures forall i :: 0 <= i < |RuleWords(r)| ==> TameWord(RuleWords(r)[i])
  {
    ClockTame(r);
    if r.offset.Some? {
      UtcTame(r.offset.value);
    }
  }

  /** Words of rule characters are whitespace-free. */
  lemma TameSolid(w: string)
    requires TameWord(w)
    ensures Solid(w) && '#' !in w
  {
    forall j | 0 <= j < |w| ensures !IsSpace(w[j]) {
      PrintableNotSpace(w[j]);
    }
  }

  /** A written rule has no surrounding blanks, no final line break and no
      `#`. */
  lemma RenderShape(r: Rule)
    requires Writable(r)
    ensures var text := Render(r);
      && RStripChar(text, '\n') == text && Strip(text) == text && |text| > 0
      && text[0] != '#' && '#' !in text
  {
    var text := Render(r);
    RenderNoHash(r);
    RenderEnds(r);
    assert RStripChar(text, '\n') == text;
    PrintableNotSpace(text[0]);
    PrintableNotSpace(text[|text| - 1]);
    StripTrimmed(text);
  }

  lemma RenderNoHash(r: Rule)
    requires Writable(r)
    ensures '#' !in Render(r)
  {
    var words := RuleWords(r);
    var text := Render(r);
    WordsTame(r);
    forall k | 0 <= k < |text| ensures text[k] != '#' {
      JoinMember(words, ' ', k);
      if text[k] != ' ' {
        var i, j :| 0 <= i < |words| && 0 <= j < |words[i]| && text[k] == words[i][j];
        assert TameWord(words[i]);
      }
    }
  }

  lemma RenderEnds(r: Rule)
    requires Writable(r)
    ensures |Render(r)| > 0 && Tame(Render(r)[0]) && Tame(Render(r)[|Render(r)| - 1])
  {
    var words := RuleWords(r);
    WordsTame(r);
    ClockTame(r);
    JoinStarts(words, ' ');
    JoinEnds(words, ' ');
    assert TameWord(words[0]);
    assert words[|words| - 1] == ClockWord(r);
  }

  /** The written time reads back as its three fields. */
  lemma ClockParses(r: Rule, day: Option<nat>, zone: Zone, zoneText: Option<string>, raw: string, line: string, comment: string)
    ensures ParseClock(ClockWord(r), day, zone, zoneText, raw, line, comment)
      == Ok(Some(Alarm(r.hour, r.minute, r.second, day, zone, zoneText, raw, line, comment, Untriggered)))
  {
    var pieces := [ShowInt(r.hour), ShowInt(r.minute), ShowInt(r.second)];
    var ns := [r.hour, r.minute, r.second];
    assert SplitOn(ClockWord(r), ':') == pieces by {
      ShowIntTame(r.hour);
      ShowIntTame(r.minute);
      ShowIntTame(r.second);
      SplitJoin(pieces, ':');
    }
    assert ReadInts(pieces) == Ok(ns) by {
      ParseShowInt(r.hour);
      ParseShowInt(r.minute);
      ParseShowInt(r.second);
      ReadThree(ShowInt(r.hour), ShowInt(r.minute), ShowInt(r.second), r.hour, r.minute, r.second);
    }
    ThreeFields(ClockWord(r), pieces, ns, day, zone, zoneText, raw, line, comment);
  }

  /** Three integer fields read as their three values. */
  lemma ReadThree(a: string, b: string, c: string, x: int, y: int, z: int)
    requires ParseInt(a) == Some(x) && ParseInt(b) == Some(y) && ParseInt(c) == Some(z)
    ensures ReadInts([a, b, c]) == Ok([x, y, z])
  {
    var none: seq<string> := [];
    var empty: seq<int> := [];
    assert ReadInts(none) == Ok(empty);
    ReadIntsCons(c, none, z, empty);
    assert [c] + none == [c] && [z] + empty == [z];
    ReadIntsCons(b, [c], y, [z]);
    assert [b] + [c] == [b, c] && [y] + [z] == [y, z];
    ReadIntsCons(a, [b, c], x, [y, z]);
    assert [a] + [b, c] == [a, b, c] && [x] + [y, z] == [x, y, z];
  }

  /** An integer field in front of readable fields adds its value in front. */
  lemma ReadIntsCons(f: string, rest: seq<string>, x: int, vs: seq<int>)
    requires ParseInt(f) == Some(x) && ReadInts(rest) == Ok(vs)
    ensures ReadInts([f] + rest) == Ok([x] + vs)
  {
    assert ([f] + rest)[1..] == rest;
  }

  /** A time word of three integer fields reads as those three. */
  lemma ThreeFields(time: string, fields: seq<string>, ns: seq<int>, day: Option<nat>, zone: Zone,
                    zoneText: Option<string>, raw: string, line: string, comment: string)
    requires SplitOn(time, ':') == fields && ReadInts(fields) == Ok(ns) && |ns| == 3
    ensures ParseClock(time, day, zone, zoneText, raw, line, comment)
      == Ok(Some(Alarm(ns[0], ns[1], ns[2], day, zone, zoneText, raw, line, comment, Untriggered)))
  {
  }

  /** Fields that `int()` all accepts are read as their values. */
  lemma {:induction false} ReadIntsAll(fields: seq<string>, ns: seq<int>)
    requires |fields| == |ns| && forall i :: 0 <= i < |fields| ==> ParseInt(fields[i]) == Some(ns[i])
    ensures ReadInts(fields) == Ok(ns)
    decreases |fields|
  {
    if |fields| > 0 {
      assert ReadInts(fields[1..]) == Ok(ns[1..]) by {
        forall i | 0 <= i < |fields| - 1 ensures ParseInt(fields[1..][i]) == Some(ns[1..][i]) {
          assert fields[1..][i] == fields[i + 1];
        }
        ReadIntsAll(fields[1..], ns[1..]);
      }
      assert ParseInt(fields[0]) == Some(ns[0]);
      assert [ns[0]] + ns[1..] == ns;
    }
  }

  /** The weekday and time words read back as the rule's weekday and time. */
  lemma RestParses(r: Rule, zone: Zone, zoneText: Option<string>, raw: string)
    requires Writable(r)
    ensures ParseRest(DayWords(r), zone, zoneText, raw, raw, "")
      == Ok(Some(Alarm(r.hour, r.minute, r.second, r.day, zone, zoneText, raw, raw, "", Untriggered)))
  {
    var words := DayWords(r);
    assert ParseRest(words, zone, zoneText, raw, raw, "") == ParseClock(ClockWord(r), r.day, zone, zoneText, raw, raw, "") by {
      if r.day.Some? {
        var d := r.day.value;
        assert words == [DayNames[d], ClockWord(r)];
        DayNamesNumbers(DayNames[d], d);
      } else {
        assert words == [ClockWord(r)];
      }
    }
    ClockParses(r, r.day, zone, zoneText, raw, raw, "");
  }

  /** A word not starting with `U` or `u` does not name a zone. */
  lemma NotUtc(w: string)
    requires |w| > 0 && w[0] != 'U' && w[0] != 'u'
    ensures !StartsUtc(Upper(w))
  {
    assert Upper(w)[0] != 'U';
  }

  /** The sign and digits after "UTC" read back as the offset. */
  lemma UtcReads(hours: int)
    ensures StartsUtc(UtcWord(hours)) && UtcHours(UtcWord(hours)) == hours
  {
    var m := if hours < 0 then -hours else hours;
    ShowNatValue(m);
    var w := UtcWord(hours);
    var rest := w[3..];
    assert rest[1..] == ShowNat(m);
    DigitPrefixAll(ShowNat(m));
  }

  /** The leading digits of a string of digits are all of it. */
  lemma DigitPrefixAll(s: string)
    requires forall i :: 0 <= i < |s| ==> IsDigit(s[i])
    ensures DigitPrefix(s) == s
  {
  }

  /** The words of a written rule read back as the rule. */
  lemma WordsParse(r: Rule, raw: string)
    requires Writable(r)
    ensures ParseWords(RuleWords(r), raw, raw, "")
      == Ok(Some(Alarm(r.hour, r.minute, r.second, r.day, ZoneOf(r), ZoneTextOf(r), raw, raw, "", Untriggered)))
  {
    var words := RuleWords(r);
    if r.offset.Some? {
      UtcTame(r.offset.value);
      UtcReads(r.offset.value);
      assert words[1..] == DayWords(r);
      RestParses(r, ZoneOf(r), ZoneTextOf(r), raw);
    } else {
      assert words == DayWords(r);
      ClockTame(r);
      NotUtc(words[0]);
      RestParses(r, Local, None, raw);
    }
  }

  /** Writing a rule out and parsing the line gives back the rule: its
      offset, weekday and time, with the line as its text and no comment. */
  lemma RenderParses(r: Rule)
    requires Writable(r)
    ensures ParseAlarmLine(Render(r))
      == Ok(Some(Alarm(r.hour, r.minute, r.second, r.day, ZoneOf(r), ZoneTextOf(r), Render(r), Render(r), "", Untriggered)))
  {
    var text := Render(r);
    var words := RuleWords(r);
    assert ParseAlarmLine(text) == ParseWords(Words(text), text, text, "") by {
      RenderShape(r);
      NoComment(text);
    }
    assert Words(text) == words by {
      WordsTame(r);
      forall i | 0 <= i < |words| ensures |words[i]| > 0 && Solid(words[i]) {
        TameSolid(words[i]);
      }
      WordsJoin(words);
    }
    WordsParse(r, text);
  }

  /** Only a time word, or a weekday and a time word, after a local first
      word make a rule: more words are no rule, fewer or as many never are. */
  lemma RuleWordCount(words: seq<string>, raw: string, line: string, comment: string)
    requires |words| >= 1 && !StartsUtc(Upper(words[0]))
    ensures ParseWords(words, raw, line, comment) == Ok(None) <==> |words| > 2
  {
  }

  /** Every field is an integer. */
  predicate AllInts(fields: seq<string>)
  {
    forall i :: 0 <= i < |fields| ==> ParseInt(fields[i]).Some?
  }

  /** The integers of a field list read exactly when every field is one. */
  lemma ReadIntsFails(fields: seq<string>)
    ensures ReadInts(fields).Ok? <==> AllInts(fields)
  {
    if !AllInts(fields) {
      var i :| 0 <= i < |fields| && ParseInt(fields[i]).None?;
    }
  }

  /** A time word fails exactly when one of its colon-separated fields is
      not an integer, and the error is a bad number. */
  lemma ClockErrors(time: string, day: Option<nat>, zone: Zone, zoneText: Option<string>, raw: string, line: string, comment: string)
    ensures var c := ParseClock(time, day, zone, zoneText, raw, line, comment);
      && (c.Err? <==> !AllInts(SplitOn(time, ':')))
      && (c.Err? ==> c.error.BadNumber?)
  {
    var fields := SplitOn(time, ':');
    ReadIntsFails(fields);
    var c := ParseClock(time, day, zone, zoneText, raw, line, comment);
    match ReadInts(fields)
    case Err(f) =>
      assert c == Err(BadNumber(f));
    case Ok(ns) =>
      assert c.Ok?;
  }

  /** A first word that upper-cases to plain "UTC" fixes the zone at
      offset 0 and is consumed. */
  lemma PlainUtc(w: string, rest: seq<string>, raw: string, line: string, comment: string)
    requires Upper(w) == "UTC"
    ensures ParseWords([w] + rest, raw, line, comment) == ParseRest(rest, Utc(0), Some("UTC"), raw, line, comment)
  {
    assert ([w] + rest)[0] == w && ([w] + rest)[1..] == rest;
  }

  /** A `UTC` word whose fourth and fifth characters are not a sign and a
      digit ("UTCX", "UTC+", "UTC5") is offset 0, and is still consumed. */
  lemma UtcNoOffset(w: string, rest: seq<string>, raw: string, line: string, comment: string)
    requires StartsUtc(Upper(w))
    requires !(|w| >= 5 && (w[3] == '+' || w[3] == '-') && IsDigit(w[4]))
    ensures ParseWords([w] + rest, raw, line, comment) == ParseRest(rest, Utc(0), Some(Upper(w)), raw, line, comment)
  {
    var u := Upper(w);
    assert ([w] + rest)[0] == w && ([w] + rest)[1..] == rest;
    if u != "UTC" && |u| >= 5 {
      assert u[3] == '+' || u[3] == '-' ==> u[3] == w[3];
      assert IsDigit(u[4]) ==> u[4] == w[4];
    }
  }

  /** The leading digits stop at the first character that is not one. */
  lemma {:induction false} DigitPrefixStops(d: string, tail: string)
    requires forall i :: 0 <= i < |d| ==> IsDigit(d[i])
    requires |tail| == 0 || !IsDigit(tail[0])
    ensures DigitPrefix(d + tail) == d
    decreases |d|
  {
    if |d| > 0 {
      assert (d + tail)[0] == d[0];
      assert (d + tail)[1..] == d[1..] + tail;
      DigitPrefixStops(d[1..], tail);
      assert [d[0]] + d[1..] == d;
    } else {
      assert d + tail == tail;
    }
  }

  /** After the sign the offset is the digits read as far as they go:
      whatever follows the first non-digit is ignored, so "UTC+5X" is 5. */
  lemma UtcDigitsPrefix(sign: char, d: string, tail: string)
    requires sign == '+' || sign == '-'
    requires IsDigits(d) && (|tail| == 0 || !IsDigit(tail[0]))
    ensures StartsUtc(['U', 'T', 'C', sign] + d + tail)
    ensures UtcHours(['U', 'T', 'C', sign] + d + tail) == if sign == '-' then -(Value(d) as int) else Value(d)
  {
    var w := ['U', 'T', 'C', sign] + d + tail;
    assert w[..3] == "UTC";
    assert w != "UTC";
    var rest := w[3..];
    assert rest[0] == sign && rest[1] == d[0];
    assert rest[1..] == d + tail;
    DigitPrefixStops(d, tail);
  }

  /** An offset of fewer than 24 hours either way fixes the zone; a day or
      more raises, naming the hours. */
  lemma OffsetRaises(h: int, rest: seq<string>, raw: string, line: string, comment: string)
    ensures ParseWords([UtcWord(h)] + rest, raw, line, comment)
      == if -24 < h < 24 then ParseRest(rest, Utc(h), Some(UtcWord(h)), raw, line, comment) else Err(BadOffset(h))
  {
    UtcTame(h);
    UtcReads(h);
    assert ([UtcWord(h)] + rest)[0] == UtcWord(h) && ([UtcWord(h)] + rest)[1..] == rest;
  }

  /** A weekday word that is not one of the seven names makes the alarm
      daily, as if the word were not there. */
  lemma UnknownDaily(name: string, time: string, zone: Zone, zoneText: Option<string>, raw: string, line: string, comment: string)
    requires name !in DayNames
    ensures ParseRest([name, time], zone, zoneText, raw, line, comment) == ParseRest([time], zone, zoneText, raw, line, comment)
  {
    forall d: nat | d < 7 ensures DayNumber(name) != Some(d) {
      DayNamesNumbers(name, d);
    }
  }

  /** Each number written in decimal. */
  function ShowInts(ns: seq<int>): (r: seq<string>)
    ensures |r| == |ns| && forall i :: 0 <= i < |ns| ==> r[i] == ShowInt(ns[i])
  {
    seq(|ns|, i requires 0 <= i < |ns| => ShowInt(ns[i]))
  }

  /** Numbers written with colons between them read back as the numbers. */
  lemma ClockFieldsRead(ns: seq<int>)
    requires |ns| >= 1
    ensures ReadInts(SplitOn(Join(ShowInts(ns), ':'), ':')) == Ok(ns)
  {
    var pieces := ShowInts(ns);
    forall i | 0 <= i < |pieces| ensures ':' !in pieces[i] && ParseInt(pieces[i]) == Some(ns[i]) {
      ShowIntTame(ns[i]);
      ParseShowInt(ns[i]);
    }
    SplitJoin(pieces, ':');
    ReadIntsAll(pieces, ns);
  }

  /** A time word of the hour alone has minute and second 0. */
  lemma ClockDefaults(h: int, day: Option<nat>, zone: Zone, zoneText: Option<string>, raw: string, line: string, comment: string)
    ensures ParseClock(ShowInt(h), day, zone, zoneText, raw, line, comment)
      == Ok(Some(Alarm(h, 0, 0, day, zone, zoneText, raw, line, comment, Untriggered)))
  {
    ClockFieldsRead([h]);
    assert Join(ShowInts([h]), ':') == ShowInt(h);
  }

  /** A time word of hour and minute has second 0. */
  lemma SecondDefault(h: int, m: int, day: Option<nat>, zone: Zone, zoneText: Option<string>, raw: string, line: string, comment: string)
    ensures ParseClock(ShowInt(h) + [':'] + ShowInt(m), day, zone, zoneText, raw, line, comment)
      == Ok(Some(Alarm(h, m, 0, day, zone, zoneText, raw, line, comment, Untriggered)))
  {
    var ns := [h, m];
    ClockFieldsRead(ns);
    assert ShowInts(ns)[1..] == [ShowInt(m)];
    assert Join(ShowInts(ns), ':') == ShowInt(h) + [':'] + ShowInt(m);
  }

  /** Fields after the third are read, so each must be an integer, but
      their values are ignored. */
  lemma ClockExtraIgnored(h: int, m: int, s: int, extra: seq<int>, day: Option<nat>, zone: Zone,
                          zoneText: Option<string>, raw: string, line: string, comment: string)
    ensures ParseClock(Join(ShowInts([h, m, s] + extra), ':'), day, zone, zoneText, raw, line, comment)
      == Ok(Some(Alarm(h, m, s, day, zone, zoneText, raw, line, comment, Untriggered)))
  {
    var ns := [h, m, s] + extra;
    ClockFieldsRead(ns);
    assert ns[0] == h && ns[1] == m && ns[2] == s;
  }

  /** Every alarm a time word gives starts with its advance flags clear. */
  lemma ClockUntriggered(time: string, day: Option<nat>, zone: Zone, zoneText: Option<string>, raw: string, line: string, comment: string)
    ensures var c := ParseClock(time, day, zone, zoneText, raw, line, comment);
      c.Ok? && c.value.Some? ==> c.value.value.triggered == Untriggered
  {
  }

  /** Every alarm the words of a rule give start with its advance flags
      clear. */
  lemma WordsUntriggered(words: seq<string>, raw: string, line: string, comment: string)
    requires |words| >= 1
    ensures var p := ParseWords(words, raw, line, comment); p.Ok? && p.value.Some? ==> p.value.value.triggered == Untriggered
  {
    var first := Upper(words[0]);
    var rest := if StartsUtc(first) then words[1..] else words;
    var zone := if StartsUtc(first) then Utc(UtcHours(first)) else Local;
    var zoneText := if StartsUtc(first) then Some(first) else None;
    if |rest| == 2 {
      ClockUntriggered(rest[1], DayNumber(rest[0]), zone, zoneText, raw, line, comment);
    } else if |rest| == 1 {
      ClockUntriggered(rest[0], None, zone, zoneText, raw, line, comment);
    }
  }

  /** Every alarm a line gives starts with all its advance flags clear. */
  lemma LineUntriggered(text: string)
    ensures var p := ParseAlarmLine(text); p.Ok? && p.value.Some? ==> p.value.value.triggered == Untriggered
  {
    var line := RStripChar(text, '\n');
    if |line| > 0 {
      var whole := Strip(line);
      if |whole| > 0 && whole[0] != '#' {
        StripEnds(line);
        RuleHasWords(whole);
        WordsUntriggered(Words(RawOf(whole)), RawOf(whole), whole, CommentOf(whole));
      }
    }
  }

  /** `[parse_alarm_line(line) for line in lines]`. */
  function ParseLines(lines: seq<string>): (r: seq<Result<Option<Alarm>, AlarmError>>)
    ensures |r| == |lines| && forall i :: 0 <= i < |lines| ==> r[i] == ParseAlarmLine(lines[i])
  {
    seq(|lines|, i requires 0 <= i < |lines| => ParseAlarmLine(lines[i]))
  }

  /** The loop of `load_alarms` from line `from` on: parsed rules are kept in
      order, lines that are no rule are skipped, and the first error is
      raised. */
  function CollectFrom(results: seq<Result<Option<Alarm>, AlarmError>>, from: nat): Result<seq<Alarm>, AlarmError>
    requires from <= |results|
    decreases |results| - from
  {
    if from == |results| then Ok([])
    else
      match results[from]
      case Err(e) => Err(e)
      case Ok(None) => CollectFrom(results, from + 1)
      case Ok(Some(a)) =>
        match CollectFrom(results, from + 1)
        case Err(e) => Err(e)
        case Ok(rest) => Ok([a] + rest)
  }

  /** `load_alarms`: the rules of the text's lines. */
  function LoadAlarms(text: string): Result<seq<Alarm>, AlarmError>
  {
    CollectFrom(ParseLines(SplitLines(text)), 0)
  }

  /** The positions, from `from` on, of the lines that hold a rule. */
  function Kept(results: seq<Result<Option<Alarm>, AlarmError>>, from: nat): seq<nat>
    requires from <= |results|
    decreases |results| - from
  {
    if from == |results| then []
    else (if results[from].Ok? && results[from].value.Some? then [from] else []) + Kept(results, from + 1)
  }

  /** The kept positions rise strictly and are exactly the lines that hold a
      rule. */
  lemma KeptSpec(results: seq<Result<Option<Alarm>, AlarmError>>, from: nat)
    requires from <= |results|
    ensures var ks := Kept(results, from);
      && (forall k :: 0 <= k < |ks| ==> from <= ks[k] < |results|)
      && (forall k, l :: 0 <= k < l < |ks| ==> ks[k] < ks[l])
      && (forall i :: from <= i < |results| ==> (i in ks <==> results[i].Ok? && results[i].value.Some?))
  {
    KeptBounds(results, from);
    KeptRising(results, from);
    KeptMembers(results, from);
  }

  /** The kept positions lie between `from` and the end. */
  lemma {:induction false} KeptBounds(results: seq<Result<Option<Alarm>, AlarmError>>, from: nat)
    requires from <= |results|
    ensures forall k :: 0 <= k < |Kept(results, from)| ==> from <= Kept(results, from)[k] < |results|
    decreases |results| - from
  {
    if from < |results| {
      var ks := Kept(results, from);
      var rest := Kept(results, from + 1);
      var head: seq<nat> := if results[from].Ok? && results[from].value.Some? then [from] else [];
      assert ks == head + rest;
      KeptBounds(results, from + 1);
      forall k | 0 <= k < |ks| ensures from <= ks[k] < |results| {
        if k >= |head| {
          assert ks[k] == rest[k - |head|];
        } else {
          assert ks[k] == head[k] == from;
        }
      }
    }
  }

  /** The kept positions rise strictly. */
  lemma {:induction false} KeptRising(results: seq<Result<Option<Alarm>, AlarmError>>, from: nat)
    requires from <= |results|
    ensures forall k, l :: 0 <= k < l < |Kept(results, from)| ==> Kept(results, from)[k] < Kept(results, from)[l]
    decreases |results| - from
  {
    if from < |results| {
      var ks := Kept(results, from);
      var rest := Kept(results, from + 1);
      var head: seq<nat> := if results[from].Ok? && results[from].value.Some? then [from] else [];
      assert ks == head + rest;
      KeptRising(results, from + 1);
      KeptBounds(results, from + 1);
      forall k, l | 0 <= k < l < |ks| ensures ks[k] < ks[l] {
        assert ks[l] == rest[l - |head|];
        if k >= |head| {
          assert ks[k] == rest[k - |head|];
        }
      }
    }
  }

  /** A position from `from` on is kept exactly when its line holds a rule. */
  lemma {:induction false} KeptMembers(results: seq<Result<Option<Alarm>, AlarmError>>, from: nat)
    requires from <= |results|
    ensures forall i :: from <= i < |results| ==> (i in Kept(results, from) <==> results[i].Ok? && results[i].value.Some?)
    decreases |results| - from
  {
    if from < |results| {
      var ks := Kept(results, from);
      var rest := Kept(results, from + 1);
      var head: seq<nat> := if results[from].Ok? && results[from].value.Some? then [from] else [];
      assert ks == head + rest;
      KeptMembers(results, from + 1);
      KeptBounds(results, from + 1);
      forall i | from <= i < |results| ensures i in ks <==> results[i].Ok? && results[i].value.Some? {
        assert i in ks <==> i in head || i in rest;
      }
    }
  }

  /** Loading succeeds exactly when no line raises; it then holds the rule
      of every kept line, in line order. */
  lemma {:induction false} CollectOk(results: seq<Result<Option<Alarm>, AlarmError>>, from: nat)
    requires from <= |results|
    ensures CollectFrom(results, from).Ok? <==> forall i :: from <= i < |results| ==> results[i].Ok?
    decreases |results| - from
  {
    if from < |results| {
      CollectOk(results, from + 1);
    }
  }

  /** A successful collection pairs its rules, in order, with the kept
      positions. */
  lemma {:induction false} CollectKept(results: seq<Result<Option<Alarm>, AlarmError>>, from: nat)
    requires from <= |results|
    ensures var c := CollectFrom(results, from); var ks := Kept(results, from);
      c.Ok? ==> |c.value| == |ks| && forall k :: 0 <= k < |ks| ==> ks[k] < |results| && results[ks[k]] == Ok(Some(c.value[k]))
    decreases |results| - from
  {
    var c := CollectFrom(results, from);
    var ks := Kept(results, from);
    if from < |results| && c.Ok? {
      var c' := CollectFrom(results, from + 1);
      var rest := Kept(results, from + 1);
      assert c'.Ok?;
      assert |c'.value| == |rest| && forall k :: 0 <= k < |rest| ==> rest[k] < |results| && results[rest[k]] == Ok(Some(c'.value[k])) by {
        CollectKept(results, from + 1);
      }
      if results[from].Ok? && results[from].value.Some? {
        assert c.value == [results[from].value.value] + c'.value;
        assert ks == [from] + rest;
      } else {
        assert c == c' && ks == rest;
      }
    }
  }

  /** A failing load raises the error of its first failing line. */
  lemma {:induction false} CollectErr(results: seq<Result<Option<Alarm>, AlarmError>>, from: nat)
    requires from <= |results| && CollectFrom(results, from).Err?
    ensures exists i :: (from <= i < |results| && results[i] == Err(CollectFrom(results, from).error)
                         && forall j :: from <= j < i ==> results[j].Ok?)
    decreases |results| - from
  {
    if results[from].Ok? {
      CollectErr(results, from + 1);
      var i :| from + 1 <= i < |results| && results[i] == Err(CollectFrom(results, from + 1).error)
        && forall j :: from + 1 <= j < i ==> results[j].Ok?;
      assert results[i] == Err(CollectFrom(results, from).error);
    }
  }

  /** No line raises when parsed. */
  predicate NoneRaise(lines: seq<string>)
  {
    forall i :: 0 <= i < |lines| ==> ParseAlarmLine(lines[i]).Ok?
  }

  /** Loading succeeds exactly when no line raises. */
  lemma LoadOk(text: string)
    ensures LoadAlarms(text).Ok? <==> NoneRaise(SplitLines(text))
  {
    var lines := SplitLines(text);
    var rs := ParseLines(lines);
    assert LoadAlarms(text) == CollectFrom(rs, 0);
    CollectOk(rs, 0);
    assert NoneRaise(lines) <==> (forall i :: 0 <= i < |rs| ==> rs[i].Ok?);
  }

  /** A successful load holds, in line order, the rules of exactly the lines
      that have one; every other line is no rule. */
  lemma LoadKept(text: string)
    requires LoadAlarms(text).Ok?
    ensures var lines := SplitLines(text); var ks := Kept(ParseLines(lines), 0); var alarms := LoadAlarms(text).value;
      && |alarms| == |ks|
      && (forall k :: 0 <= k < |ks| ==> ks[k] < |lines| && ParseAlarmLine(lines[ks[k]]) == Ok(Some(alarms[k])))
      && (forall k, l :: 0 <= k < l < |ks| ==> ks[k] < ks[l])
      && (forall i :: 0 <= i < |lines| && i !in ks ==> ParseAlarmLine(lines[i]) == Ok(None))
  {
    var lines := SplitLines(text);
    var rs := ParseLines(lines);
    assert CollectFrom(rs, 0) == LoadAlarms(text);
    CollectAll(rs);
  }

  /** A successful load gives alarms with every advance flag clear, one
      flag per advance, as the schedule needs them. */
  lemma LoadedWellFormed(text: string)
    requires LoadAlarms(text).Ok?
    ensures forall i :: 0 <= i < |LoadAlarms(text).value| ==>
      LoadAlarms(text).value[i].triggered == Untriggered && |LoadAlarms(text).value[i].triggered| == |Advances|
  {
    LoadKept(text);
    var lines := SplitLines(text);
    var ks := Kept(ParseLines(lines), 0);
    forall i | 0 <= i < |LoadAlarms(text).value| ensures LoadAlarms(text).value[i].triggered == Untriggered {
      LineUntriggered(lines[ks[i]]);
    }
  }

  /** What a successful collection promises, over the parsed lines. */
  lemma CollectAll(rs: seq<Result<Option<Alarm>, AlarmError>>)
    requires CollectFrom(rs, 0).Ok?
    ensures var ks := Kept(rs, 0); var alarms := CollectFrom(rs, 0).value;
      && |alarms| == |ks|
      && (forall k :: 0 <= k < |ks| ==> ks[k] < |rs| && rs[ks[k]] == Ok(Some(alarms[k])))
      && (forall k, l :: 0 <= k < l < |ks| ==> ks[k] < ks[l])
      && (forall i :: 0 <= i < |rs| && i !in ks ==> rs[i] == Ok(None))
  {
    var ks := Kept(rs, 0);
    assert forall i :: 0 <= i < |rs| ==> rs[i].Ok? by {
      CollectOk(rs, 0);
    }
    CollectKept(rs, 0);
    KeptSpec(rs, 0);
  }

  /** Line `i` is the first to raise, and it raises `e`. */
  predicate FirstRaise(lines: seq<string>, i: nat, e: AlarmError)
  {
    && i < |lines| && ParseAlarmLine(lines[i]) == Err(e)
    && forall j :: 0 <= j < i ==> ParseAlarmLine(lines[j]).Ok?
  }

  /** A failing load raises the error of its first failing line. */
  lemma LoadErr(text: string)
    requires LoadAlarms(text).Err?
    ensures exists i: nat :: FirstRaise(SplitLines(text), i, LoadAlarms(text).error)
  {
    var lines := SplitLines(text);
    var rs := ParseLines(lines);
    var e := LoadAlarms(text).error;
    assert LoadAlarms(text) == CollectFrom(rs, 0);
    CollectErr(rs, 0);
    var i :| 0 <= i < |rs| && rs[i] == Err(e) && forall j :: 0 <= j < i ==> rs[j].Ok?;
    assert FirstRaise(lines, i, e);
  }
}

=== FILE: cardinality.dfy ===
/** Counting facts about finite sets and sequences used by the placement laws. */
module Cardinality {

  /** The image of a set under a map. */
  function Image<A, B>(s: set<A>, f: A -> B): set<B>
  {
    set a | a in s :: f(a)
  }

  ghost predicate InjectiveOn<A, B>(s: set<A>, f: A -> B)
  {
    forall a, b :: a in s && b in s && f(a) == f(b) ==> a == b
  }

  /** A map that is one-to-one on a set keeps its size. */
  lemma {:induction false} InjectiveImageCard<A, B>(s: set<A>, f: A -> B)
    requires InjectiveOn(s, f)
    ensures |Image(s, f)| == |s|
    decreases |s|
  {
    if s != {} {
      var a :| a in s;
      var rest := s - {a};
      InjectiveImageCard(rest, f);
      assert Image(s, f) == Image(rest, f) + {f(a)};
      assert f(a) !in Image(rest, f);
    }
  }

  /** A subset is no larger. */
  lemma {:induction false} SubsetCard<T>(a: set<T>, b: set<T>)
    requires a <= b
    ensures |a| <= |b|
    decreases |b|
  {
    if a != {} {
      var x :| x in a;
      SubsetCard(a - {x}, b - {x});
    }
  }

  /** Removing more elements leaves fewer behind. */
  lemma FewerLeft<T>(all: set<T>, seen: set<T>, seen': set<T>)
    requires seen <= seen' <= all && seen != seen'
    ensures |all - seen'| < |all - seen|
  {
    assert !(seen' <= seen);
    var x :| x in seen' && x !in seen;
    var rest := (all - seen) - {x};
    assert all - seen' <= rest;
    assert all - seen == rest + {x};
    SubsetCard(all - seen', rest);
  }

  ghost predicate Distinct<T>(xs: seq<T>)
  {
    forall i, j :: 0 <= i < j < |xs| ==> xs[i] != xs[j]
  }

  /** The elements of a sequence, as a set. */
  function Elems<T>(xs: seq<T>): set<T>
  {
    set x | x in xs
  }

  /** A sequence without repetitions has as many elements as its set. */
  lemma {:induction false} DistinctCard<T>(xs: seq<T>)
    requires Distinct(xs)
    ensures |Elems(xs)| == |xs|
  {
    if xs != [] {
      var rest := xs[1..];
      assert Distinct(rest) by {
        forall i, j | 0 <= i < j < |rest| ensures rest[i] != rest[j] {
          assert rest[i] == xs[i + 1] && rest[j] == xs[j + 1];
        }
      }
      DistinctCard(rest);
      assert Elems(xs) == Elems(rest) + {xs[0]};
      assert forall k :: 0 <= k < |rest| ==> rest[k] == xs[k + 1] != xs[0];
    }
  }
}

=== FILE: extraction.dfy ===
/** Splitting the marked cells of the input grid into 4-connected blocks
    (kt.py `extract_blocks_from_input`). */
module Extraction {
  import opened Cardinality
  import opened Matrices
  import opened Rotations

  /** The input grid is square; it is indexed `g[y][x]`. */
  predicate Square(g: Matrix)
  {
    forall r :: 0 <= r < |g| ==> |g[r]| == |g|
  }

  /** A cell inside the grid that holds a 1. */
  predicate Marked(g: Matrix, c: Cell)
  {
    0 <= c.y < |g| && 0 <= c.x < |g| && c.x < |g[c.y]| && g[c.y][c.x] == 1
  }

  /** The four neighbours, in the order the flood fill tries them. */
  function Neighbours(c: Cell): seq<Cell>
  {
    [Cell(c.x + 1, c.y), Cell(c.x - 1, c.y), Cell(c.x, c.y + 1), Cell(c.x, c.y - 1)]
  }

  /** Sharing a side; diagonal cells are not adjacent. */
  predicate Adjacent(a: Cell, b: Cell)
  {
    || (a.y == b.y && (a.x - b.x == 1 || b.x - a.x == 1))
    || (a.x == b.x && (a.y - b.y == 1 || b.y - a.y == 1))
  }

  lemma NeighboursAdjacent(c: Cell)
    ensures forall k :: 0 <= k < 4 ==> Adjacent(Neighbours(c)[k], c) && Adjacent(c, Neighbours(c)[k])
    ensures forall d :: Adjacent(c, d) ==> d in Neighbours(c)
  {
  }

  /** No marked cell outside `s` touches a cell of `s`. */
  ghost predicate Closed(g: Matrix, s: set<Cell>)
  {
    forall a, b :: a in s && Adjacent(a, b) && Marked(g, b) ==> b in s
  }

  /** Every cell after the first touches an earlier one, so all of them are
      connected to the first. */
  ghost predicate Linked(cs: seq<Cell>)
  {
    forall i :: 0 < i < |cs| ==> TouchesEarlier(cs, i)
  }

  /** Cell `i` of `cs` shares a side with a cell listed before it. */
  ghost predicate TouchesEarlier(cs: seq<Cell>, i: int)
    requires 0 <= i < |cs|
  {
    exists j :: 0 <= j < i && Adjacent(cs[i], cs[j])
  }

  /** Row-major order: upper rows first, then left to right. */
  predicate Before(a: Cell, b: Cell)
  {
    a.y < b.y || (a.y == b.y && a.x < b.x)
  }

  /** One maximal 4-connected group of marked cells, listed without
      repetition, whose first cell is its first in row-major order. */
  ghost predicate IsComponent(g: Matrix, cs: seq<Cell>)
  {
    && |cs| > 0
    && Distinct(cs)
    && (forall c :: c in cs ==> Marked(g, c))
    && Linked(cs)
    && Closed(g, Elems(cs))
    && (forall c :: c in cs && c != cs[0] ==> Before(cs[0], c))
  }

  /** `comps` are the components of `g`: each marked cell is in exactly one of
      them, and they are ordered by their first cell. */
  ghost predicate Decomposition(g: Matrix, comps: seq<seq<Cell>>)
  {
    && (forall i :: 0 <= i < |comps| ==> IsComponent(g, comps[i]))
    && (forall c :: Marked(g, c) ==> exists i :: 0 <= i < |comps| && c in comps[i])
    && (forall i, j, c :: 0 <= i < j < |comps| && c in comps[i] ==> c !in comps[j])
    && (forall i, j :: 0 <= i < j < |comps| ==> Before(comps[i][0], comps[j][0]))
  }

  /** All marked cells of a square grid. */
  function MarkedCells(g: Matrix): set<Cell>
  {
    set y, x | 0 <= y < |g| && 0 <= x < |g[y]| && g[y][x] == 1 :: Cell(x, y)
  }

  lemma MarkedCellsMember(g: Matrix, c: Cell)
    requires Square(g)
    ensures c in MarkedCells(g) <==> Marked(g, c)
  {
    if Marked(g, c) {
      assert Cell(c.x, c.y) in MarkedCells(g);
    }
  }

  /** What the flood fill knows about its discovery list `order` (cells in
      the order they were put on the queue) and its visited set `seen`, when it
      started from `start` with the visited set `base`. */
  ghost predicate FillState(g: Matrix, base: set<Cell>, start: Cell, order: seq<Cell>, seen: set<Cell>)
  {
    && |order| > 0 && order[0] == start
    && Distinct(order)
    && (forall i :: 0 <= i < |order| ==> Marked(g, order[i]) && order[i] !in base)
    && seen == base + Elems(order)
    && seen <= MarkedCells(g)
    && Linked(order)
  }

  lemma LinkedAppend(order: seq<Cell>, from: int, nb: Cell)
    requires Linked(order) && 0 <= from < |order| && Adjacent(nb, order[from])
    ensures Linked(order + [nb])
  {
    var order' := order + [nb];
    forall i | 0 < i < |order'| ensures TouchesEarlier(order', i) {
      if i == |order| {
        assert Adjacent(order'[i], order'[from]);
      } else {
        assert TouchesEarlier(order, i);
        var j :| 0 <= j < i && Adjacent(order[i], order[j]);
        assert Adjacent(order'[i], order'[j]);
      }
    }
  }

  lemma DistinctAppend<T>(xs: seq<T>, x: T)
    requires Distinct(xs) && x !in xs
    ensures Distinct(xs + [x])
  {
  }

  /** Appending a marked, unvisited neighbour of a listed cell keeps the state. */
  lemma FillAppend(g: Matrix, base: set<Cell>, start: Cell, order: seq<Cell>, seen: set<Cell>,
                   from: int, nb: Cell)
    requires Square(g) && FillState(g, base, start, order, seen)
    requires 0 <= from < |order| && Adjacent(nb, order[from])
    requires Marked(g, nb) && nb !in seen
    ensures FillState(g, base, start, order + [nb], seen + {nb})
  {
    MarkedCellsMember(g, nb);
    LinkedAppend(order, from, nb);
    DistinctAppend(order, nb);
    assert Elems(order + [nb]) == Elems(order) + {nb};
  }

  /** One neighbour test of the flood fill (kt.py:124-128): a marked,
      unvisited neighbour of `order[from]` is marked visited and queued. */
  method Enqueue(g: Matrix, ghost base: set<Cell>, ghost start: Cell, order: seq<Cell>,
                 seen: set<Cell>, ghost from: int, nb: Cell)
    returns (order': seq<Cell>, seen': set<Cell>)
    requires Square(g) && FillState(g, base, start, order, seen)
    requires 0 <= from < |order| && Adjacent(nb, order[from])
    ensures FillState(g, base, start, order', seen')
    ensures order <= order' && seen <= seen'
    ensures Marked(g, nb) ==> nb in seen'
    ensures seen' == seen ==> order' == order
  {
    order', seen' := order, seen;
    if 0 <= nb.x < |g| && 0 <= nb.y < |g| && g[nb.y][nb.x] == 1 && nb !in seen {
      FillAppend(g, base, start, order, seen, from, nb);
      order' := order + [nb];
      seen' := seen + {nb};
    }
  }

  /** Processing the cells that have left the queue keeps every marked
      neighbour of them visited. */
  ghost predicate Explored(g: Matrix, order: seq<Cell>, head: int, seen: set<Cell>)
    requires 0 <= head <= |order|
  {
    forall i, b :: 0 <= i < head && Adjacent(order[i], b) && Marked(g, b) ==> b in seen
  }

  /** Growing the discovery list and the visited set keeps what was explored. */
  lemma ExploredGrow(g: Matrix, order: seq<Cell>, seen: set<Cell>, order': seq<Cell>, seen': set<Cell>, head: int)
    requires 0 <= head <= |order| && order <= order' && seen <= seen'
    requires Explored(g, order, head, seen)
    ensures Explored(g, order', head, seen')
  {
    forall i, b | 0 <= i < head && Adjacent(order'[i], b) && Marked(g, b) ensures b in seen' {
      assert order'[i] == order[i];
    }
  }

  /** Once all four neighbours of `order[head]` are visited, that cell is explored. */
  lemma ExploredStep(g: Matrix, order: seq<Cell>, seen: set<Cell>, head: int)
    requires 0 <= head < |order| && Explored(g, order, head, seen)
    requires forall j :: 0 <= j < 4 && Marked(g, Neighbours(order[head])[j]) ==> Neighbours(order[head])[j] in seen
    ensures Explored(g, order, head + 1, seen)
  {
    NeighboursAdjacent(order[head]);
  }

  /** The body of the queue loop for the cell `order[head]` (kt.py:121-128):
      each of its four neighbours is looked at in turn. */
  method ExpandHead(g: Matrix, ghost base: set<Cell>, ghost start: Cell, order: seq<Cell>,
                    seen: set<Cell>, head: nat)
    returns (order': seq<Cell>, seen': set<Cell>)
    requires Square(g) && FillState(g, base, start, order, seen)
    requires head < |order| && Explored(g, order, head, seen)
    ensures FillState(g, base, start, order', seen')
    ensures |order| <= |order'| && Explored(g, order', head + 1, seen')
    ensures seen' == seen ==> order' == order
    ensures seen' != seen ==> |MarkedCells(g) - seen'| < |MarkedCells(g) - seen|
  {
    var c := order[head];
    order', seen' := order, seen;
    for k := 0 to 4
      invariant FillState(g, base, start, order', seen')
      invariant order <= order' && seen <= seen'
      invariant forall j :: 0 <= j < k && Marked(g, Neighbours(c)[j]) ==> Neighbours(c)[j] in seen'
      invariant seen' == seen ==> order' == order
    {
      NeighboursAdjacent(c);
      order', seen' := Enqueue(g, base, start, order', seen', head, Neighbours(c)[k]);
    }
    if seen' != seen {
      FewerLeft(MarkedCells(g), seen, seen');
    }
    ExploredGrow(g, order, seen, order', seen', head);
    ExploredStep(g, order', seen', head);
  }

  /** The flood fill starts with `start` queued and visited. */
  lemma FillInit(g: Matrix, base: set<Cell>, start: Cell)
    requires Square(g) && Marked(g, start) && start !in base
    requires forall c :: c in base ==> Marked(g, c)
    ensures FillState(g, base, start, [start], base + {start})
  {
    forall c | c in base + {start} ensures c in MarkedCells(g) {
      MarkedCellsMember(g, c);
    }
    assert Elems([start]) == {start};
  }

  /** When the queue is empty the discovered cells form a closed group. */
  lemma FillDone(g: Matrix, base: set<Cell>, start: Cell, order: seq<Cell>, seen: set<Cell>)
    requires FillState(g, base, start, order, seen) && Explored(g, order, |order|, seen)
    requires Closed(g, base)
    ensures Closed(g, Elems(order))
    ensures forall c :: c in order ==> Marked(g, c) && c !in base
  {
    forall a, b | a in Elems(order) && Adjacent(a, b) && Marked(g, b) ensures b in Elems(order) {
      var i :| 0 <= i < |order| && order[i] == a;
      assert b in seen;
      if b in base {
        assert Adjacent(b, a);
        assert false;
      }
    }
  }

  /** The queue of kt.py:117-128 is the suffix `order[head..]` of the discovery
      list; `block_cells` is the prefix `order[..head]`. Returns the
      component's cells in the order they leave the queue and the enlarged
      visited set. */
  method FloodFill(g: Matrix, visited: set<Cell>, start: Cell)
    returns (cells: seq<Cell>, visited': set<Cell>)
    requires Square(g)
    requires Marked(g, start) && start !in visited
    requires forall c :: c in visited ==> Marked(g, c)
    requires Closed(g, visited)
    ensures |cells| > 0 && cells[0] == start
    ensures Distinct(cells)
    ensures forall c :: c in cells ==> Marked(g, c) && c !in visited
    ensures visited' == visited + Elems(cells)
    ensures Linked(cells)
    ensures Closed(g, Elems(cells))
  {
    var order := [start];
    var head := 0;
    visited' := visited + {start};
    FillInit(g, visited, start);
    while head < |order|
      invariant 0 <= head <= |order|
      invariant FillState(g, visited, start, order, visited')
      invariant Explored(g, order, head, visited')
      decreases |MarkedCells(g) - visited'|, |order| - head
    {
      order, visited' := ExpandHead(g, visited, start, order, visited', head);
      head := head + 1;
    }
    FillDone(g, visited, start, order, visited');
    cells := order;
  }

  /** The state of the row-major scan when it reaches cell `at`. */
  ghost predicate ScanState(g: Matrix, comps: seq<seq<Cell>>, visited: set<Cell>, at: Cell)
  {
    Found(g, comps, visited) && Reached(g, comps, visited, at)
  }

  /** What holds of the components found so far, wherever the scan is. */
  ghost predicate Found(g: Matrix, comps: seq<seq<Cell>>, visited: set<Cell>)
  {
    && (forall i :: 0 <= i < |comps| ==> IsComponent(g, comps[i]))
    && (forall c :: c in visited <==> exists i :: 0 <= i < |comps| && c in comps[i])
    && (forall i, j, c :: 0 <= i < j < |comps| && c in comps[i] ==> c !in comps[j])
    && (forall i, j :: 0 <= i < j < |comps| ==> Before(comps[i][0], comps[j][0]))
    && (forall c :: c in visited ==> Marked(g, c))
    && Closed(g, visited)
  }

  /** The components start before `at`, and every marked cell before `at` is
      visited. */
  ghost predicate Reached(g: Matrix, comps: seq<seq<Cell>>, visited: set<Cell>, at: Cell)
    requires forall i :: 0 <= i < |comps| ==> |comps[i]| > 0
  {
    && (forall i :: 0 <= i < |comps| ==> Before(comps[i][0], at))
    && (forall c :: Marked(g, c) && Before(c, at) ==> c in visited)
  }

  /** A new component found at `at` is a component whose first cell is `at`. */
  lemma NewComponent(g: Matrix, visited: set<Cell>, at: Cell, cells: seq<Cell>)
    requires forall c :: Marked(g, c) && Before(c, at) ==> c in visited
    requires |cells| > 0 && cells[0] == at && Distinct(cells)
    requires forall c :: c in cells ==> Marked(g, c) && c !in visited
    requires Linked(cells) && Closed(g, Elems(cells))
    ensures IsComponent(g, cells)
  {
    forall c | c in cells && c != cells[0] ensures Before(cells[0], c) {
      assert !Before(c, at);
    }
  }

  /** Appending the new component keeps the visited set equal to the union of
      the components, and the components disjoint. */
  lemma UnionStep(comps: seq<seq<Cell>>, visited: set<Cell>, cells: seq<Cell>, visited': set<Cell>)
    requires forall c :: c in visited <==> exists i :: 0 <= i < |comps| && c in comps[i]
    requires forall i, j, c :: 0 <= i < j < |comps| && c in comps[i] ==> c !in comps[j]
    requires forall c :: c in cells ==> c !in visited
    requires visited' == visited + Elems(cells)
    ensures var comps' := comps + [cells];
      && (forall c :: c in visited' <==> exists i :: 0 <= i < |comps'| && c in comps'[i])
      && (forall i, j, c :: 0 <= i < j < |comps'| && c in comps'[i] ==> c !in comps'[j])
  {
    var comps' := comps + [cells];
    forall c ensures c in visited' <==> exists i :: 0 <= i < |comps'| && c in comps'[i] {
      if c in cells {
        assert c in comps'[|comps|];
      }
      if c in visited {
        var i :| 0 <= i < |comps| && c in comps[i];
        assert c in comps'[i];
      }
      if exists i :: 0 <= i < |comps'| && c in comps'[i] {
        var i :| 0 <= i < |comps'| && c in comps'[i];
        if i < |comps| {
          assert c in comps[i];
        }
      }
    }
    forall i, j, c | 0 <= i < j < |comps'| && c in comps'[i] ensures c !in comps'[j] {
      if j == |comps| {
        assert c in comps[i];
        assert c in visited;
      } else {
        assert comps'[i] == comps[i] && comps'[j] == comps[j];
      }
    }
  }

  lemma ComponentsStep(g: Matrix, comps: seq<seq<Cell>>, cells: seq<Cell>)
    requires forall i :: 0 <= i < |comps| ==> IsComponent(g, comps[i])
    requires IsComponent(g, cells)
    ensures var comps' := comps + [cells];
      forall i :: 0 <= i < |comps'| ==> IsComponent(g, comps'[i])
  {
    var comps' := comps + [cells];
    forall i | 0 <= i < |comps'| ensures IsComponent(g, comps'[i]) {
      if i < |comps| {
        assert comps'[i] == comps[i];
      }
    }
  }

  lemma FirstsStep(comps: seq<seq<Cell>>, cells: seq<Cell>, at: Cell)
    requires forall i :: 0 <= i < |comps| ==> |comps[i]| > 0
    requires forall i, j :: 0 <= i < j < |comps| ==> Before(comps[i][0], comps[j][0])
    requires forall i :: 0 <= i < |comps| ==> Before(comps[i][0], at)
    requires |cells| > 0 && cells[0] == at
    ensures var comps' := comps + [cells];
      && (forall i, j :: 0 <= i < j < |comps'| ==> Before(comps'[i][0], comps'[j][0]))
      && (forall i :: 0 <= i < |comps'| ==> Before(comps'[i][0], Cell(at.x + 1, at.y)))
  {
    var comps' := comps + [cells];
    assert forall i :: 0 <= i < |comps| ==> comps'[i] == comps[i];
    assert comps'[|comps|] == cells;
  }

  lemma CoveredStep(g: Matrix, visited: set<Cell>, visited': set<Cell>, at: Cell)
    requires forall c :: Marked(g, c) && Before(c, at) ==> c in visited
    requires visited <= visited' && at in visited'
    ensures forall c :: Marked(g, c) && Before(c, Cell(at.x + 1, at.y)) ==> c in visited'
  {
    forall c | Marked(g, c) && Before(c, Cell(at.x + 1, at.y)) ensures c in visited' {
      if c != at {
        assert Before(c, at);
      }
    }
  }

  lemma ClosedUnion(g: Matrix, s: set<Cell>, t: set<Cell>)
    requires Closed(g, s) && Closed(g, t)
    ensures Closed(g, s + t)
  {
  }

  /** One step of the scan at cell `at`: a marked cell not yet visited starts
      a new component. */
  lemma ScanStep(g: Matrix, comps: seq<seq<Cell>>, visited: set<Cell>, at: Cell,
                 cells: seq<Cell>, visited': set<Cell>)
    requires Square(g) && ScanState(g, comps, visited, at)
    requires Marked(g, at) && at !in visited
    requires |cells| > 0 && cells[0] == at && Distinct(cells)
    requires forall c :: c in cells ==> Marked(g, c) && c !in visited
    requires visited' == visited + Elems(cells)
    requires Linked(cells) && Closed(g, Elems(cells))
    ensures ScanState(g, comps + [cells], visited', Cell(at.x + 1, at.y))
  {
    NewComponent(g, visited, at, cells);
    ComponentsStep(g, comps, cells);
    UnionStep(comps, visited, cells, visited');
    FirstsStep(comps, cells, at);
    CoveredStep(g, visited, visited', at);
    ClosedUnion(g, visited, Elems(cells));
  }

  /** A cell that is unmarked or already visited just moves the scan on. */
  lemma ScanSkip(g: Matrix, comps: seq<seq<Cell>>, visited: set<Cell>, at: Cell)
    requires ScanState(g, comps, visited, at)
    requires Marked(g, at) ==> at in visited
    ensures ScanState(g, comps, visited, Cell(at.x + 1, at.y))
  {
    assert Found(g, comps, visited);
    ReachedSkip(g, comps, visited, at);
  }

  /** Moving past a cell that needs no flood keeps the scan's promise. */
  lemma ReachedSkip(g: Matrix, comps: seq<seq<Cell>>, visited: set<Cell>, at: Cell)
    requires forall i :: 0 <= i < |comps| ==> |comps[i]| > 0
    requires Reached(g, comps, visited, at)
    requires Marked(g, at) ==> at in visited
    ensures Reached(g, comps, visited, Cell(at.x + 1, at.y))
  {
    var next := Cell(at.x + 1, at.y);
    forall c | Marked(g, c) && Before(c, next) ensures c in visited {
      if c != at {
        assert Before(c, at);
      }
    }
  }

  /** The end of a row is the start of the next one. */
  lemma ScanRow(g: Matrix, comps: seq<seq<Cell>>, visited: set<Cell>, y: int)
    requires ScanState(g, comps, visited, Cell(|g|, y))
    ensures ScanState(g, comps, visited, Cell(0, y + 1))
  {
  }

  /** The body of the scan for one cell (kt.py:116-139): a marked cell not
      yet visited is flooded and starts a new component. */
  method ScanCell(g: Matrix, comps: seq<seq<Cell>>, visited: set<Cell>, at: Cell)
    returns (comps': seq<seq<Cell>>, visited': set<Cell>)
    requires Square(g) && 0 <= at.x < |g| && 0 <= at.y < |g|
    requires ScanState(g, comps, visited, at)
    ensures ScanState(g, comps', visited', Cell(at.x + 1, at.y))
  {
    if g[at.y][at.x] == 1 && at !in visited {
      var cells, v' := FloodFill(g, visited, at);
      ScanStep(g, comps, visited, at, cells, v');
      comps', visited' := comps + [cells], v';
    } else {
      ScanSkip(g, comps, visited, at);
      comps', visited' := comps, visited;
    }
  }

  /** The end of the scan covers every marked cell. */
  lemma ScanDone(g: Matrix, comps: seq<seq<Cell>>, visited: set<Cell>)
    requires ScanState(g, comps, visited, Cell(0, |g|))
    ensures Decomposition(g, comps)
  {
    forall c | Marked(g, c) ensures exists i :: 0 <= i < |comps| && c in comps[i] {
      assert Before(c, Cell(0, |g|));
    }
  }

  /** Row-major scan that floods every marked cell not yet visited
      (kt.py:114-128); returns the components in discovery order. */
  method ExtractComponents(g: Matrix) returns (comps: seq<seq<Cell>>)
    requires Square(g)
    ensures Decomposition(g, comps)
  {
    var n := |g|;
    var visited: set<Cell> := {};
    comps := [];
    for y := 0 to n
      invariant ScanState(g, comps, visited, Cell(0, y))
    {
      for x := 0 to n
        invariant ScanState(g, comps, visited, Cell(x, y))
      {
        comps, visited := ScanCell(g, comps, visited, Cell(x, y));
      }
      ScanRow(g, comps, visited, y);
    }
    ScanDone(g, comps, visited);
  }

  function XOf(c: Cell): int { c.x }

  function YOf(c: Cell): int { c.y }

  /** A listed cell with the least key. */
  function ArgMin(cs: seq<Cell>, key: Cell -> int): (r: Cell)
    requires |cs| > 0
    ensures r in cs && forall c :: c in cs ==> key(r) <= key(c)
  {
    if |cs| == 1 then cs[0]
    else
      var m := ArgMin(cs[1..], key);
      if key(cs[0]) < key(m) then cs[0] else m
  }

  /** A listed cell with the greatest key. */
  function ArgMax(cs: seq<Cell>, key: Cell -> int): (r: Cell)
    requires |cs| > 0
    ensures r in cs && forall c :: c in cs ==> key(c) <= key(r)
  {
    if |cs| == 1 then cs[0]
    else
      var m := ArgMax(cs[1..], key);
      if key(cs[0]) > key(m) then cs[0] else m
  }

  /** `min_x`, `min_y`, `max_x` and `max_y` of kt.py:129-132. */
  function MinX(cs: seq<Cell>): int requires |cs| > 0 { ArgMin(cs, XOf).x }
  function MinY(cs: seq<Cell>): int requires |cs| > 0 { ArgMin(cs, YOf).y }
  function MaxX(cs: seq<Cell>): int requires |cs| > 0 { ArgMax(cs, XOf).x }
  function MaxY(cs: seq<Cell>): int requires |cs| > 0 { ArgMax(cs, YOf).y }

  /** The `h`-by-`w` matrix with a 1 wherever the cell at that offset from
      (`x0`, `y0`) is listed in `cs`. */
  function Box(cs: seq<Cell>, x0: int, y0: int, h: nat, w: nat): Matrix
  {
    seq(h, r requires 0 <= r < h =>
      seq(w, c requires 0 <= c < w => if Cell(x0 + c, y0 + r) in cs then 1 else 0))
  }

  /** The block's matrix: its bounding box, with a 1 at each of its cells
      (kt.py:129-137). */
  function BlockShape(cs: seq<Cell>): Matrix
    requires |cs| > 0
  {
    Box(cs, MinX(cs), MinY(cs), MaxY(cs) - MinY(cs) + 1, MaxX(cs) - MinX(cs) + 1)
  }

  lemma BoxAt(cs: seq<Cell>, x0: int, y0: int, h: nat, w: nat, r: int, c: int)
    ensures Dims(Box(cs, x0, y0, h, w), h, w)
    ensures 0 <= r < h && 0 <= c < w ==>
      Box(cs, x0, y0, h, w)[r][c] == if Cell(x0 + c, y0 + r) in cs then 1 else 0
  {
  }

  /** Moves cells so that the bounding box starts at (0, 0). */
  function Shift(dx: int, dy: int): Cell -> Cell
  {
    (c: Cell) => Cell(c.x - dx, c.y - dy)
  }

  /** Every listed cell lies inside the box. */
  ghost predicate InBox(cs: seq<Cell>, x0: int, y0: int, h: nat, w: nat)
  {
    forall c :: c in cs ==> x0 <= c.x < x0 + w && y0 <= c.y < y0 + h
  }

  lemma WithinBounds(cs: seq<Cell>)
    requires |cs| > 0
    ensures InBox(cs, MinX(cs), MinY(cs), MaxY(cs) - MinY(cs) + 1, MaxX(cs) - MinX(cs) + 1)
  {
    forall c | c in cs
      ensures MinX(cs) <= c.x <= MaxX(cs) && MinY(cs) <= c.y <= MaxY(cs)
    {
      assert XOf(c) == c.x && YOf(c) == c.y;
    }
  }

  /** The 1s of a box around the cells are the cells moved to the box. */
  lemma BoxOnes(cs: seq<Cell>, x0: int, y0: int, h: nat, w: nat)
    requires InBox(cs, x0, y0, h, w)
    ensures Ones(Box(cs, x0, y0, h, w)) == Image(Elems(cs), Shift(x0, y0))
  {
    var m := Box(cs, x0, y0, h, w);
    var f := Shift(x0, y0);
    forall c | c in Ones(m) ensures c in Image(Elems(cs), f) {
      OnesMember(m, c);
      BoxAt(cs, x0, y0, h, w, c.y, c.x);
      var src := Cell(x0 + c.x, y0 + c.y);
      assert src in Elems(cs);
      assert f(src) == c;
    }
    forall c | c in Image(Elems(cs), f) ensures c in Ones(m) {
      var src :| src in Elems(cs) && f(src) == c;
      assert src in cs;
      BoxAt(cs, x0, y0, h, w, c.y, c.x);
      assert Cell(x0 + c.x, y0 + c.y) == src;
      OnesMember(m, c);
    }
  }

  /** A box whose four sides each hold a listed cell is tight. */
  lemma BoxTight(cs: seq<Cell>, x0: int, y0: int, h: nat, w: nat, top: Cell, bottom: Cell, left: Cell, right: Cell)
    requires InBox(cs, x0, y0, h, w)
    requires top in cs && top.y == y0
    requires bottom in cs && bottom.y == y0 + h - 1
    requires left in cs && left.x == x0
    requires right in cs && right.x == x0 + w - 1
    ensures Tight(Box(cs, x0, y0, h, w))
  {
    var m := Box(cs, x0, y0, h, w);
    BoxAt(cs, x0, y0, h, w, 0, top.x - x0);
    BoxAt(cs, x0, y0, h, w, h - 1, bottom.x - x0);
    BoxAt(cs, x0, y0, h, w, left.y - y0, 0);
    BoxAt(cs, x0, y0, h, w, right.y - y0, w - 1);
    assert Cell(x0 + (top.x - x0), y0 + 0) == top;
    assert Cell(x0 + (bottom.x - x0), y0 + (h - 1)) == bottom;
    assert Cell(x0 + 0, y0 + (left.y - y0)) == left;
    assert Cell(x0 + (w - 1), y0 + (right.y - y0)) == right;
    assert m[0][top.x - x0] == 1;
    assert m[h - 1][bottom.x - x0] == 1;
    assert m[left.y - y0][0] == 1;
    assert m[right.y - y0][w - 1] == 1;
  }

  /** A box around distinct cells with a cell on each side: a tight 0/1
      matrix whose 1s are the cells moved into it. */
  lemma BoxSpec(cs: seq<Cell>, x0: int, y0: int, h: nat, w: nat, top: Cell, bottom: Cell, left: Cell, right: Cell)
    requires InBox(cs, x0, y0, h, w)
    requires top in cs && top.y == y0
    requires bottom in cs && bottom.y == y0 + h - 1
    requires left in cs && left.x == x0
    requires right in cs && right.x == x0 + w - 1
    ensures var m := Box(cs, x0, y0, h, w);
      && Dims(m, h, w) && Rect(m) && Binary(m) && Tight(m)
      && Ones(m) == Image(Elems(cs), Shift(x0, y0))
      && Area(m) == |Elems(cs)|
  {
    BoxAt(cs, x0, y0, h, w, 0, 0);
    BoxOnes(cs, x0, y0, h, w);
    BoxTight(cs, x0, y0, h, w, top, bottom, left, right);
    InjectiveImageCard(Elems(cs), Shift(x0, y0));
  }

  /** The block's matrix is the tight bounding box of its cells, holds 1s
      exactly at the cells' positions relative to the box, and so has as
      many 1s as there are cells. */
  lemma BlockShapeSpec(cs: seq<Cell>)
    requires |cs| > 0
    ensures var m := BlockShape(cs);
      && Dims(m, MaxY(cs) - MinY(cs) + 1, MaxX(cs) - MinX(cs) + 1)
      && Rect(m) && Binary(m) && Tight(m)
      && Ones(m) == Image(Elems(cs), Shift(MinX(cs), MinY(cs)))
      && Area(m) == |Elems(cs)|
  {
    var x0, y0 := MinX(cs), MinY(cs);
    var h, w := MaxY(cs) - y0 + 1, MaxX(cs) - x0 + 1;
    assert InBox(cs, x0, y0, h, w) by {
      WithinBounds(cs);
    }
    var top, bottom := ArgMin(cs, YOf), ArgMax(cs, YOf);
    var left, right := ArgMin(cs, XOf), ArgMax(cs, XOf);
    assert top in cs && top.y == y0 && bottom in cs && bottom.y == y0 + h - 1;
    assert left in cs && left.x == x0 && right in cs && right.x == x0 + w - 1;
    BoxSpec(cs, x0, y0, h, w, top, bottom, left, right);
    assert BlockShape(cs) == Box(cs, x0, y0, h, w);
  }

  /** The variants kt.py builds for one component: one to four tight 0/1
      matrices, each covering as many cells as the component has. */
  ghost predicate GoodBlock(comp: seq<Cell>, block: seq<Matrix>)
  {
    && 1 <= |block| <= 4
    && forall v :: v in block ==> Tight(v) && Binary(v) && Area(v) == |comp|
  }

  /** The entry kt.py:138-139 appends for one component. */
  function Variants(comp: seq<Cell>): seq<Matrix>
    requires |comp| > 0
  {
    AllRotations(BlockShape(comp))
  }

  lemma BlockOfComponent(comp: seq<Cell>)
    requires |comp| > 0 && Distinct(comp)
    ensures GoodBlock(comp, Variants(comp))
  {
    var shape := BlockShape(comp);
    BlockShapeSpec(comp);
    DistinctCard(comp);
    AllRotationsSpec(shape);
    VariantsKeep(shape);
  }

  lemma EveryBlockGood(g: Matrix, comps: seq<seq<Cell>>, blocks: seq<seq<Matrix>>)
    requires Decomposition(g, comps)
    requires |blocks| == |comps|
    requires forall i :: 0 <= i < |blocks| ==> blocks[i] == Variants(comps[i])
    ensures forall i :: 0 <= i < |blocks| ==> GoodBlock(comps[i], blocks[i])
  {
    forall i | 0 <= i < |blocks| ensures GoodBlock(comps[i], blocks[i]) {
      assert IsComponent(g, comps[i]);
      BlockOfComponent(comps[i]);
    }
  }

  lemma NoBlocksWhenBlank(g: Matrix, comps: seq<seq<Cell>>)
    requires Decomposition(g, comps)
    ensures comps == [] <==> forall c :: !Marked(g, c)
  {
    if comps != [] {
      assert IsComponent(g, comps[0]);
      assert Marked(g, comps[0][0]);
    }
  }

  /** kt.py `extract_blocks_from_input`: the rotation variants of each
      component's matrix, one entry per component in discovery order. */
  method ExtractBlocks(g: Matrix) returns (blocks: seq<seq<Matrix>>, ghost comps: seq<seq<Cell>>)
    requires Square(g)
    ensures Decomposition(g, comps)
    ensures |blocks| == |comps|
    ensures forall i :: 0 <= i < |blocks| ==> blocks[i] == Variants(comps[i])
    ensures forall i :: 0 <= i < |blocks| ==> GoodBlock(comps[i], blocks[i])
    ensures blocks == [] <==> forall c :: !Marked(g, c)
  {
    var found := ExtractComponents(g);
    comps := found;
    blocks := seq(|found|, i requires 0 <= i < |found| => Variants(found[i]));
    EveryBlockGood(g, comps, blocks);
    NoBlocksWhenBlank(g, comps);
  }
}

=== FILE: matrices.dfy ===
/** Integer matrices as the placement counter stores them (a list of rows),
    grid cells, and the 90-degree rotation of kt.py. */
module Matrices {
  import opened Cardinality

  type Matrix = seq<seq<int>>

  /** A grid cell: `x` is the column, `y` the row, both counted from 0. */
  datatype Cell = Cell(x: int, y: int)

  /** The length of the first row, or 0 for a matrix with no rows. */
  function Width(m: Matrix): nat
  {
    if |m| == 0 then 0 else |m[0]|
  }

  /** Every row has the length of the first one. */
  predicate Rect(m: Matrix)
  {
    forall r :: 0 <= r < |m| ==> |m[r]| == Width(m)
  }

  /** A rectangular matrix of exactly `h` rows and `w` columns. */
  predicate Dims(m: Matrix, h: nat, w: nat)
  {
    |m| == h && forall r :: 0 <= r < h ==> |m[r]| == w
  }

  /** A matrix the search can take as a shape: rectangular with a first row. */
  predicate IsShape(m: Matrix)
  {
    Rect(m) && |m| > 0
  }

  /** Every entry is 0 or 1. */
  predicate Binary(m: Matrix)
  {
    forall r, c :: 0 <= r < |m| && 0 <= c < |m[r]| ==> m[r][c] == 0 || m[r][c] == 1
  }

  /** The cells holding a 1, as (column, row) pairs. */
  function Ones(m: Matrix): set<Cell>
  {
    set r, c | 0 <= r < |m| && 0 <= c < |m[r]| && m[r][c] == 1 :: Cell(c, r)
  }

  /** The number of cells a shape covers. */
  function Area(m: Matrix): nat
  {
    |Ones(m)|
  }

  lemma OnesMember(m: Matrix, cell: Cell)
    ensures cell in Ones(m) <==>
      0 <= cell.y < |m| && 0 <= cell.x < |m[cell.y]| && m[cell.y][cell.x] == 1
  {
    if 0 <= cell.y < |m| && 0 <= cell.x < |m[cell.y]| && m[cell.y][cell.x] == 1 {
      assert Cell(cell.x, cell.y) in Ones(m);
    }
  }

  ghost predicate RowHasOne(m: Matrix, r: int)
    requires 0 <= r < |m|
  {
    exists c :: 0 <= c < |m[r]| && m[r][c] == 1
  }

  ghost predicate ColHasOne(m: Matrix, c: int)
    requires Rect(m) && 0 <= c < Width(m)
  {
    exists r :: 0 <= r < |m| && m[r][c] == 1
  }

  /** A tight bounding box: no empty border row or column. */
  ghost predicate Tight(m: Matrix)
  {
    && Rect(m) && |m| > 0 && Width(m) > 0
    && RowHasOne(m, 0) && RowHasOne(m, |m| - 1)
    && ColHasOne(m, 0) && ColHasOne(m, Width(m) - 1)
  }

  /** The clockwise quarter turn `zip(*m[::-1])`: an h-by-w matrix becomes
      w-by-h, and output row i is input column i read from the bottom up. */
  function Rotate(m: Matrix): (r: Matrix)
    requires Rect(m)
    ensures Rect(r) && Dims(r, Width(m), |m|)
    ensures |m| == 0 ==> r == []
  {
    seq(Width(m), i requires 0 <= i < Width(m) =>
      seq(|m|, j requires 0 <= j < |m| => m[|m| - 1 - j][i]))
  }

  lemma RotateAt(m: Matrix, i: int, j: int)
    requires Rect(m) && 0 <= i < Width(m) && 0 <= j < |m|
    ensures Rotate(m)[i][j] == m[|m| - 1 - j][i]
  {
  }

  /** Two quarter turns are the half turn. */
  lemma RotateTwice(m: Matrix)
    requires Rect(m) && (|m| == 0 || Width(m) > 0)
    ensures Dims(Rotate(Rotate(m)), |m|, Width(m))
    ensures forall r, c :: 0 <= r < |m| && 0 <= c < Width(m) ==>
      Rotate(Rotate(m))[r][c] == m[|m| - 1 - r][Width(m) - 1 - c]
  {
    var r1 := Rotate(m);
    if |m| > 0 {
      assert Width(r1) == |m|;
      forall r, c | 0 <= r < |m| && 0 <= c < Width(m)
        ensures Rotate(r1)[r][c] == m[|m| - 1 - r][Width(m) - 1 - c]
      {
        RotateAt(r1, r, c);
        RotateAt(m, Width(m) - 1 - c, r);
      }
    }
  }

  /** Four quarter turns give back the matrix (kt.py rotate, order 4). */
  lemma RotateFour(m: Matrix)
    requires Rect(m) && (|m| == 0 || Width(m) > 0)
    ensures Rotate(Rotate(Rotate(Rotate(m)))) == m
  {
    RotateTwice(m);
    var r2 := Rotate(Rotate(m));
    assert |r2| == 0 || Width(r2) > 0;
    RotateTwice(r2);
    var r4 := Rotate(Rotate(r2));
    assert |r4| == |m|;
    forall r | 0 <= r < |m| ensures r4[r] == m[r] {
      assert |r4[r]| == |m[r]|;
      forall c | 0 <= c < |m[r]| ensures r4[r][c] == m[r][c] {
        assert r4[r][c] == r2[|m| - 1 - r][Width(m) - 1 - c];
      }
    }
  }

  /** Where a quarter turn sends the cell (x, y) of an h-row matrix. */
  function TurnCell(h: int): Cell -> Cell
  {
    (cell: Cell) => Cell(h - 1 - cell.y, cell.x)
  }

  /** The 1-cells of the turned matrix are the turned 1-cells. */
  lemma RotateOnes(m: Matrix)
    requires Rect(m)
    ensures Ones(Rotate(m)) == Image(Ones(m), TurnCell(|m|))
  {
    var r := Rotate(m);
    var f := TurnCell(|m|);
    forall cell | cell in Ones(r) ensures cell in Image(Ones(m), f) {
      OnesMember(r, cell);
      var src := Cell(cell.y, |m| - 1 - cell.x);
      OnesMember(m, src);
      assert f(src) == cell;
    }
    forall cell | cell in Image(Ones(m), f) ensures cell in Ones(r) {
      var src :| src in Ones(m) && f(src) == cell;
      OnesMember(m, src);
      OnesMember(r, cell);
    }
  }

  /** A quarter turn keeps the number of covered cells. */
  lemma {:induction false} RotateArea(m: Matrix)
    requires Rect(m)
    ensures Area(Rotate(m)) == Area(m)
  {
    RotateOnes(m);
    InjectiveImageCard(Ones(m), TurnCell(|m|));
  }

  /** A quarter turn of a tight bounding box is again tight. */
  lemma RotateTight(m: Matrix)
    requires Tight(m)
    ensures Tight(Rotate(m))
  {
    var r := Rotate(m);
    var h, w := |m|, Width(m);
    assert |r| == w && Width(r) == h;
    var c0 :| 0 <= c0 < |m[0]| && m[0][c0] == 1;
    var c1 :| 0 <= c1 < |m[h - 1]| && m[h - 1][c1] == 1;
    var r0 :| 0 <= r0 < h && m[r0][0] == 1;
    var r1 :| 0 <= r1 < h && m[r1][w - 1] == 1;
    assert r[0][h - 1 - r0] == 1;
    assert r[w - 1][h - 1 - r1] == 1;
    assert r[c1][0] == 1;
    assert r[c0][h - 1] == 1;
  }

  /** A quarter turn of a 0/1 matrix is a 0/1 matrix. */
  lemma RotateBinary(m: Matrix)
    requires Rect(m) && Binary(m)
    ensures Binary(Rotate(m))
  {
  }
}

=== FILE: pipeline.dfy ===
/** The two halves of the placement counter joined as kt.py:228-229 and
    kt.py:191-194 join them: the blocks extracted from the input grid are
    counted on the result board. */
module Pipeline {
  import opened Cardinality
  import opened Matrices
  import opened Rotations
  import opened Sums
  import opened Extraction
  import opened Placement
  import opened PlacementLaws

  /** The number of cells of the components from `i` on. */
  function CellCount(comps: seq<seq<Cell>>, i: nat): nat
    requires i <= |comps|
    decreases |comps| - i
  {
    if i == |comps| then 0 else |comps[i]| + CellCount(comps, i + 1)
  }

  /** The cells of the components from `i` on. */
  function CellsFrom(comps: seq<seq<Cell>>, i: nat): set<Cell>
    requires i <= |comps|
    decreases |comps| - i
  {
    if i == |comps| then {} else Elems(comps[i]) + CellsFrom(comps, i + 1)
  }

  lemma {:induction false} CellsFromMember(comps: seq<seq<Cell>>, i: nat, c: Cell)
    requires i <= |comps|
    ensures c in CellsFrom(comps, i) <==> exists j :: i <= j < |comps| && c in comps[j]
    decreases |comps| - i
  {
    if i < |comps| {
      CellsFromMember(comps, i + 1, c);
    }
  }

  /** Disjoint components without repeated cells: their sizes add up to the
      size of their union. */
  lemma {:induction false} CellCountCard(comps: seq<seq<Cell>>, i: nat)
    requires i <= |comps|
    requires forall k :: 0 <= k < |comps| ==> Distinct(comps[k])
    requires forall a, b, c :: 0 <= a < b < |comps| && c in comps[a] ==> c !in comps[b]
    ensures |CellsFrom(comps, i)| == CellCount(comps, i)
    decreases |comps| - i
  {
    if i < |comps| {
      CellCountCard(comps, i + 1);
      DistinctCard(comps[i]);
      forall c | c in Elems(comps[i]) ensures c !in CellsFrom(comps, i + 1) {
        CellsFromMember(comps, i + 1, c);
      }
      assert Elems(comps[i]) * CellsFrom(comps, i + 1) == {};
    }
  }

  /** The components of a decomposition hold exactly the marked cells. */
  lemma CellCountMarked(g: Matrix, comps: seq<seq<Cell>>)
    requires Square(g) && Decomposition(g, comps)
    ensures CellCount(comps, 0) == |MarkedCells(g)|
  {
    forall k | 0 <= k < |comps| ensures Distinct(comps[k]) {
      assert IsComponent(g, comps[k]);
    }
    CellCountCard(comps, 0);
    forall c ensures c in CellsFrom(comps, 0) <==> c in MarkedCells(g) {
      CellsFromMember(comps, 0, c);
      MarkedCellsMember(g, c);
      if c in CellsFrom(comps, 0) {
        var j :| 0 <= j < |comps| && c in comps[j];
        assert IsComponent(g, comps[j]);
      }
    }
    assert CellsFrom(comps, 0) == MarkedCells(g);
  }

  /** The extracted blocks are fit for the search: every variant is a shape,
      all variants of a block cover as many cells as its component, and the
      blocks together cover as many cells as the components. */
  lemma {:induction false} GoodBlocksUsable(comps: seq<seq<Cell>>, blocks: seq<seq<Matrix>>, i: nat)
    requires |blocks| == |comps| && i <= |blocks|
    requires forall k :: 0 <= k < |blocks| ==> GoodBlock(comps[k], blocks[k])
    ensures Shapes(blocks) && Uniform(blocks)
    ensures TotalArea(blocks, i) == CellCount(comps, i)
    decreases |blocks| - i
  {
    forall k, v | 0 <= k < |blocks| && v in blocks[k] ensures IsShape(v) && Area(v) == AreaOf(blocks[k]) {
      assert GoodBlock(comps[k], blocks[k]);
      assert blocks[k][0] in blocks[k];
    }
    if i < |blocks| {
      GoodBlocksUsable(comps, blocks, i + 1);
      assert GoodBlock(comps[i], blocks[i]);
      assert blocks[i][0] in blocks[i];
    }
  }

  /** The button press of kt.py:223-237 without the thread: extract the
      blocks from the input grid, then count their placements on the result
      board. The blocks are the rotation variants of the input's components,
      in discovery order; every count lies between 0 and the total, fixed
      cells get none, and the counts add up to the total times the number of
      marked input cells. */
  method Compute(input: Matrix, states: Matrix) returns (blocks: seq<seq<Matrix>>, r: Tally, ghost comps: seq<seq<Cell>>)
    requires Square(input) && IsBoard(states)
    ensures Decomposition(input, comps) && |blocks| == |comps|
    ensures forall i :: 0 <= i < |comps| ==> blocks[i] == Variants(comps[i])
    ensures Shapes(blocks) && r == Run(blocks, states)
    ensures forall y, x :: 0 <= y < N && 0 <= x < N ==> 0 <= r.counts[y][x] <= r.total
    ensures forall y, x :: 0 <= y < N && 0 <= x < N && states[y][x] == 1 ==> r.counts[y][x] == 0
    ensures Sum(r.counts) == r.total * |MarkedCells(input)|
  {
    blocks, comps := ExtractBlocks(input);
    GoodBlocksUsable(comps, blocks, 0);
    CellCountMarked(input, comps);
    r := Run(blocks, states);
    RunBounds(blocks, states);
    RunSum(blocks, states);
  }
}

=== FILE: placement.dfy ===
/** Placing shapes on the 6-by-6 result board and counting every complete
    placement (kt.py `can_place`, `place`, `enumerate_placements`). */
module Placement {
  import opened Matrices
  import opened Sums

  /** The side of the result board. */
  const N: nat := 6

  /** A 6-by-6 board, indexed `b[row][column]`. */
  predicate IsBoard(b: Matrix)
  {
    Dims(b, N, N)
  }

  /** The board with 0 everywhere. */
  function Blank(): (r: Matrix)
    ensures IsBoard(r)
  {
    seq(N, y => seq(N, x => 0))
  }

  /** Every variant of every block is a matrix the search can take. */
  ghost predicate Shapes(blocks: seq<seq<Matrix>>)
  {
    forall i, v :: 0 <= i < |blocks| && v in blocks[i] ==> IsShape(v)
  }

  /** The shape's cell (`x`, `y`) lands on board cell (`left + x`, `top + y`). */
  predicate InReach(shape: Matrix, top: nat, left: nat)
  {
    top + |shape| <= N && left + Width(shape) <= N
  }

  /** The condition of kt.py:146-152: the shape lies on the board and none of
      its 1s lands on a 1 of the current grid or of the fixed grid. */
  predicate Fits(grid: Matrix, shape: Matrix, top: nat, left: nat, fixed: Matrix)
    requires IsBoard(grid) && IsBoard(fixed) && IsShape(shape)
  {
    && InReach(shape, top, left)
    && forall y, x :: 0 <= y < |shape| && 0 <= x < Width(shape) && shape[y][x] == 1 ==>
         grid[top + y][left + x] != 1 && fixed[top + y][left + x] != 1
  }

  /** kt.py `can_place`: the bounds test, then the shape's cells row by row,
      stopping at the first clash. */
  method CanPlace(grid: Matrix, shape: Matrix, top: nat, left: nat, fixed: Matrix) returns (ok: bool)
    requires IsBoard(grid) && IsBoard(fixed) && IsShape(shape)
    ensures ok <==> Fits(grid, shape, top, left, fixed)
  {
    var h := |shape|;
    var w := |shape[0]|;
    if top + h > N || left + w > N {
      return false;
    }
    for y := 0 to h
      invariant forall y', x :: 0 <= y' < y && 0 <= x < w && shape[y'][x] == 1 ==>
        grid[top + y'][left + x] != 1 && fixed[top + y'][left + x] != 1
    {
      for x := 0 to w
        invariant forall x' :: 0 <= x' < x && shape[y][x'] == 1 ==>
          grid[top + y][left + x'] != 1 && fixed[top + y][left + x'] != 1
      {
        if shape[y][x] == 1 && (grid[top + y][left + x] == 1 || fixed[top + y][left + x] == 1) {
          return false;
        }
      }
    }
    return true;
  }

  /** Board cell (`x`, `y`) is under a 1 of the shape put at (`left`, `top`). */
  predicate Covers(shape: Matrix, top: nat, left: nat, y: int, x: int)
    requires Rect(shape)
  {
    top <= y < top + |shape| && left <= x < left + Width(shape) && shape[y - top][x - left] == 1
  }

  /** The grid with a 1 written at row `y`, column `x`. */
  function Put(grid: Matrix, y: nat, x: nat): Matrix
    requires y < |grid| && x < |grid[y]|
  {
    grid[y := grid[y][x := 1]]
  }

  /** The inner loop of kt.py:159-161 for row `y`, from column `x` on. */
  function PlaceRow(grid: Matrix, shape: Matrix, top: nat, left: nat, y: nat, x: nat): (r: Matrix)
    requires IsBoard(grid) && IsShape(shape) && InReach(shape, top, left)
    requires y < |shape| && x <= Width(shape)
    ensures IsBoard(r)
    ensures forall Y, X :: 0 <= Y < N && 0 <= X < N ==>
      r[Y][X] == if Y == top + y && left + x <= X && Covers(shape, top, left, Y, X) then 1 else grid[Y][X]
    decreases Width(shape) - x
  {
    if x == Width(shape) then grid
    else
      var next := if shape[y][x] == 1 then Put(grid, top + y, left + x) else grid;
      PlaceRow(next, shape, top, left, y, x + 1)
  }

  /** The outer loop of kt.py:158-161, from row `y` on. */
  function PlaceRows(grid: Matrix, shape: Matrix, top: nat, left: nat, y: nat): (r: Matrix)
    requires IsBoard(grid) && IsShape(shape) && InReach(shape, top, left)
    requires y <= |shape|
    ensures IsBoard(r)
    ensures forall Y, X :: 0 <= Y < N && 0 <= X < N ==>
      r[Y][X] == if top + y <= Y && Covers(shape, top, left, Y, X) then 1 else grid[Y][X]
    decreases |shape| - y
  {
    if y == |shape| then grid
    else PlaceRows(PlaceRow(grid, shape, top, left, y, 0), shape, top, left, y + 1)
  }

  /** kt.py `place`: a copy of the grid with a 1 under every 1 of the shape;
      every other cell keeps its value. */
  function Place(grid: Matrix, shape: Matrix, top: nat, left: nat): (r: Matrix)
    requires IsBoard(grid) && IsShape(shape) && InReach(shape, top, left)
    ensures IsBoard(r)
    ensures forall y, x :: 0 <= y < N && 0 <= x < N ==>
      r[y][x] == if Covers(shape, top, left, y, x) then 1 else grid[y][x]
  {
    PlaceRows(grid, shape, top, left, 0)
  }

  /** One offset the search tries for one variant. */
  datatype Spot = Spot(shape: Matrix, top: nat, left: nat)

  /** `left` from the given value up to 6 - w, as `range(6-w+1)` does. */
  function Lefts(shape: Matrix, top: nat, left: nat): (r: seq<Spot>)
    decreases N + 1 - left
  {
    if left + Width(shape) > N then []
    else [Spot(shape, top, left)] + Lefts(shape, top, left + 1)
  }

  /** `top` from the given value up to 6 - h, each with every `left`. */
  function Tops(shape: Matrix, top: nat): (r: seq<Spot>)
    decreases N + 1 - top
  {
    if top + |shape| > N then []
    else Lefts(shape, top, 0) + Tops(shape, top + 1)
  }

  /** Every (variant, top, left) of kt.py:172-176, in the loops' order. */
  function Candidates(variants: seq<Matrix>): (r: seq<Spot>)
  {
    if |variants| == 0 then [] else Tops(variants[0], 0) + Candidates(variants[1..])
  }

  lemma {:induction false} LeftsSpec(shape: Matrix, top: nat, left: nat)
    ensures forall s :: s in Lefts(shape, top, left) ==>
      s.shape == shape && s.top == top && left <= s.left && s.left + Width(shape) <= N
    ensures left + Width(shape) <= N + 1 ==> |Lefts(shape, top, left)| == N + 1 - Width(shape) - left
    decreases N + 1 - left
  {
    if left + Width(shape) <= N {
      LeftsSpec(shape, top, left + 1);
    }
  }

  lemma {:induction false} TopsSpec(shape: Matrix, top: nat)
    ensures forall s :: s in Tops(shape, top) ==>
      s.shape == shape && top <= s.top && InReach(shape, s.top, s.left)
    decreases N + 1 - top
  {
    if top + |shape| <= N {
      LeftsSpec(shape, top, 0);
      TopsSpec(shape, top + 1);
    }
  }

  /** Each top row from `top` on contributes one candidate per left column. */
  lemma {:induction false} TopsCount(shape: Matrix, top: nat)
    requires top + |shape| <= N + 1 && Width(shape) <= N
    ensures |Tops(shape, top)| == (N + 1 - |shape| - top) * (N + 1 - Width(shape))
    decreases N + 1 - top
  {
    if top + |shape| <= N {
      var w := N + 1 - Width(shape);
      assert |Lefts(shape, top, 0)| == w by { LeftsSpec(shape, top, 0); }
      assert |Tops(shape, top + 1)| == (N + 1 - |shape| - (top + 1)) * w by { TopsCount(shape, top + 1); }
      assert (N + 1 - |shape| - (top + 1)) * w + w == (N + 1 - |shape| - top) * w;
    }
  }

  /** Each candidate is an in-reach offset of one of the variants, and every
      in-reach offset of every variant is a candidate. */
  lemma {:induction false} CandidatesSpec(variants: seq<Matrix>)
    ensures forall s :: s in Candidates(variants) ==> s.shape in variants && InReach(s.shape, s.top, s.left)
    ensures forall v, top: nat, left: nat :: v in variants && InReach(v, top, left) ==>
      Spot(v, top, left) in Candidates(variants)
    decreases |variants|
  {
    if |variants| > 0 {
      TopsSpec(variants[0], 0);
      CandidatesSpec(variants[1..]);
      forall v, top: nat, left: nat | v in variants && InReach(v, top, left)
        ensures Spot(v, top, left) in Candidates(variants)
      {
        if v == variants[0] {
          AllOffsets(v, top, left, 0);
        } else {
          assert v in variants[1..];
        }
      }
    }
  }

  lemma {:induction false} AllLefts(shape: Matrix, top: nat, left: nat, from: nat)
    requires InReach(shape, top, left) && from <= left
    ensures Spot(shape, top, left) in Lefts(shape, top, from)
    decreases left - from
  {
    assert Lefts(shape, top, from) == [Spot(shape, top, from)] + Lefts(shape, top, from + 1);
    if from < left {
      AllLefts(shape, top, left, from + 1);
    }
  }

  lemma {:induction false} AllOffsets(shape: Matrix, top: nat, left: nat, from: nat)
    requires InReach(shape, top, left) && from <= top
    ensures Spot(shape, top, left) in Tops(shape, from)
    decreases top - from
  {
    assert Tops(shape, from) == Lefts(shape, from, 0) + Tops(shape, from + 1);
    if from < top {
      AllOffsets(shape, top, left, from + 1);
    } else {
      AllLefts(shape, top, left, 0);
    }
  }

  /** The result of one call of `enumerate_placements`: its return value and
      the count grid as the call leaves it. */
  datatype Tally = Tally(total: nat, counts: Matrix)

  /** 1 where the grid holds a 1 and the fixed grid a 0. */
  function Occupied(grid: Matrix, fixed: Matrix): (r: Matrix)
    requires IsBoard(grid) && IsBoard(fixed)
    ensures IsBoard(r) && Binary(r)
  {
    seq(N, y requires 0 <= y < N => seq(N, x requires 0 <= x < N =>
      if grid[y][x] == 1 && fixed[y][x] == 0 then 1 else 0))
  }

  /** The count update of kt.py:166-169. */
  function Bump(counts: Matrix, grid: Matrix, fixed: Matrix): (r: Matrix)
    requires IsBoard(counts) && IsBoard(grid) && IsBoard(fixed)
    ensures IsBoard(r)
  {
    Add(counts, Occupied(grid, fixed))
  }

  /** Search arguments the Python code accepts without an error. */
  ghost predicate Args(blocks: seq<seq<Matrix>>, grid: Matrix, counts: Matrix, fixed: Matrix)
  {
    Shapes(blocks) && IsBoard(grid) && IsBoard(counts) && IsBoard(fixed)
  }

  /** kt.py `enumerate_placements` from block `index` on. The count grid,
      which the Python code updates in place, is threaded through. */
  function Search(blocks: seq<seq<Matrix>>, index: nat, grid: Matrix, counts: Matrix, fixed: Matrix): (r: Tally)
    requires index <= |blocks| && Args(blocks, grid, counts, fixed)
    ensures IsBoard(r.counts)
    decreases |blocks| - index, 1, 0
  {
    if index == |blocks| then Tally(1, Bump(counts, grid, fixed))
    else
      CandidatesSpec(blocks[index]);
      Try(blocks, index, grid, fixed, Candidates(blocks[index]), Tally(0, counts))
  }

  /** The loops of kt.py:172-179 over the candidates still to try, with the
      running total and count grid in `acc`. */
  function Try(blocks: seq<seq<Matrix>>, index: nat, grid: Matrix, fixed: Matrix,
               cands: seq<Spot>, acc: Tally): (r: Tally)
    requires index < |blocks| && Args(blocks, grid, acc.counts, fixed)
    requires forall s :: s in cands ==> s.shape in blocks[index]
    ensures IsBoard(r.counts)
    decreases |blocks| - index, 0, |cands|
  {
    if |cands| == 0 then acc
    else
      var s := cands[0];
      if Fits(grid, s.shape, s.top, s.left, fixed) then
        var sub := Search(blocks, index + 1, Place(grid, s.shape, s.top, s.left), acc.counts, fixed);
        Try(blocks, index, grid, fixed, cands[1..], Tally(acc.total + sub.total, sub.counts))
      else Try(blocks, index, grid, fixed, cands[1..], acc)
  }

  /** 1 where the result board's widget state is 1 (kt.py:193). */
  function FixedOf(states: Matrix): (r: Matrix)
    requires IsBoard(states)
    ensures IsBoard(r) && Binary(r)
    ensures forall y, x :: 0 <= y < N && 0 <= x < N ==> (r[y][x] == 1 <==> states[y][x] == 1)
  {
    seq(N, y requires 0 <= y < N => seq(N, x requires 0 <= x < N => if states[y][x] == 1 then 1 else 0))
  }

  /** The computation of kt.py:191-194: all blocks from an empty board with a
      zero count grid. */
  function Run(blocks: seq<seq<Matrix>>, states: Matrix): Tally
    requires Shapes(blocks) && IsBoard(states)
  {
    Search(blocks, 0, Blank(), Blank(), FixedOf(states))
  }
}

=== FILE: placement_laws.dfy ===
/** What the placement counter promises: counts only grow, by at most the
    total and never on fixed cells; the counts add up to the total times the
    blocks' area; a block that cannot be put anywhere makes the total 0; and
    a lone domino on an empty board has 60 placements. */
module PlacementLaws {
  import opened Cardinality
  import opened Matrices
  import opened Rotations
  import opened Sums
  import opened Placement

  /** `hi` is `lo` plus at most `extra` at each cell, and equal to it where the
      fixed grid is not 0. */
  ghost predicate Between(lo: Matrix, hi: Matrix, extra: int, fixed: Matrix)
    requires IsBoard(lo) && IsBoard(hi) && IsBoard(fixed)
  {
    forall y, x :: 0 <= y < N && 0 <= x < N ==>
      && lo[y][x] <= hi[y][x] <= lo[y][x] + extra
      && (fixed[y][x] != 0 ==> hi[y][x] == lo[y][x])
  }

  lemma BetweenTrans(a: Matrix, b: Matrix, c: Matrix, e1: int, e2: int, fixed: Matrix)
    requires IsBoard(a) && IsBoard(b) && IsBoard(c) && IsBoard(fixed)
    requires Between(a, b, e1, fixed) && Between(b, c, e2, fixed)
    ensures Between(a, c, e1 + e2, fixed)
  {
  }

  /** A completed placement adds 1 at each covered cell that is not fixed. */
  lemma BumpBetween(counts: Matrix, grid: Matrix, fixed: Matrix)
    requires IsBoard(counts) && IsBoard(grid) && IsBoard(fixed)
    ensures Between(counts, Bump(counts, grid, fixed), 1, fixed)
  {
    var occ := Occupied(grid, fixed);
    assert forall y, x :: 0 <= y < N && 0 <= x < N ==>
      occ[y][x] == if grid[y][x] == 1 && fixed[y][x] == 0 then 1 else 0;
  }

  /** The search only ever adds to the count grid: at most the number of
      completions per cell, and nothing on a fixed cell. */
  lemma {:induction false} SearchBounds(blocks: seq<seq<Matrix>>, index: nat, grid: Matrix, counts: Matrix, fixed: Matrix)
    requires index <= |blocks| && Args(blocks, grid, counts, fixed)
    ensures var r := Search(blocks, index, grid, counts, fixed);
      Between(counts, r.counts, r.total, fixed)
    decreases |blocks| - index, 1, 0
  {
    if index == |blocks| {
      BumpBetween(counts, grid, fixed);
    } else {
      CandidatesSpec(blocks[index]);
      TryBounds(blocks, index, grid, fixed, Candidates(blocks[index]), Tally(0, counts));
    }
  }

  lemma {:induction false} TryBounds(blocks: seq<seq<Matrix>>, index: nat, grid: Matrix, fixed: Matrix,
                                     cands: seq<Spot>, acc: Tally)
    requires index < |blocks| && Args(blocks, grid, acc.counts, fixed)
    requires forall s :: s in cands ==> s.shape in blocks[index]
    ensures var r := Try(blocks, index, grid, fixed, cands, acc);
      acc.total <= r.total && Between(acc.counts, r.counts, r.total - acc.total, fixed)
    decreases |blocks| - index, 0, |cands|
  {
    if |cands| > 0 {
      var s := cands[0];
      if Fits(grid, s.shape, s.top, s.left, fixed) {
        var placed := Place(grid, s.shape, s.top, s.left);
        var sub := Search(blocks, index + 1, placed, acc.counts, fixed);
        SearchBounds(blocks, index + 1, placed, acc.counts, fixed);
        var acc' := Tally(acc.total + sub.total, sub.counts);
        TryBounds(blocks, index, grid, fixed, cands[1..], acc');
        var r := Try(blocks, index, grid, fixed, cands[1..], acc');
        BetweenTrans(acc.counts, sub.counts, r.counts, sub.total, r.total - acc'.total, fixed);
      } else {
        TryBounds(blocks, index, grid, fixed, cands[1..], acc);
      }
    } else {
      assert Between(acc.counts, acc.counts, 0, fixed);
    }
  }

  /** The area of a block's variants (they all have the same). */
  function AreaOf(block: seq<Matrix>): nat
  {
    if |block| == 0 then 0 else Area(block[0])
  }

  /** All variants of each block cover the same number of cells. */
  ghost predicate Uniform(blocks: seq<seq<Matrix>>)
  {
    forall i, v :: 0 <= i < |blocks| && v in blocks[i] ==> Area(v) == AreaOf(blocks[i])
  }

  /** The cells covered by the blocks from `index` on. */
  function TotalArea(blocks: seq<seq<Matrix>>, index: nat): nat
    requires index <= |blocks|
    decreases |blocks| - index
  {
    if index == |blocks| then 0 else AreaOf(blocks[index]) + TotalArea(blocks, index + 1)
  }

  /** Moves a shape cell to the board cell it lands on. */
  function Move(top: int, left: int): Cell -> Cell
  {
    (c: Cell) => Cell(c.x + left, c.y + top)
  }

  lemma OccupiedMember(grid: Matrix, fixed: Matrix, c: Cell)
    requires IsBoard(grid) && IsBoard(fixed)
    ensures c in Ones(Occupied(grid, fixed)) <==>
      0 <= c.y < N && 0 <= c.x < N && grid[c.y][c.x] == 1 && fixed[c.y][c.x] == 0
  {
    OnesMember(Occupied(grid, fixed), c);
  }

  /** After a placement the occupied, non-fixed cells are those from before
      together with the shape's cells moved onto the board. */
  lemma PlaceOnes(grid: Matrix, shape: Matrix, top: nat, left: nat, fixed: Matrix)
    requires IsBoard(grid) && IsBoard(fixed) && Binary(fixed) && IsShape(shape)
    requires Fits(grid, shape, top, left, fixed)
    ensures Ones(Occupied(Place(grid, shape, top, left), fixed))
         == Ones(Occupied(grid, fixed)) + Image(Ones(shape), Move(top, left))
  {
    var placed := Place(grid, shape, top, left);
    var before := Ones(Occupied(grid, fixed));
    var after := Ones(Occupied(placed, fixed));
    var f := Move(top, left);
    var moved := Image(Ones(shape), f);
    forall c | c in after ensures c in before + moved {
      OccupiedMember(placed, fixed, c);
      OccupiedMember(grid, fixed, c);
      if Covers(shape, top, left, c.y, c.x) {
        var src := Cell(c.x - left, c.y - top);
        OnesMember(shape, src);
        assert f(src) == c;
      }
    }
    forall c | c in before ensures c in after {
      OccupiedMember(placed, fixed, c);
      OccupiedMember(grid, fixed, c);
    }
    forall c | c in moved ensures c in after {
      var src :| src in Ones(shape) && f(src) == c;
      OnesMember(shape, src);
      assert Covers(shape, top, left, c.y, c.x);
      OccupiedMember(placed, fixed, c);
    }
  }

  /** A fitting shape lands only on cells that were not occupied. */
  lemma PlaceDisjoint(grid: Matrix, shape: Matrix, top: nat, left: nat, fixed: Matrix)
    requires IsBoard(grid) && IsBoard(fixed) && IsShape(shape)
    requires Fits(grid, shape, top, left, fixed)
    ensures Ones(Occupied(grid, fixed)) * Image(Ones(shape), Move(top, left)) == {}
  {
    var f := Move(top, left);
    forall c | c in Image(Ones(shape), f) ensures c !in Ones(Occupied(grid, fixed)) {
      var src :| src in Ones(shape) && f(src) == c;
      OnesMember(shape, src);
      OccupiedMember(grid, fixed, c);
    }
  }

  /** A fitting placement on a 0/1 fixed grid adds exactly the shape's cells
      to the occupied, non-fixed ones. */
  lemma PlaceArea(grid: Matrix, shape: Matrix, top: nat, left: nat, fixed: Matrix)
    requires IsBoard(grid) && IsBoard(fixed) && Binary(fixed) && IsShape(shape)
    requires Fits(grid, shape, top, left, fixed)
    ensures Area(Occupied(Place(grid, shape, top, left), fixed)) == Area(Occupied(grid, fixed)) + Area(shape)
  {
    PlaceOnes(grid, shape, top, left, fixed);
    PlaceDisjoint(grid, shape, top, left, fixed);
    InjectiveImageCard(Ones(shape), Move(top, left));
  }

  /** Conservation: every completion adds one count per covered non-fixed
      cell, so the counts grow by the total times the area still to cover
      plus the area already occupied. */
  lemma {:induction false} SearchSum(blocks: seq<seq<Matrix>>, index: nat, grid: Matrix, counts: Matrix, fixed: Matrix)
    requires index <= |blocks| && Args(blocks, grid, counts, fixed)
    requires Binary(fixed) && Uniform(blocks)
    ensures var r := Search(blocks, index, grid, counts, fixed);
      Sum(r.counts) == Sum(counts) + r.total * Weight(blocks, index, grid, fixed)
    decreases |blocks| - index, 1, 0, 0
  {
    if index == |blocks| {
      SumAdd(counts, Occupied(grid, fixed));
      BinarySumIsArea(Occupied(grid, fixed));
    } else {
      CandidatesSpec(blocks[index]);
      TrySum(blocks, index, grid, fixed, Candidates(blocks[index]), Tally(0, counts));
    }
  }

  /** The cells a completion from this point covers and counts: those already
      occupied and not fixed, and those of the blocks still to place. */
  function Weight(blocks: seq<seq<Matrix>>, index: nat, grid: Matrix, fixed: Matrix): nat
    requires index <= |blocks| && IsBoard(grid) && IsBoard(fixed)
  {
    Area(Occupied(grid, fixed)) + TotalArea(blocks, index)
  }

  lemma {:induction false} TrySum(blocks: seq<seq<Matrix>>, index: nat, grid: Matrix, fixed: Matrix,
                                  cands: seq<Spot>, acc: Tally)
    requires index < |blocks| && Args(blocks, grid, acc.counts, fixed)
    requires Binary(fixed) && Uniform(blocks)
    requires forall s :: s in cands ==> s.shape in blocks[index]
    ensures var r := Try(blocks, index, grid, fixed, cands, acc);
      Sum(r.counts) == Sum(acc.counts) + (r.total - acc.total) * Weight(blocks, index, grid, fixed)
    decreases |blocks| - index, 0, |cands|, 1
  {
    if |cands| > 0 {
      var s := cands[0];
      if Fits(grid, s.shape, s.top, s.left, fixed) {
        TrySumFits(blocks, index, grid, fixed, cands, acc);
      } else {
        TrySum(blocks, index, grid, fixed, cands[1..], acc);
      }
    }
  }

  /** The step of the conservation proof for a candidate that fits. */
  lemma {:induction false} TrySumFits(blocks: seq<seq<Matrix>>, index: nat, grid: Matrix, fixed: Matrix,
                                      cands: seq<Spot>, acc: Tally)
    requires index < |blocks| && Args(blocks, grid, acc.counts, fixed)
    requires Binary(fixed) && Uniform(blocks)
    requires forall s :: s in cands ==> s.shape in blocks[index]
    requires |cands| > 0 && Fits(grid, cands[0].shape, cands[0].top, cands[0].left, fixed)
    ensures var r := Try(blocks, index, grid, fixed, cands, acc);
      Sum(r.counts) == Sum(acc.counts) + (r.total - acc.total) * Weight(blocks, index, grid, fixed)
    decreases |blocks| - index, 0, |cands|, 0
  {
    var s := cands[0];
    var placed := Place(grid, s.shape, s.top, s.left);
    var sub := Search(blocks, index + 1, placed, acc.counts, fixed);
    var acc' := Tally(acc.total + sub.total, sub.counts);
    var r := Try(blocks, index, grid, fixed, cands[1..], acc');
    var w := Weight(blocks, index, grid, fixed);
    assert Try(blocks, index, grid, fixed, cands, acc) == r;
    FitsGain(blocks, index, grid, fixed, s, acc.counts);
    assert Sum(r.counts) == Sum(sub.counts) + (r.total - acc'.total) * w by {
      TrySum(blocks, index, grid, fixed, cands[1..], acc');
    }
    Combine(Sum(acc.counts), Sum(sub.counts), Sum(r.counts), acc.total, acc'.total, r.total, w);
  }

  /** The completions after a fitting candidate add its count to every
      cell they cover. */
  lemma FitsGain(blocks: seq<seq<Matrix>>, index: nat, grid: Matrix, fixed: Matrix, s: Spot, counts: Matrix)
    requires index < |blocks| && Args(blocks, grid, counts, fixed)
    requires Binary(fixed) && Uniform(blocks) && s.shape in blocks[index]
    requires Fits(grid, s.shape, s.top, s.left, fixed)
    ensures var sub := Search(blocks, index + 1, Place(grid, s.shape, s.top, s.left), counts, fixed);
      Sum(sub.counts) == Sum(counts) + sub.total * Weight(blocks, index, grid, fixed)
    decreases |blocks| - index, 0, 0, 0
  {
    SearchSum(blocks, index + 1, Place(grid, s.shape, s.top, s.left), counts, fixed);
    WeightStep(blocks, index, grid, fixed, s);
  }

  /** Placing a fitting variant moves its area from the blocks still to
      place to the occupied cells, so the weight stays the same. */
  lemma WeightStep(blocks: seq<seq<Matrix>>, index: nat, grid: Matrix, fixed: Matrix, s: Spot)
    requires index < |blocks| && IsBoard(grid) && IsBoard(fixed) && IsShape(s.shape)
    requires Binary(fixed) && Uniform(blocks) && s.shape in blocks[index]
    requires Fits(grid, s.shape, s.top, s.left, fixed)
    ensures IsBoard(Place(grid, s.shape, s.top, s.left))
    ensures Weight(blocks, index + 1, Place(grid, s.shape, s.top, s.left), fixed) == Weight(blocks, index, grid, fixed)
  {
    PlaceArea(grid, s.shape, s.top, s.left, fixed);
    assert Area(s.shape) == AreaOf(blocks[index]);
  }

  /** Two successive gains at the same rate add up. */
  lemma Combine(s0: int, s1: int, s2: int, t0: int, t1: int, t2: int, w: int)
    requires s1 == s0 + (t1 - t0) * w && s2 == s1 + (t2 - t1) * w
    ensures s2 == s0 + (t2 - t0) * w
  {
    assert (t1 - t0) * w + (t2 - t1) * w == (t2 - t0) * w;
  }

  /** Every 1 of `grid` is a 1 of `grid'`. */
  ghost predicate Grows(grid: Matrix, grid': Matrix)
    requires IsBoard(grid) && IsBoard(grid')
  {
    forall y, x :: 0 <= y < N && 0 <= x < N && grid[y][x] == 1 ==> grid'[y][x] == 1
  }

  /** No variant of the block fits at any offset. */
  ghost predicate Blocked(variants: seq<Matrix>, grid: Matrix, fixed: Matrix)
    requires IsBoard(grid) && IsBoard(fixed)
  {
    forall v, top: nat, left: nat :: v in variants && IsShape(v) ==> !Fits(grid, v, top, left, fixed)
  }

  /** Adding 1s to the grid never lets a blocked block fit. */
  lemma BlockedGrows(variants: seq<Matrix>, grid: Matrix, grid': Matrix, fixed: Matrix)
    requires IsBoard(grid) && IsBoard(grid') && IsBoard(fixed)
    requires Blocked(variants, grid, fixed) && Grows(grid, grid')
    ensures Blocked(variants, grid', fixed)
  {
    forall v, top: nat, left: nat | v in variants && IsShape(v) ensures !Fits(grid', v, top, left, fixed) {
      assert !Fits(grid, v, top, left, fixed);
    }
  }

  lemma PlaceGrows(grid: Matrix, shape: Matrix, top: nat, left: nat)
    requires IsBoard(grid) && IsShape(shape) && InReach(shape, top, left)
    ensures Grows(grid, Place(grid, shape, top, left))
  {
  }

  /** A block, at `index` or later, that fits nowhere makes the total 0 and
      leaves the counts alone. */
  lemma {:induction false} SearchBlocked(blocks: seq<seq<Matrix>>, index: nat, grid: Matrix, counts: Matrix,
                                         fixed: Matrix, j: nat)
    requires index <= j < |blocks| && Args(blocks, grid, counts, fixed)
    requires Blocked(blocks[j], grid, fixed)
    ensures Search(blocks, index, grid, counts, fixed) == Tally(0, counts)
    decreases |blocks| - index, 1, 0
  {
    CandidatesSpec(blocks[index]);
    TryBlocked(blocks, index, grid, fixed, Candidates(blocks[index]), Tally(0, counts), j);
  }

  lemma {:induction false} TryBlocked(blocks: seq<seq<Matrix>>, index: nat, grid: Matrix, fixed: Matrix,
                                      cands: seq<Spot>, acc: Tally, j: nat)
    requires index <= j < |blocks| && Args(blocks, grid, acc.counts, fixed)
    requires Blocked(blocks[j], grid, fixed)
    requires forall s :: s in cands ==> s.shape in blocks[index]
    ensures Try(blocks, index, grid, fixed, cands, acc) == acc
    decreases |blocks| - index, 0, |cands|
  {
    if |cands| > 0 {
      var s := cands[0];
      if Fits(grid, s.shape, s.top, s.left, fixed) {
        assert index < j;
        var placed := Place(grid, s.shape, s.top, s.left);
        PlaceGrows(grid, s.shape, s.top, s.left);
        BlockedGrows(blocks[j], grid, placed, fixed);
        SearchBlocked(blocks, index + 1, placed, acc.counts, fixed, j);
      }
      TryBlocked(blocks, index, grid, fixed, cands[1..], acc, j);
    }
  }

  /** The number of candidates that fit. */
  function FitCount(grid: Matrix, fixed: Matrix, cands: seq<Spot>): nat
    requires IsBoard(grid) && IsBoard(fixed)
  {
    if |cands| == 0 then 0
    else
      var s := cands[0];
      var here := if IsShape(s.shape) && Fits(grid, s.shape, s.top, s.left, fixed) then 1 else 0;
      here + FitCount(grid, fixed, cands[1..])
  }

  /** For the last block every fitting candidate is one completion. */
  lemma {:induction false} TryLast(blocks: seq<seq<Matrix>>, grid: Matrix, fixed: Matrix, cands: seq<Spot>, acc: Tally)
    requires |blocks| > 0 && Args(blocks, grid, acc.counts, fixed)
    requires forall s :: s in cands ==> s.shape in blocks[|blocks| - 1]
    ensures Try(blocks, |blocks| - 1, grid, fixed, cands, acc).total == acc.total + FitCount(grid, fixed, cands)
    decreases |cands|
  {
    if |cands| > 0 {
      var s := cands[0];
      if Fits(grid, s.shape, s.top, s.left, fixed) {
        var placed := Place(grid, s.shape, s.top, s.left);
        var sub := Search(blocks, |blocks|, placed, acc.counts, fixed);
        TryLast(blocks, grid, fixed, cands[1..], Tally(acc.total + 1, sub.counts));
      } else {
        TryLast(blocks, grid, fixed, cands[1..], acc);
      }
    }
  }

  /** On a board with no 1s anywhere, every in-reach candidate fits. */
  lemma {:induction false} AllFitOnBlank(cands: seq<Spot>)
    requires forall s :: s in cands ==> IsShape(s.shape) && InReach(s.shape, s.top, s.left)
    ensures FitCount(Blank(), Blank(), cands) == |cands|
    decreases |cands|
  {
    if |cands| > 0 {
      AllFitOnBlank(cands[1..]);
    }
  }

  /** With a single block the total is the number of its fitting candidates. */
  lemma LoneBlock(variants: seq<Matrix>, grid: Matrix, counts: Matrix, fixed: Matrix)
    requires Args([variants], grid, counts, fixed)
    ensures Search([variants], 0, grid, counts, fixed).total == FitCount(grid, fixed, Candidates(variants))
  {
    CandidatesSpec(variants);
    TryLast([variants], grid, fixed, Candidates(variants), Tally(0, counts));
  }

  /** The offsets of an `h`-by-`w` shape: (7 - h) tops times (7 - w) lefts. */
  lemma OffsetCount(shape: Matrix, h: nat, w: nat)
    requires |shape| == h && Width(shape) == w && h <= N + 1 && w <= N
    ensures |Tops(shape, 0)| == (N + 1 - h) * (N + 1 - w)
  {
    TopsCount(shape, 0);
  }

  /** The domino's two variants have 30 offsets each. */
  lemma DominoCandidates()
    ensures |Candidates([[[1], [1]], [[1, 1]]])| == 60
  {
    var upright: Matrix := [[1], [1]];
    var flat: Matrix := [[1, 1]];
    var variants := [upright, flat];
    OffsetCount(upright, 2, 1);
    OffsetCount(flat, 1, 2);
    var rest := variants[1..];
    assert Candidates(variants) == Tops(upright, 0) + Candidates(rest);
    assert rest[0] == flat && |rest| == 1;
    assert Candidates(rest) == Tops(flat, 0) + Candidates(rest[1..]);
  }

  /** A lone domino on an empty board with nothing fixed: 30 upright and 30
      flat placements. */
  lemma DominoSixty()
    ensures Search([AllRotations([[1, 1]])], 0, Blank(), Blank(), Blank()).total == 60
  {
    var domino: Matrix := [[1, 1]];
    var upright: Matrix := [[1], [1]];
    var variants: seq<Matrix> := [upright, domino];
    DominoHasTwoVariants();
    assert Shapes([variants]);
    LoneBlock(variants, Blank(), Blank(), Blank());
    CandidatesSpec(variants);
    AllFitOnBlank(Candidates(variants));
    DominoCandidates();
  }

  lemma BlankArea()
    ensures Area(Blank()) == 0
    ensures forall fixed :: IsBoard(fixed) ==> Area(Occupied(Blank(), fixed)) == 0
  {
    assert Ones(Blank()) == {} by {
      forall c | c in Ones(Blank()) ensures false {
        OnesMember(Blank(), c);
      }
    }
    forall fixed | IsBoard(fixed) ensures Area(Occupied(Blank(), fixed)) == 0 {
      assert Ones(Occupied(Blank(), fixed)) == {} by {
        forall c | c in Ones(Occupied(Blank(), fixed)) ensures false {
          OccupiedMember(Blank(), fixed, c);
        }
      }
    }
  }

  /** kt.py:191-194 with no blocks: one (empty) completion and no counts. */
  lemma RunNoBlocks(states: Matrix)
    requires IsBoard(states)
    ensures Run([], states).total == 1
    ensures forall y, x :: 0 <= y < N && 0 <= x < N ==> Run([], states).counts[y][x] == 0
  {
    var fixed := FixedOf(states);
    var occ := Occupied(Blank(), fixed);
    assert forall y, x :: 0 <= y < N && 0 <= x < N ==> occ[y][x] == 0;
  }

  /** What the finished computation shows: per-cell counts between 0 and the
      total, and none on a fixed cell. */
  lemma RunBounds(blocks: seq<seq<Matrix>>, states: Matrix)
    requires Shapes(blocks) && IsBoard(states)
    ensures var r := Run(blocks, states);
      && (forall y, x :: 0 <= y < N && 0 <= x < N ==> 0 <= r.counts[y][x] <= r.total)
      && (forall y, x :: 0 <= y < N && 0 <= x < N && states[y][x] == 1 ==> r.counts[y][x] == 0)
  {
    SearchBounds(blocks, 0, Blank(), Blank(), FixedOf(states));
  }

  /** All counts together are the total times the blocks' area. */
  lemma RunSum(blocks: seq<seq<Matrix>>, states: Matrix)
    requires Shapes(blocks) && IsBoard(states) && Uniform(blocks)
    ensures Sum(Run(blocks, states).counts) == Run(blocks, states).total * TotalArea(blocks, 0)
  {
    var fixed := FixedOf(states);
    SearchSum(blocks, 0, Blank(), Blank(), fixed);
    BlankArea();
    assert Weight(blocks, 0, Blank(), fixed) == TotalArea(blocks, 0);
    BinarySumIsArea(Blank());
  }
}

=== FILE: rotations.dfy ===
/** The rotation variants of one shape (kt.py `all_rotations`). */
module Rotations {
  import opened Cardinality
  import opened Matrices

  /** `k` more rounds of the loop of `all_rotations`: turn the current matrix,
      and append it to `acc` unless an equal matrix is already there. */
  function Collect(m: Matrix, k: nat, acc: seq<Matrix>): seq<Matrix>
    requires Rect(m)
    decreases k
  {
    if k == 0 then acc
    else
      var turned := Rotate(m);
      Collect(turned, k - 1, if turned in acc then acc else acc + [turned])
  }

  /** The distinct matrices among the 1st, 2nd, 3rd and 4th quarter turns, in
      the order they first appear. */
  function AllRotations(m: Matrix): seq<Matrix>
    requires Rect(m)
  {
    Collect(m, 4, [])
  }

  /** `k` quarter turns. */
  function Turn(m: Matrix, k: nat): (r: Matrix)
    requires Rect(m)
    ensures Rect(r)
    decreases k
  {
    if k == 0 then m else Turn(Rotate(m), k - 1)
  }

  lemma {:induction false} TurnSucc(m: Matrix, k: nat)
    requires Rect(m)
    ensures Turn(m, k + 1) == Rotate(Turn(m, k))
    decreases k
  {
    if k > 0 {
      TurnSucc(Rotate(m), k - 1);
    }
  }

  /** The matrices that `k` rounds of the loop starting from `m` produce. */
  function TurnsUpTo(m: Matrix, k: nat): set<Matrix>
    requires Rect(m)
  {
    set i | 1 <= i <= k :: Turn(m, i)
  }

  /** The loop keeps what it has, never repeats an entry, and after `k` rounds
      holds exactly the entries it started with plus the first `k` turns. */
  lemma {:induction false} CollectSpec(m: Matrix, k: nat, acc: seq<Matrix>)
    requires Rect(m) && Distinct(acc)
    ensures var r := Collect(m, k, acc);
      && Distinct(r)
      && |acc| <= |r|
      && r[..|acc|] == acc
      && Elems(r) == Elems(acc) + TurnsUpTo(m, k)
    decreases k
  {
    if k > 0 {
      var turned := Rotate(m);
      var acc' := if turned in acc then acc else acc + [turned];
      assert Distinct(acc');
      CollectSpec(turned, k - 1, acc');
      var r := Collect(m, k, acc);
      assert r == Collect(turned, k - 1, acc');
      assert r[..|acc|] == acc' [..|acc|];
      assert Elems(acc') == Elems(acc) + {turned};
      assert TurnsUpTo(m, k) == {turned} + TurnsUpTo(turned, k - 1) by {
        forall t | t in TurnsUpTo(m, k) ensures t in {turned} + TurnsUpTo(turned, k - 1) {
          var i :| 1 <= i <= k && t == Turn(m, i);
          if i > 1 {
            assert Turn(m, i) == Turn(turned, i - 1);
          }
        }
        forall t | t in TurnsUpTo(turned, k - 1) ensures t in TurnsUpTo(m, k) {
          var i :| 1 <= i <= k - 1 && t == Turn(turned, i);
          assert Turn(m, i + 1) == t;
        }
        assert Turn(m, 1) == turned;
      }
    }
  }

  /** Four quarter turns give back a shape with a column. */
  lemma TurnFour(m: Matrix)
    requires Rect(m) && (|m| == 0 || Width(m) > 0)
    ensures Turn(m, 4) == m
  {
    RotateFour(m);
  }

  /** A set of at most four named elements has at most four elements. */
  lemma FourCard<T>(a: T, b: T, c: T, d: T)
    ensures |{a, b, c, d}| <= 4
  {
  }

  /** `all_rotations` returns one to four pairwise different matrices, and they
      are exactly the quarter turns of its input, the input included. */
  lemma AllRotationsSpec(m: Matrix)
    requires Rect(m) && (|m| == 0 || Width(m) > 0)
    ensures var r := AllRotations(m);
      && Distinct(r)
      && 1 <= |r| <= 4
      && m in r
      && Elems(r) == {Rotate(m), Turn(m, 2), Turn(m, 3), m}
  {
    var r := AllRotations(m);
    CollectSpec(m, 4, []);
    assert Elems(r) == TurnsUpTo(m, 4);
    TurnFour(m);
    var quad := {Rotate(m), Turn(m, 2), Turn(m, 3), m};
    assert TurnsUpTo(m, 4) == quad by {
      assert Turn(m, 1) == Rotate(m);
      forall t | t in TurnsUpTo(m, 4) ensures t in quad {
        var i :| 1 <= i <= 4 && t == Turn(m, i);
      }
      assert Turn(m, 1) in TurnsUpTo(m, 4);
      assert Turn(m, 2) in TurnsUpTo(m, 4);
      assert Turn(m, 3) in TurnsUpTo(m, 4);
      assert Turn(m, 4) in TurnsUpTo(m, 4);
    }
    DistinctCard(r);
    FourCard(Rotate(m), Turn(m, 2), Turn(m, 3), m);
    assert m in Elems(r);
  }

  /** Each quarter turn keeps the matrix rectangular. */
  lemma {:induction false} TurnRect(m: Matrix, k: nat)
    requires Rect(m) && (|m| == 0 || Width(m) > 0)
    ensures var t := Turn(m, k); |t| == 0 || Width(t) > 0
    decreases k
  {
    if k > 0 {
      TurnRect(Rotate(m), k - 1);
    }
  }

  /** Every turn of a tight, 0/1 box is a tight, 0/1 box of the same area. */
  lemma {:induction false} TurnKeeps(m: Matrix, k: nat)
    requires Tight(m) && Binary(m)
    ensures Tight(Turn(m, k)) && Binary(Turn(m, k)) && Area(Turn(m, k)) == Area(m)
    decreases k
  {
    if k > 0 {
      RotateTight(m);
      RotateBinary(m);
      RotateArea(m);
      TurnKeeps(Rotate(m), k - 1);
    }
  }

  /** All variants of a tight 0/1 shape are tight 0/1 shapes with its area. */
  lemma VariantsKeep(m: Matrix)
    requires Tight(m) && Binary(m)
    ensures forall v :: v in AllRotations(m) ==> Tight(v) && Binary(v) && Area(v) == Area(m)
  {
    AllRotationsSpec(m);
    TurnKeeps(m, 1);
    TurnKeeps(m, 2);
    TurnKeeps(m, 3);
    assert Turn(m, 1) == Rotate(m);
    forall v | v in AllRotations(m) ensures Tight(v) && Binary(v) && Area(v) == Area(m) {
      assert v in Elems(AllRotations(m));
    }
  }

  /** The full 2-by-2 square has a single variant. */
  lemma SquareHasOneVariant()
    ensures AllRotations([[1, 1], [1, 1]]) == [[[1, 1], [1, 1]]]
  {
    var sq: Matrix := [[1, 1], [1, 1]];
    var r := Rotate(sq);
    assert r[0] == [sq[1][0], sq[0][0]];
    assert r[1] == [sq[1][1], sq[0][1]];
    assert r == sq;
  }

  /** The horizontal domino has two variants: upright first, then itself. */
  lemma DominoHasTwoVariants()
    ensures AllRotations([[1, 1]]) == [[[1], [1]], [[1, 1]]]
  {
    var flat: Matrix := [[1, 1]];
    var upright: Matrix := [[1], [1]];
    var r1 := Rotate(flat);
    assert r1[0] == [flat[0][0]] && r1[1] == [flat[0][1]];
    assert r1 == upright;
    var r2 := Rotate(upright);
    assert r2[0] == [upright[1][0], upright[0][0]];
    assert r2 == flat;
  }
}

=== FILE: schedule.dfy ===
/** The scheduling half of event_timer.py: the next occurrences of an alarm
    (event_timer.py:101-131), the schedule of all alarms (event_timer.py:133-139),
    the choice of the next alarm to fire (event_timer.py:228-242), marking a
    fired advance (event_timer.py:266) and silencing missed alarms at start
    (event_timer.py:202-214).

    Instants are whole seconds since 1970-01-01T00:00:00 UTC. A zone's wall
    clock reads an instant plus the zone's offset. The local zone is the
    fixed-offset zone the program reads once at start, so its offset is a
    parameter. */
module Schedule {
  import opened Wrappers
  import opened Alarms

  const Day: int := 86400
  const Week: int := 7 * Day

  /** The largest element of a list, or 0 for the empty list: the
      `max(...) if ... else 0` of event_timer.py:204. */
  function Largest(s: seq<int>): (m: int)
    ensures s == [] ==> m == 0
    ensures s != [] ==> m in s && forall i :: 0 <= i < |s| ==> s[i] <= m
  {
    if s == [] then 0
    else if |s| == 1 || s[0] >= Largest(s[1..]) then s[0]
    else Largest(s[1..])
  }

  /** The largest advance. */
  const MaxAdvance: int := Largest(Advances)

  /** The offset in seconds of an alarm's zone. */
  function Offset(zone: Zone, local: int): int
  {
    match zone
    case Local => local
    case Utc(hours) => hours * 3600
  }

  /** `date.weekday()` of a wall-clock reading, Monday being 0:
      1970-01-01 was a Thursday. */
  function Weekday(wall: int): int
  {
    (wall / Day + 3) % 7
  }

  /** The hour, minute and second `datetime.replace` accepts. */
  predicate InClockRange(a: Alarm)
  {
    0 <= a.hour < 24 && 0 <= a.minute < 60 && 0 <= a.second < 60
  }

  /** The seconds since midnight an alarm names. */
  function ClockOf(a: Alarm): int
  {
    a.hour * 3600 + a.minute * 60 + a.second
  }

  /** `datetime.replace` refuses an hour, minute or second out of range. */
  datatype ScheduleError = BadClock(hour: int, minute: int, second: int)

  /** The wall-clock reading of the first time `clock` on weekday `w` comes
      strictly after `wall`: today at `clock`, moved forward to weekday `w`,
      and a week later when that is not after `wall`. */
  function Occurrence(wall: int, clock: int, w: int): int
  {
    var today := wall - wall % Day + clock;
    var cand := today + ((w - Weekday(wall)) % 7) * Day;
    if cand <= wall then cand + Week else cand
  }

  /** `compute_next_occurrences` as instants: one per weekday, Monday first,
      for a daily alarm; one for an alarm with a weekday. */
  function NextOccurrences(a: Alarm, now: int, local: int): Result<seq<int>, ScheduleError>
  {
    if !InClockRange(a) then Err(BadClock(a.hour, a.minute, a.second))
    else
      var off := Offset(a.zone, local);
      match a.weekday
      case None => Ok(seq(7, w => Occurrence(now + off, ClockOf(a), w) - off))
      case Some(w) => Ok([Occurrence(now + off, ClockOf(a), w) - off])
  }

  /** A wall-clock reading falls on weekday `w` at `clock`. */
  predicate Matches(x: int, clock: int, w: int)
  {
    x % Day == clock && Weekday(x) == w % 7
  }

  lemma DayParts(q: int, r: int)
    requires 0 <= r < Day
    ensures (q * Day + r) / Day == q && (q * Day + r) % Day == r
  {
  }

  lemma WeekdayShift(a: int, w: int)
    ensures (a + (w - a % 7) % 7) % 7 == w % 7
  {
    var p := a / 7;
    var q := (w - a % 7) / 7;
    assert a == 7 * p + a % 7;
    assert w - a % 7 == 7 * q + (w - a % 7) % 7;
    assert a + (w - a % 7) % 7 == w + 7 * (p - q);
  }

  /** Days with the same weekday lie a whole number of weeks apart. */
  lemma SameWeekday(d: int, e: int)
    requires (d + 3) % 7 == (e + 3) % 7 && d < e
    ensures d + 7 <= e
  {
    var p := (d + 3) / 7;
    var q := (e + 3) / 7;
    assert d + 3 == 7 * p + (d + 3) % 7;
    assert e + 3 == 7 * q + (e + 3) % 7;
    assert e - d == 7 * (q - p);
  }

  /** The occurrence is after `wall`, at most a week later, at `clock` on
      weekday `w`. */
  lemma {:induction false} OccurrenceSpec(wall: int, clock: int, w: int)
    requires 0 <= clock < Day
    ensures var x := Occurrence(wall, clock, w);
      wall < x <= wall + Week && Matches(x, clock, w)
  {
    var d := wall / Day;
    var j := (w - Weekday(wall)) % 7;
    assert wall - wall % Day == d * Day;
    var cand := (d + j) * Day + clock;
    assert cand == wall - wall % Day + clock + j * Day;
    var x := Occurrence(wall, clock, w);
    var b := if cand <= wall then 1 else 0;
    assert x == (d + j + 7 * b) * Day + clock;
    DayParts(d + j + 7 * b, clock);
    WeekdayShift(d + 3, w);
    assert (d + 3 + j + 7 * b) % 7 == (d + 3 + j) % 7;
  }

  /** No reading after `wall` matches before the occurrence does. */
  lemma {:induction false} OccurrenceFirst(wall: int, clock: int, w: int, y: int)
    requires 0 <= clock < Day && wall < y && Matches(y, clock, w)
    ensures Occurrence(wall, clock, w) <= y
  {
    var x := Occurrence(wall, clock, w);
    OccurrenceSpec(wall, clock, w);
    if y < x {
      assert x == (x / Day) * Day + clock && y == (y / Day) * Day + clock;
      assert y / Day < x / Day;
      SameWeekday(y / Day, x / Day);
    }
  }

  /** `compute_next_occurrences` fails exactly when the alarm's time is out
      of range. */
  lemma OccurrencesErr(a: Alarm, now: int, local: int)
    ensures NextOccurrences(a, now, local).Err? <==> !InClockRange(a)
  {
  }

  /** Instant `t` is the first after `now` whose reading, `off` seconds
      ahead, falls on weekday `w` at `clock`, and it is at most a week
      after `now`. */
  ghost predicate FirstAfter(t: int, now: int, off: int, clock: int, w: int)
  {
    && now < t <= now + Week
    && Matches(t + off, clock, w)
    && forall x :: now + off < x && Matches(x, clock, w) ==> t + off <= x
  }

  /** The weekday of the `i`-th occurrence of an alarm. */
  function TargetDay(a: Alarm, i: int): int
  {
    if a.weekday.None? then i else a.weekday.value
  }

  /** Every computed occurrence falls on the alarm's weekday (weekday `i`
      for the `i`-th occurrence of a daily alarm) at the alarm's time in its
      zone, strictly after now and at most a week later, and it is the first
      such instant after now. A daily alarm has seven occurrences, any other
      one. */
  lemma OccurrencesSpec(a: Alarm, now: int, local: int)
    requires NextOccurrences(a, now, local).Ok?
    ensures var ts := NextOccurrences(a, now, local).value;
      && |ts| == (if a.weekday.None? then 7 else 1)
      && forall i :: 0 <= i < |ts| ==> FirstAfter(ts[i], now, Offset(a.zone, local), ClockOf(a), TargetDay(a, i))
  {
    var ts := NextOccurrences(a, now, local).value;
    var off := Offset(a.zone, local);
    forall i | 0 <= i < |ts| ensures FirstAfter(ts[i], now, off, ClockOf(a), TargetDay(a, i)) {
      var w := TargetDay(a, i);
      assert ts[i] == Occurrence(now + off, ClockOf(a), w) - off;
      OccurrenceSpec(now + off, ClockOf(a), w);
      forall x | now + off < x && Matches(x, ClockOf(a), w) ensures ts[i] + off <= x {
        OccurrenceFirst(now + off, ClockOf(a), w, x);
      }
    }
  }

  /** The occurrences of a daily alarm are seven distinct instants. */
  lemma DailyDistinct(a: Alarm, now: int, local: int, i: int, j: int)
    requires NextOccurrences(a, now, local).Ok? && a.weekday.None?
    requires 0 <= i < j < 7
    ensures NextOccurrences(a, now, local).value[i] != NextOccurrences(a, now, local).value[j]
  {
    OccurrencesSpec(a, now, local);
    var ts := NextOccurrences(a, now, local).value;
    var off := Offset(a.zone, local);
    assert FirstAfter(ts[i], now, off, ClockOf(a), i) && FirstAfter(ts[j], now, off, ClockOf(a), j);
  }

  /** One row of the schedule: an alarm, by its position in the alarm list,
      and one of its occurrences. */
  datatype Entry = Entry(alarm: nat, at: int)

  /** `build_alarm_schedule` from alarm `i` on: the occurrences of every
      alarm, alarm by alarm; the first alarm whose time is out of range
      raises. */
  function BuildFrom(alarms: seq<Alarm>, i: nat, now: int, local: int): Result<seq<Entry>, ScheduleError>
    requires i <= |alarms|
    decreases |alarms| - i
  {
    if i == |alarms| then Ok([])
    else
      match NextOccurrences(alarms[i], now, local)
      case Err(e) => Err(e)
      case Ok(ts) =>
        match BuildFrom(alarms, i + 1, now, local)
        case Err(e) => Err(e)
        case Ok(rest) => Ok(seq(|ts|, k requires 0 <= k < |ts| => Entry(i, ts[k])) + rest)
  }

  function BuildSchedule(alarms: seq<Alarm>, now: int, local: int): Result<seq<Entry>, ScheduleError>
  {
    BuildFrom(alarms, 0, now, local)
  }

  /** An entry names an alarm from `i` on and one of its occurrences. */
  predicate Scheduled(alarms: seq<Alarm>, now: int, local: int, i: nat, en: Entry)
  {
    && i <= en.alarm < |alarms|
    && NextOccurrences(alarms[en.alarm], now, local).Ok?
    && en.at in NextOccurrences(alarms[en.alarm], now, local).value
  }

  /** Building succeeds exactly when every alarm's time is in range. */
  lemma {:induction false} BuildOk(alarms: seq<Alarm>, i: nat, now: int, local: int)
    requires i <= |alarms|
    ensures BuildFrom(alarms, i, now, local).Ok? <==> forall j :: i <= j < |alarms| ==> InClockRange(alarms[j])
    decreases |alarms| - i
  {
    if i < |alarms| {
      BuildOk(alarms, i + 1, now, local);
    }
  }

  /** The entries of alarm `i` followed by those of the later alarms. */
  lemma BuildSplit(alarms: seq<Alarm>, i: nat, now: int, local: int)
    requires i < |alarms| && BuildFrom(alarms, i, now, local).Ok?
    ensures NextOccurrences(alarms[i], now, local).Ok? && BuildFrom(alarms, i + 1, now, local).Ok?
    ensures var ts := NextOccurrences(alarms[i], now, local).value; var rest := BuildFrom(alarms, i + 1, now, local).value;
      var es := BuildFrom(alarms, i, now, local).value;
      && |es| == |ts| + |rest|
      && (forall k :: 0 <= k < |ts| ==> es[k] == Entry(i, ts[k]))
      && (forall k :: 0 <= k < |rest| ==> es[|ts| + k] == rest[k])
  {
  }

  /** Every entry of the schedule names an alarm and one of its
      occurrences. */
  lemma {:induction false} BuildSound(alarms: seq<Alarm>, i: nat, now: int, local: int)
    requires i <= |alarms| && BuildFrom(alarms, i, now, local).Ok?
    ensures var es := BuildFrom(alarms, i, now, local).value;
      forall e :: 0 <= e < |es| ==> Scheduled(alarms, now, local, i, es[e])
    decreases |alarms| - i
  {
    if i < |alarms| {
      BuildSplit(alarms, i, now, local);
      BuildSound(alarms, i + 1, now, local);
      var ts := NextOccurrences(alarms[i], now, local).value;
      var rest := BuildFrom(alarms, i + 1, now, local).value;
      var es := BuildFrom(alarms, i, now, local).value;
      forall e | 0 <= e < |es| ensures Scheduled(alarms, now, local, i, es[e]) {
        if e < |ts| {
          assert es[e] == Entry(i, ts[e]);
        } else {
          assert es[e] == rest[e - |ts|];
        }
      }
    }
  }

  /** Every occurrence of every alarm is in the schedule. */
  lemma {:induction false} BuildComplete(alarms: seq<Alarm>, i: nat, now: int, local: int, j: nat, t: int)
    requires i <= j < |alarms| && BuildFrom(alarms, i, now, local).Ok?
    requires NextOccurrences(alarms[j], now, local).Ok? && t in NextOccurrences(alarms[j], now, local).value
    ensures Entry(j, t) in BuildFrom(alarms, i, now, local).value
    decreases |alarms| - i
  {
    BuildSplit(alarms, i, now, local);
    var ts := NextOccurrences(alarms[i], now, local).value;
    var rest := BuildFrom(alarms, i + 1, now, local).value;
    var es := BuildFrom(alarms, i, now, local).value;
    if j == i {
      var k :| 0 <= k < |ts| && ts[k] == t;
      assert es[k] == Entry(j, t);
    } else {
      BuildComplete(alarms, i + 1, now, local, j, t);
      var k :| 0 <= k < |rest| && rest[k] == Entry(j, t);
      assert es[|ts| + k] == Entry(j, t);
    }
  }

  /** Every alarm has one triggered flag per advance and every entry names an
      alarm of the list. */
  predicate WellFormed(alarms: seq<Alarm>, entries: seq<Entry>)
  {
    && (forall i :: 0 <= i < |alarms| ==> |alarms[i].triggered| == |Advances|)
    && (forall e :: 0 <= e < |entries| ==> entries[e].alarm < |alarms|)
  }

  /** The fire time of advance `k` of entry `e`: its occurrence less the
      advance. */
  function FireAt(entries: seq<Entry>, e: nat, k: nat): int
    requires e < |entries| && k < |Advances|
  {
    entries[e].at - Advances[k]
  }

  /** Advance `k` of entry `e` can fire: its alarm has not fired that advance
      yet and its fire time is not before now. */
  predicate Candidate(alarms: seq<Alarm>, entries: seq<Entry>, now: int, e: nat, k: nat)
  {
    && e < |entries| && k < |Advances|
    && entries[e].alarm < |alarms| && k < |alarms[entries[e].alarm].triggered|
    && !alarms[entries[e].alarm].triggered[k]
    && FireAt(entries, e, k) >= now
  }

  /** Pair `(e, k)` comes before pair `(f, l)` in the order of the loops. */
  predicate Before(e: nat, k: nat, f: nat, l: nat)
  {
    e < f || (e == f && k < l)
  }

  /** The pair chosen to fire: its fire time, entry and advance. */
  datatype Fire = Fire(at: int, entry: nat, adv: nat)

  /** `best` is the choice among the pairs before `(e, k)`: none when none of
      them can fire, else one that can, whose fire time is the least, and
      the first such in loop order. */
  ghost predicate BestBefore(alarms: seq<Alarm>, entries: seq<Entry>, now: int, best: Option<Fire>, e: nat, k: nat)
  {
    && (best.None? ==> forall f: nat, l: nat :: Before(f, l, e, k) ==> !Candidate(alarms, entries, now, f, l))
    && (best.Some? ==>
          && Candidate(alarms, entries, now, best.value.entry, best.value.adv)
          && best.value.at == FireAt(entries, best.value.entry, best.value.adv)
          && Before(best.value.entry, best.value.adv, e, k)
          && forall f: nat, l: nat :: Before(f, l, e, k) && Candidate(alarms, entries, now, f, l) ==>
               && best.value.at <= FireAt(entries, f, l)
               && (FireAt(entries, f, l) == best.value.at ==> !Before(f, l, best.value.entry, best.value.adv)))
  }

  /** Looking at one more pair keeps the choice right. */
  lemma Step(alarms: seq<Alarm>, entries: seq<Entry>, now: int, best: Option<Fire>, e: nat, k: nat, next: Option<Fire>)
    requires e < |entries| && k < |Advances|
    requires BestBefore(alarms, entries, now, best, e, k)
    requires next == if Candidate(alarms, entries, now, e, k) && (best.None? || FireAt(entries, e, k) < best.value.at)
                     then Some(Fire(FireAt(entries, e, k), e, k)) else best
    ensures BestBefore(alarms, entries, now, next, e, k + 1)
  {
  }

  /** The next-fire choice of `alarm_loop`: over every entry, in schedule
      order, and every advance, the pair that can fire soonest, the first
      one found on ties; none when no pair can fire. */
  method SelectNextFire(alarms: seq<Alarm>, entries: seq<Entry>, now: int) returns (r: Option<Fire>)
    requires WellFormed(alarms, entries)
    ensures r.None? <==> forall e: nat, k: nat :: !Candidate(alarms, entries, now, e, k)
    ensures r.Some? ==>
      && Candidate(alarms, entries, now, r.value.entry, r.value.adv)
      && r.value.at == FireAt(entries, r.value.entry, r.value.adv)
      && forall e: nat, k: nat :: Candidate(alarms, entries, now, e, k) ==>
           && r.value.at <= FireAt(entries, e, k)
           && (FireAt(entries, e, k) == r.value.at ==> !Before(e, k, r.value.entry, r.value.adv))
  {
    r := None;
    var e := 0;
    while e < |entries|
      invariant 0 <= e <= |entries|
      invariant BestBefore(alarms, entries, now, r, e, 0)
    {
      var k := 0;
      while k < |Advances|
        invariant 0 <= k <= |Advances|
        invariant BestBefore(alarms, entries, now, r, e, k)
      {
        var next := r;
        var a := entries[e].alarm;
        if !alarms[a].triggered[k] {
          var fire := entries[e].at - Advances[k];
          if fire >= now && (r.None? || fire < r.value.at) {
            next := Some(Fire(fire, e, k));
          }
        }
        Step(alarms, entries, now, r, e, k, next);
        r := next;
        k := k + 1;
      }
      NextEntry(alarms, entries, now, r, e);
      e := e + 1;
    }
    Conclude(alarms, entries, now, r);
  }

  /** Having looked at every advance of entry `e` is having looked at every
      pair before entry `e + 1`. */
  lemma NextEntry(alarms: seq<Alarm>, entries: seq<Entry>, now: int, best: Option<Fire>, e: nat)
    requires BestBefore(alarms, entries, now, best, e, |Advances|)
    ensures BestBefore(alarms, entries, now, best, e + 1, 0)
  {
    assert forall f: nat, l: nat :: Before(f, l, e + 1, 0) && l < |Advances| ==> Before(f, l, e, |Advances|);
  }

  /** Having looked at every entry, the choice is the one among all pairs. */
  lemma Conclude(alarms: seq<Alarm>, entries: seq<Entry>, now: int, best: Option<Fire>)
    requires BestBefore(alarms, entries, now, best, |entries|, 0)
    ensures best.None? <==> forall e: nat, k: nat :: !Candidate(alarms, entries, now, e, k)
    ensures best.Some? ==>
      && Candidate(alarms, entries, now, best.value.entry, best.value.adv)
      && best.value.at == FireAt(entries, best.value.entry, best.value.adv)
      && forall e: nat, k: nat :: Candidate(alarms, entries, now, e, k) ==>
           && best.value.at <= FireAt(entries, e, k)
           && (FireAt(entries, e, k) == best.value.at ==> !Before(e, k, best.value.entry, best.value.adv))
  {
    assert forall f: nat, l: nat :: Candidate(alarms, entries, now, f, l) ==> Before(f, l, |entries|, 0);
  }

  /** Every scheduled occurrence lies in the week after now. */
  lemma ScheduledWithinWeek(alarms: seq<Alarm>, now: int, local: int, en: Entry)
    requires Scheduled(alarms, now, local, 0, en)
    ensures now < en.at <= now + Week
  {
    var ts := NextOccurrences(alarms[en.alarm], now, local).value;
    OccurrencesSpec(alarms[en.alarm], now, local);
    var k :| 0 <= k < |ts| && ts[k] == en.at;
    assert FirstAfter(ts[k], now, Offset(alarms[en.alarm].zone, local), ClockOf(alarms[en.alarm]), TargetDay(alarms[en.alarm], k));
  }

  /** One pass of `alarm_loop` up to the wait: build the schedule, then choose
      the next pair to fire. Building fails exactly when some alarm's time is
      out of range. Otherwise the choice is over the built schedule: none
      exactly when no pair can fire, else a pair that can, with the least
      fire time and the first such in loop order, firing no earlier than now
      and within a week. */
  method PlanNext(alarms: seq<Alarm>, now: int, local: int) returns (r: Result<Option<Fire>, ScheduleError>)
    requires forall i :: 0 <= i < |alarms| ==> |alarms[i].triggered| == |Advances|
    ensures r.Err? <==> exists i :: 0 <= i < |alarms| && !InClockRange(alarms[i])
    ensures r.Ok? ==> BuildSchedule(alarms, now, local).Ok?
    ensures r.Ok? ==> (r.value.None? <==>
      forall e: nat, k: nat :: !Candidate(alarms, BuildSchedule(alarms, now, local).value, now, e, k))
    ensures r.Ok? && r.value.Some? ==>
      && Candidate(alarms, BuildSchedule(alarms, now, local).value, now, r.value.value.entry, r.value.value.adv)
      && r.value.value.at == FireAt(BuildSchedule(alarms, now, local).value, r.value.value.entry, r.value.value.adv)
    ensures r.Ok? && r.value.Some? ==>
      forall e: nat, k: nat :: Candidate(alarms, BuildSchedule(alarms, now, local).value, now, e, k) ==>
        && r.value.value.at <= FireAt(BuildSchedule(alarms, now, local).value, e, k)
        && (FireAt(BuildSchedule(alarms, now, local).value, e, k) == r.value.value.at ==>
              !Before(e, k, r.value.value.entry, r.value.value.adv))
    ensures r.Ok? && r.value.Some? ==> now <= r.value.value.at <= now + Week
  {
    BuildOk(alarms, 0, now, local);
    match BuildSchedule(alarms, now, local)
    case Err(e) =>
      r := Err(e);
    case Ok(entries) =>
      BuildSound(alarms, 0, now, local);
      var next := SelectNextFire(alarms, entries, now);
      if next.Some? {
        ScheduledWithinWeek(alarms, now, local, entries[next.value.entry]);
      }
      r := Ok(next);
  }

  /** `alarm_obj['advance_triggered'][adv_idx] = True`: the alarm of the
      fired entry has fired that advance. */
  function MarkTriggered(alarms: seq<Alarm>, entries: seq<Entry>, f: Fire): seq<Alarm>
    requires WellFormed(alarms, entries) && f.entry < |entries| && f.adv < |Advances|
  {
    var i := entries[f.entry].alarm;
    alarms[i := alarms[i].(triggered := alarms[i].triggered[f.adv := true])]
  }

  /** After firing, a pair can fire exactly when it could before and is not
      the fired advance of the fired alarm, at any of its occurrences. */
  lemma FiresOnce(alarms: seq<Alarm>, entries: seq<Entry>, now: int, f: Fire, e: nat, k: nat)
    requires WellFormed(alarms, entries) && f.entry < |entries| && f.adv < |Advances|
    ensures WellFormed(MarkTriggered(alarms, entries, f), entries)
    ensures Candidate(MarkTriggered(alarms, entries, f), entries, now, e, k)
      <==> Candidate(alarms, entries, now, e, k) && !(e < |entries| && entries[e].alarm == entries[f.entry].alarm && k == f.adv)
  {
  }

  /** An occurrence is missed at start: it is still ahead, but within the
      largest advance of now. */
  predicate Missed(en: Entry, now: int)
  {
    en.at > now && en.at - MaxAdvance <= now
  }

  /** Every advance has fired: `[True]*len(ADVANCE_SECONDS_LIST)`. */
  const AllTriggered: seq<bool> := Repeat(true, |Advances|)

  /** `check_missed_alarms_on_start` from entry `e` on: an alarm with a
      missed occurrence has all its advances marked fired. */
  function MarkMissedFrom(alarms: seq<Alarm>, entries: seq<Entry>, now: int, e: nat): seq<Alarm>
    requires WellFormed(alarms, entries) && e <= |entries|
    decreases |entries| - e
  {
    if e == |entries| then alarms
    else
      var en := entries[e];
      var next := if Missed(en, now) then alarms[en.alarm := alarms[en.alarm].(triggered := AllTriggered)] else alarms;
      MarkMissedFrom(next, entries, now, e + 1)
  }

  /** An alarm with a missed occurrence from `e` on has every advance marked
      fired; every other alarm is left as it was. */
  lemma {:induction false} MarkMissedSpec(alarms: seq<Alarm>, entries: seq<Entry>, now: int, e: nat)
    requires WellFormed(alarms, entries) && e <= |entries|
    ensures var m := MarkMissedFrom(alarms, entries, now, e);
      && |m| == |alarms| && WellFormed(m, entries)
      && forall i :: 0 <= i < |alarms| ==>
           m[i] == if exists f :: e <= f < |entries| && entries[f].alarm == i && Missed(entries[f], now)
                   then alarms[i].(triggered := AllTriggered) else alarms[i]
    decreases |entries| - e
  {
    if e < |entries| {
      var en := entries[e];
      var next := if Missed(en, now) then alarms[en.alarm := alarms[en.alarm].(triggered := AllTriggered)] else alarms;
      MarkMissedSpec(next, entries, now, e + 1);
    }
  }

  /** After the check at start, no advance of an alarm with a missed
      occurrence can fire, at any of its occurrences. */
  lemma MissedSilenced(alarms: seq<Alarm>, entries: seq<Entry>, now: int, f: nat, e: nat, k: nat)
    requires WellFormed(alarms, entries) && f < |entries| && Missed(entries[f], now)
    requires e < |entries| && entries[e].alarm == entries[f].alarm
    ensures !Candidate(MarkMissedFrom(alarms, entries, now, 0), entries, now, e, k)
  {
    MarkMissedSpec(alarms, entries, now, 0);
  }
}

=== FILE: sums.dfy ===
/** Sums of matrix entries, and their link to the number of covered cells. */
module Sums {
  import opened Matrices

  function RowSum(s: seq<int>): int
  {
    if |s| == 0 then 0 else RowSum(s[..|s| - 1]) + s[|s| - 1]
  }

  /** The sum of all entries. */
  function Sum(m: Matrix): int
  {
    if |m| == 0 then 0 else Sum(m[..|m| - 1]) + RowSum(m[|m| - 1])
  }

  /** Entry-wise addition of two matrices of the same dimensions. */
  function Add(a: Matrix, b: Matrix): (r: Matrix)
    requires |a| == |b| && forall y :: 0 <= y < |a| ==> |a[y]| == |b[y]|
    ensures |r| == |a| && forall y :: 0 <= y < |a| ==> |r[y]| == |a[y]|
    ensures forall y, x :: 0 <= y < |a| && 0 <= x < |a[y]| ==> r[y][x] == a[y][x] + b[y][x]
  {
    seq(|a|, y requires 0 <= y < |a| => seq(|a[y]|, x requires 0 <= x < |a[y]| => a[y][x] + b[y][x]))
  }

  lemma {:induction false} RowSumAdd(a: seq<int>, b: seq<int>, r: seq<int>)
    requires |a| == |b| == |r| && forall x :: 0 <= x < |a| ==> r[x] == a[x] + b[x]
    ensures RowSum(r) == RowSum(a) + RowSum(b)
    decreases |a|
  {
    if |a| > 0 {
      var k := |a| - 1;
      RowSumAdd(a[..k], b[..k], r[..k]);
    }
  }

  /** Summing is additive. */
  lemma {:induction false} SumAdd(a: Matrix, b: Matrix)
    requires |a| == |b| && forall y :: 0 <= y < |a| ==> |a[y]| == |b[y]|
    ensures Sum(Add(a, b)) == Sum(a) + Sum(b)
    decreases |a|
  {
    if |a| > 0 {
      var k := |a| - 1;
      var r := Add(a, b);
      assert Sum(r[..k]) == Sum(a[..k]) + Sum(b[..k]) by {
        SumAdd(a[..k], b[..k]);
        assert Add(a[..k], b[..k]) == r[..k];
      }
      assert RowSum(r[k]) == RowSum(a[k]) + RowSum(b[k]) by {
        RowSumAdd(a[k], b[k], r[k]);
      }
    }
  }

  /** The 1s of row `y` of a matrix among its first `k` columns. */
  function RowOnes(row: seq<int>, y: int, k: nat): set<Cell>
    requires k <= |row|
  {
    set c | 0 <= c < k && row[c] == 1 :: Cell(c, y)
  }

  lemma {:induction false} RowSumIsCount(row: seq<int>, y: int)
    requires forall c :: 0 <= c < |row| ==> row[c] == 0 || row[c] == 1
    ensures RowSum(row) == |RowOnes(row, y, |row|)|
    decreases |row|
  {
    if |row| > 0 {
      var k := |row| - 1;
      var front := row[..k];
      RowSumIsCount(front, y);
      assert RowOnes(front, y, k) == RowOnes(row, y, k);
      if row[k] == 1 {
        assert RowOnes(row, y, |row|) == RowOnes(row, y, k) + {Cell(k, y)};
      } else {
        assert RowOnes(row, y, |row|) == RowOnes(row, y, k);
      }
    }
  }

  /** A 0/1 matrix sums to its number of covered cells. */
  lemma {:induction false} BinarySumIsArea(m: Matrix)
    requires Binary(m)
    ensures Sum(m) == Area(m)
    decreases |m|
  {
    if |m| > 0 {
      var k := |m| - 1;
      var front := m[..k];
      assert Binary(front);
      BinarySumIsArea(front);
      RowSumIsCount(m[k], k);
      assert Ones(m) == Ones(front) + RowOnes(m[k], k, |m[k]|) by {
        forall cell | cell in Ones(m) ensures cell in Ones(front) + RowOnes(m[k], k, |m[k]|) {
          OnesMember(m, cell);
          if cell.y < k {
            OnesMember(front, cell);
          }
        }
        forall cell | cell in Ones(front) ensures cell in Ones(m) {
          OnesMember(front, cell);
          OnesMember(m, cell);
        }
      }
      forall cell | cell in Ones(front) ensures cell.y < k {
        OnesMember(front, cell);
      }
      assert Ones(front) * RowOnes(m[k], k, |m[k]|) == {};
    }
  }
}

=== FILE: text.dfy ===
/** The few Python string operations the timer and the alarm parser use:
    `str.split(sep)`, `str.split()`, `str.strip()`, `str.splitlines()`,
    ASCII case mapping, and `int()` on decimal text. */
module Text {
  import opened Wrappers

  /** `str.split(sep)`: the pieces between the separators; always at least
      one, and empty pieces where separators touch or sit at an end. */
  function SplitOn(s: string, sep: char): (r: seq<string>)
    ensures |r| >= 1
    ensures forall i :: 0 <= i < |r| ==> sep !in r[i]
    decreases |s|
  {
    if |s| == 0 then [""]
    else
      var rest := SplitOn(s[1..], sep);
      if s[0] == sep then [""] + rest
      else [[s[0]] + rest[0]] + rest[1..]
  }

  /** `sep.join(pieces)`. */
  function Join(pieces: seq<string>, sep: char): string
    requires |pieces| >= 1
  {
    if |pieces| == 1 then pieces[0] else pieces[0] + [sep] + Join(pieces[1..], sep)
  }

  /** Splitting and joining again gives back the text. */
  lemma {:induction false} JoinSplit(s: string, sep: char)
    ensures Join(SplitOn(s, sep), sep) == s
    decreases |s|
  {
    if |s| > 0 {
      JoinSplit(s[1..], sep);
      var rest := SplitOn(s[1..], sep);
      if s[0] != sep {
        if |rest| > 1 {
          assert ([[s[0]] + rest[0]] + rest[1..])[1..] == rest[1..];
        }
      }
    }
  }

  /** Every character of a join is the separator or a character of one of
      the pieces. */
  lemma {:induction false} JoinMember(pieces: seq<string>, sep: char, k: nat)
    requires |pieces| >= 1 && k < |Join(pieces, sep)|
    ensures Join(pieces, sep)[k] == sep || exists i, j :: 0 <= i < |pieces| && 0 <= j < |pieces[i]| && Join(pieces, sep)[k] == pieces[i][j]
    decreases |pieces|
  {
    var p := pieces[0];
    if |pieces| > 1 && k > |p| {
      JoinMember(pieces[1..], sep, k - |p| - 1);
      var c := Join(pieces, sep)[k];
      if c != sep {
        var i, j :| 0 <= i < |pieces[1..]| && 0 <= j < |pieces[1..][i]| && c == pieces[1..][i][j];
        assert c == pieces[i + 1][j];
      }
    } else if k < |p| {
      assert Join(pieces, sep)[k] == pieces[0][k];
    }
  }

  /** A join ends with the end of its last piece. */
  lemma {:induction false} JoinEnds(pieces: seq<string>, sep: char)
    requires |pieces| >= 1 && |pieces[|pieces| - 1]| > 0
    ensures var j := Join(pieces, sep); |j| > 0 && j[|j| - 1] == pieces[|pieces| - 1][|pieces[|pieces| - 1]| - 1]
    decreases |pieces|
  {
    if |pieces| > 1 {
      JoinEnds(pieces[1..], sep);
    }
  }

  /** A join starts with the start of its first piece. */
  lemma JoinStarts(pieces: seq<string>, sep: char)
    requires |pieces| >= 1 && |pieces[0]| > 0
    ensures |Join(pieces, sep)| > 0 && Join(pieces, sep)[0] == pieces[0][0]
  {
  }

  /** Joining pieces that hold no separator and splitting again gives back
      the pieces. */
  lemma {:induction false} SplitJoin(pieces: seq<string>, sep: char)
    requires |pieces| >= 1 && forall i :: 0 <= i < |pieces| ==> sep !in pieces[i]
    ensures SplitOn(Join(pieces, sep), sep) == pieces
    decreases |pieces|, |pieces[0]|
  {
    var p := pieces[0];
    if |pieces| == 1 {
      SplitNoSep(p, sep);
    } else if |p| == 0 {
      SplitJoin(pieces[1..], sep);
      assert Join(pieces, sep) == [sep] + Join(pieces[1..], sep);
      assert (Join(pieces, sep))[1..] == Join(pieces[1..], sep);
    } else {
      var shorter := [p[1..]] + pieces[1..];
      SplitJoin(shorter, sep);
      assert Join(pieces, sep) == [p[0]] + Join(shorter, sep);
      assert Join(pieces, sep)[1..] == Join(shorter, sep);
      assert [p[0]] + p[1..] == p;
      assert shorter[1..] == pieces[1..];
      assert pieces == [p] + pieces[1..];
    }
  }

  lemma {:induction false} SplitNoSep(s: string, sep: char)
    requires sep !in s
    ensures SplitOn(s, sep) == [s]
    decreases |s|
  {
    if |s| > 0 {
      SplitNoSep(s[1..], sep);
      assert [s[0]] + s[1..] == s;
    }
  }

  /** The characters `str.isspace()` accepts, as ranges of code points;
      `str.split()` and `str.strip()` without arguments use the same set. */
  const SpaceRanges: seq<(char, char)> :=
    [ (' ', ' '), ('\t', '\r'), ('\U{1C}', '\U{1F}'), ('\U{85}', '\U{85}'), ('\U{A0}', '\U{A0}'),
      ('\U{1680}', '\U{1680}'), ('\U{2000}', '\U{200A}'), ('\U{2028}', '\U{2029}'),
      ('\U{202F}', '\U{202F}'), ('\U{205F}', '\U{205F}'), ('\U{3000}', '\U{3000}') ]

  predicate IsSpace(c: char)
  {
    InRanges(c, SpaceRanges)
  }

  predicate InRanges(c: char, ranges: seq<(char, char)>)
  {
    |ranges| > 0 && (ranges[0].0 <= c <= ranges[0].1 || InRanges(c, ranges[1..]))
  }

  /** A character outside every range is not in them. */
  lemma {:induction false} OutsideRanges(c: char, ranges: seq<(char, char)>)
    requires forall i :: 0 <= i < |ranges| ==> !(ranges[i].0 <= c <= ranges[i].1)
    ensures !InRanges(c, ranges)
    decreases |ranges|
  {
    if |ranges| > 0 {
      OutsideRanges(c, ranges[1..]);
    }
  }

  /** No printable ASCII character is whitespace. */
  lemma PrintableNotSpace(c: char)
    requires '!' <= c <= '~'
    ensures !IsSpace(c)
  {
    OutsideRanges(c, SpaceRanges);
  }

  /** Text holding no whitespace. */
  predicate Solid(s: string)
  {
    forall j :: 0 <= j < |s| ==> !IsSpace(s[j])
  }

  function TrimStart(s: string): (r: string)
    ensures |r| <= |s| && r == s[|s| - |r|..]
    ensures |r| > 0 ==> !IsSpace(r[0])
    decreases |s|
  {
    if |s| > 0 && IsSpace(s[0]) then TrimStart(s[1..]) else s
  }

  /** `TrimStart` drops only whitespace. */
  lemma {:induction false} TrimStartDrops(s: string)
    ensures forall i :: 0 <= i < |s| - |TrimStart(s)| ==> IsSpace(s[i])
    decreases |s|
  {
    if |s| > 0 && IsSpace(s[0]) {
      TrimStartDrops(s[1..]);
      forall i | 1 <= i < |s| - |TrimStart(s)| ensures IsSpace(s[i]) {
        assert s[i] == s[1..][i - 1];
      }
    }
  }

  function TrimEnd(s: string): (r: string)
    ensures |r| <= |s| && r == s[..|r|]
    ensures |r| > 0 ==> !IsSpace(r[|r| - 1])
    decreases |s|
  {
    if |s| > 0 && IsSpace(s[|s| - 1]) then TrimEnd(s[..|s| - 1]) else s
  }

  /** `TrimEnd` drops only whitespace. */
  lemma {:induction false} TrimEndDrops(s: string)
    ensures forall i :: |TrimEnd(s)| <= i < |s| ==> IsSpace(s[i])
    decreases |s|
  {
    if |s| > 0 && IsSpace(s[|s| - 1]) {
      TrimEndDrops(s[..|s| - 1]);
      forall i | |TrimEnd(s)| <= i < |s| - 1 ensures IsSpace(s[i]) {
        assert s[i] == s[..|s| - 1][i];
      }
    }
  }

  /** `str.strip()`. */
  function Strip(s: string): string
  {
    TrimEnd(TrimStart(s))
  }

  /** Text with no surrounding whitespace is left alone by `strip()`. */
  lemma StripTrimmed(s: string)
    requires |s| > 0 ==> !IsSpace(s[0]) && !IsSpace(s[|s| - 1])
    ensures Strip(s) == s
  {
  }

  /** Removes trailing `c`s, as `str.rstrip(c)` does. */
  function RStripChar(s: string, c: char): (r: string)
    ensures |r| <= |s| && r == s[..|r|] && (|r| > 0 ==> r[|r| - 1] != c)
    ensures forall i :: |r| <= i < |s| ==> s[i] == c
    decreases |s|
  {
    if |s| > 0 && s[|s| - 1] == c then RStripChar(s[..|s| - 1], c) else s
  }

  /** `str.split()`: the maximal runs of non-whitespace characters. */
  function Words(s: string): seq<string>
    decreases |s|
  {
    var t := TrimStart(s);
    if |t| == 0 then []
    else
      var w := Word(t);
      [w] + Words(t[|w|..])
  }

  /** The leading run of non-whitespace characters. */
  function Word(s: string): (r: string)
    requires |s| > 0 && !IsSpace(s[0])
    ensures 0 < |r| <= |s| && r == s[..|r|] && Solid(r)
    ensures |r| < |s| ==> IsSpace(s[|r|])
    decreases |s|
  {
    if |s| == 1 || IsSpace(s[1]) then s[..1] else [s[0]] + Word(s[1..])
  }

  /** Every word is non-empty and free of whitespace. */
  lemma {:induction false} WordsSolid(s: string)
    ensures forall i :: 0 <= i < |Words(s)| ==> |Words(s)[i]| > 0 && Solid(Words(s)[i])
    decreases |s|
  {
    var t := TrimStart(s);
    if |t| > 0 {
      var w := Word(t);
      WordsSolid(t[|w|..]);
      var r := Words(s);
      assert r == [w] + Words(t[|w|..]);
      forall i | 0 <= i < |r| ensures |r[i]| > 0 && Solid(r[i]) {
        if i > 0 {
          assert r[i] == Words(t[|w|..])[i - 1];
        }
      }
    }
  }

  /** Joining words with single spaces and splitting again gives the words. */
  lemma {:induction false} WordsJoin(ws: seq<string>)
    requires |ws| >= 1
    requires forall i :: 0 <= i < |ws| ==> |ws[i]| > 0 && Solid(ws[i])
    ensures Words(Join(ws, ' ')) == ws
    decreases |ws|
  {
    var w := ws[0];
    if |ws| == 1 {
      assert Join(ws, ' ') == w;
      WordsSingle(w);
    } else {
      var rest := Join(ws[1..], ' ');
      assert Words(rest) == ws[1..] by {
        WordsJoin(ws[1..]);
      }
      assert Words(Join(ws, ' ')) == [w] + Words(rest) by {
        assert Join(ws, ' ') == w + [' '] + rest;
        WordsCons(w, rest);
      }
      assert [w] + ws[1..] == ws;
    }
  }

  /** A lone word splits into itself. */
  lemma WordsSingle(w: string)
    requires |w| > 0 && Solid(w)
    ensures Words(w) == [w]
  {
    var empty: string := [];
    assert TrimStart(w) == w;
    WordOf(w, w);
    assert w[|w|..] == empty;
    assert Words(empty) == [];
  }

  /** A word, a space and more text split into the word and the words of
      the rest. */
  lemma WordsCons(w: string, rest: string)
    requires |w| > 0 && Solid(w)
    ensures Words(w + [' '] + rest) == [w] + Words(rest)
  {
    var s := w + [' '] + rest;
    assert TrimStart(s) == s;
    WordOf(s, w);
    var after := s[|w|..];
    assert after == [' '] + rest;
    assert after[1..] == rest;
    assert TrimStart(after) == TrimStart(rest);
  }

  lemma WordOf(s: string, w: string)
    requires |w| > 0 && w <= s && Solid(w)
    requires |w| < |s| ==> IsSpace(s[|w|])
    ensures Word(s) == w
  {
  }

  /** The line breaks `str.splitlines()` recognises; "\r\n" counts as one. */
  predicate IsLineBreak(c: char)
  {
    || ('\n' <= c <= '\r') || ('\U{1C}' <= c <= '\U{1E}')
    || c == '\U{85}' || c == '\U{2028}' || c == '\U{2029}'
  }

  /** Text holding no line break. */
  predicate Unbroken(s: string)
  {
    forall j :: 0 <= j < |s| ==> !IsLineBreak(s[j])
  }

  /** `str.splitlines()`: the lines without their breaks; no empty last line
      after a final break, and no line at all for empty text. */
  function SplitLines(s: string): seq<string>
    decreases |s|
  {
    if |s| == 0 then []
    else
      var line := LineOf(s);
      var after := |line| + BreakLength(s, |line|);
      [line] + SplitLines(s[after..])
  }

  /** The leading characters up to the first line break. */
  function LineOf(s: string): (r: string)
    ensures |r| <= |s| && r == s[..|r|] && Unbroken(r)
    ensures |r| < |s| ==> IsLineBreak(s[|r|])
    decreases |s|
  {
    if |s| == 0 || IsLineBreak(s[0]) then [] else [s[0]] + LineOf(s[1..])
  }

  /** The length of the break at `i`: 2 for "\r\n", else 1; 0 at the end. */
  function BreakLength(s: string, i: nat): (r: nat)
    requires i <= |s|
    ensures i + r <= |s| && (i < |s| ==> r >= 1)
  {
    if i == |s| then 0
    else if s[i] == '\r' && i + 1 < |s| && s[i + 1] == '\n' then 2
    else 1
  }

  /** Text with no line break is one line (or none when empty). */
  lemma SingleLine(s: string)
    requires Unbroken(s)
    ensures SplitLines(s) == if |s| == 0 then [] else [s]
  {
    if |s| > 0 {
      var line := LineOf(s);
      assert |line| == |s|;
      assert line == s;
      var empty: string := [];
      assert s[|s| + BreakLength(s, |s|)..] == empty;
      assert SplitLines(s) == [s] + SplitLines(empty);
    }
  }

  /** Lines joined with "\n" split back into the same lines. */
  lemma {:induction false} SplitLinesJoin(lines: seq<string>)
    requires |lines| >= 1 && |lines[|lines| - 1]| > 0
    requires forall i :: 0 <= i < |lines| ==> Unbroken(lines[i])
    ensures SplitLines(Join(lines, '\n')) == lines
    decreases |lines|
  {
    var s := Join(lines, '\n');
    var first := lines[0];
    if |lines| == 1 {
      SingleLine(first);
    } else {
      var rest := Join(lines[1..], '\n');
      assert SplitLines(rest) == lines[1..] by {
        SplitLinesJoin(lines[1..]);
      }
      assert SplitLines(s) == [first] + SplitLines(rest) by {
        assert s == first + ['\n'] + rest;
        LineOfIs(s, first);
        assert BreakLength(s, |first|) == 1;
        assert s[|first| + 1..] == rest;
      }
      assert [first] + lines[1..] == lines;
    }
  }

  lemma LineOfIs(s: string, line: string)
    requires line <= s && Unbroken(line)
    requires |line| < |s| ==> IsLineBreak(s[|line|])
    ensures LineOf(s) == line
  {
  }

  /** ASCII upper case, as `str.upper()` maps the letters a to z. */
  function Upper(s: string): (r: string)
    ensures |r| == |s|
    ensures forall i :: 0 <= i < |s| ==> r[i] == if 'a' <= s[i] <= 'z' then s[i] - 'a' + 'A' else s[i]
  {
    seq(|s|, i requires 0 <= i < |s| => if 'a' <= s[i] <= 'z' then s[i] - 'a' + 'A' else s[i])
  }

  predicate IsDigit(c: char)
  {
    '0' <= c <= '9'
  }

  /** One or more ASCII digits. */
  predicate IsDigits(s: string)
  {
    |s| > 0 && forall i :: 0 <= i < |s| ==> IsDigit(s[i])
  }

  /** The value of a string of decimal digits, most significant first. */
  function Value(s: string): nat
    requires forall i :: 0 <= i < |s| ==> IsDigit(s[i])
  {
    if |s| == 0 then 0
    else
      assert IsDigit(s[|s| - 1]);
      10 * Value(s[..|s| - 1]) + (s[|s| - 1] as int - '0' as int)
  }

  /** The decimal text of a natural number, without leading zeros. */
  function ShowNat(n: nat): (r: string)
    decreases n
  {
    if n < 10 then [('0' as int + n) as char] else ShowNat(n / 10) + [('0' as int + n % 10) as char]
  }

  /** `ShowNat` is decimal text that reads back as its input. */
  lemma {:induction false} ShowNatValue(n: nat)
    ensures IsDigits(ShowNat(n)) && Value(ShowNat(n)) == n
    ensures |ShowNat(n)| == 1 || ShowNat(n)[0] != '0'
    decreases n
  {
    var s := ShowNat(n);
    if n >= 10 {
      ShowNatValue(n / 10);
      assert s[..|s| - 1] == ShowNat(n / 10);
    }
  }

  /** Digit runs joined by single underscores, as `int()` accepts them: a
      digit, then either the end, or more groups, or an underscore and more
      groups. */
  predicate IsDigitGroups(s: string)
    decreases |s|
  {
    && |s| > 0 && IsDigit(s[0])
    && (|s| == 1 || if s[1] == '_' then IsDigitGroups(s[2..]) else IsDigitGroups(s[1..]))
  }

  /** Digit groups are made of digits and underscores, begin and end with a
      digit, and never hold two underscores in a row. */
  lemma {:induction false} GroupsShape(s: string)
    requires IsDigitGroups(s)
    ensures forall i :: 0 <= i < |s| ==> IsDigit(s[i]) || s[i] == '_'
    ensures IsDigit(s[|s| - 1])
    ensures forall i :: 0 <= i < |s| - 1 && s[i] == '_' ==> s[i + 1] != '_'
    decreases |s|
  {
    if |s| > 1 {
      var k := if s[1] == '_' then 2 else 1;
      var rest := s[k..];
      GroupsShape(rest);
      forall i | k <= i < |s| ensures IsDigit(s[i]) || s[i] == '_' {
        assert s[i] == rest[i - k];
      }
      assert s[|s| - 1] == rest[|rest| - 1];
      forall i | 0 <= i < |s| - 1 && s[i] == '_' ensures s[i + 1] != '_' {
        if i >= k {
          assert s[i] == rest[i - k] && s[i + 1] == rest[i + 1 - k];
        }
      }
    }
  }

  /** Plain digits are one digit group. */
  lemma {:induction false} DigitsGroups(d: string)
    requires IsDigits(d)
    ensures IsDigitGroups(d)
    decreases |d|
  {
    if |d| > 1 {
      assert IsDigit(d[1]);
      assert IsDigits(d[1..]) by {
        forall i | 0 <= i < |d| - 1 ensures IsDigit(d[1..][i]) {
          assert d[1..][i] == d[i + 1];
        }
      }
      DigitsGroups(d[1..]);
    }
  }

  /** Digits and single underscores between digits form digit groups. */
  lemma {:induction false} ShapeGroups(s: string)
    requires |s| > 0 && IsDigit(s[0]) && IsDigit(s[|s| - 1])
    requires forall i :: 0 <= i < |s| ==> IsDigit(s[i]) || s[i] == '_'
    requires forall i :: 0 <= i < |s| - 1 && s[i] == '_' ==> s[i + 1] != '_'
    ensures IsDigitGroups(s)
    decreases |s|
  {
    if |s| > 1 {
      var k := if s[1] == '_' then 2 else 1;
      var rest := s[k..];
      assert |rest| > 0 && rest[0] == s[k];
      assert IsDigit(rest[0]) by {
        if k == 2 {
          assert s[1] == '_' && s[2] != '_';
        }
      }
      forall i | 0 <= i < |rest| ensures IsDigit(rest[i]) || rest[i] == '_' {
        assert rest[i] == s[i + k];
      }
      forall i | 0 <= i < |rest| - 1 && rest[i] == '_' ensures rest[i + 1] != '_' {
        assert rest[i] == s[i + k] && rest[i + 1] == s[i + 1 + k];
      }
      assert rest[|rest| - 1] == s[|s| - 1];
      ShapeGroups(rest);
    }
  }

  /** The digits of the text, underscores dropped. */
  function DropUnderscores(s: string): (r: string)
    requires forall i :: 0 <= i < |s| ==> IsDigit(s[i]) || s[i] == '_'
    ensures forall i :: 0 <= i < |r| ==> IsDigit(r[i])
    ensures (forall i :: 0 <= i < |s| ==> IsDigit(s[i])) ==> r == s
  {
    if |s| == 0 then []
    else if s[0] == '_' then DropUnderscores(s[1..])
    else [s[0]] + DropUnderscores(s[1..])
  }

  /** The ASCII information separators U+001C to U+001F: `str.isspace()`
      accepts them, but `int()` keeps every code point below 127 as it is
      and then skips only the C library's ASCII whitespace. */
  predicate IsSeparator(c: char)
  {
    '\U{1C}' <= c <= '\U{1F}'
  }

  /** The whitespace `int()` skips around a number. */
  predicate IsIntSpace(c: char)
  {
    IsSpace(c) && !IsSeparator(c)
  }

  /** Python's `int(text)` in base 10 on ASCII text: surrounding whitespace,
      an optional sign, then digits in groups joined by single underscores;
      anything else is the `ValueError` that `int()` raises. The whitespace
      is dropped one character at a time. `ParseIntStrip` shows this is
      `strip()` on text without separators, and `ParseIntNoSeparator` that
      text with one is refused. */
  function ParseInt(s: string): Option<int>
    decreases |s|
  {
    if |s| > 0 && IsIntSpace(s[0]) then ParseInt(s[1..])
    else if |s| > 0 && IsIntSpace(s[|s| - 1]) then ParseInt(s[..|s| - 1])
    else ParseSigned(s)
  }

  /** An optional sign followed by digit groups. */
  function ParseSigned(t: string): Option<int>
  {
    var signed := |t| > 0 && (t[0] == '+' || t[0] == '-');
    var body := if signed then t[1..] else t;
    if !IsDigitGroups(body) then None
    else
      GroupsShape(body);
      var n: int := Value(DropUnderscores(body));
      Some(if signed && t[0] == '-' then -n else n)
  }

  /** Text holding no information separator. */
  predicate NoSeparator(s: string)
  {
    forall j :: 0 <= j < |s| ==> !IsSeparator(s[j])
  }

  /** A slice of text without separators has none. */
  lemma NoSeparatorSlice(s: string, i: nat, j: nat)
    requires NoSeparator(s) && i <= j <= |s|
    ensures NoSeparator(s[i..j])
  {
    forall k | 0 <= k < j - i ensures !IsSeparator(s[i..j][k]) {
      assert s[i..j][k] == s[i + k];
    }
  }

  /** On text without separators, reading through the whitespace one
      character at a time reads what `strip()` leaves. */
  lemma {:induction false} ParseIntStrip(s: string)
    requires NoSeparator(s)
    ensures ParseInt(s) == ParseSigned(Strip(s))
    decreases |s|
  {
    if |s| > 0 && IsIntSpace(s[0]) {
      assert Strip(s) == Strip(s[1..]);
      NoSeparatorSlice(s, 1, |s|);
      assert s[1..|s|] == s[1..];
      ParseIntStrip(s[1..]);
    } else if |s| > 0 && IsIntSpace(s[|s| - 1]) {
      var t := s[..|s| - 1];
      assert !IsSpace(s[0]) by {
        assert !IsSeparator(s[0]);
      }
      assert Strip(s) == Strip(t) by {
        assert TrimStart(s) == s;
        assert TrimStart(t) == t;
      }
      NoSeparatorSlice(s, 0, |s| - 1);
      assert s[0..|s| - 1] == t;
      ParseIntStrip(t);
    } else {
      assert |s| > 0 ==> !IsSeparator(s[0]) && !IsSeparator(s[|s| - 1]);
      StripTrimmed(s);
    }
  }

  /** Text is free of separators when both parts around a cut are. */
  lemma NoSeparatorJoin(s: string, i: nat)
    requires i <= |s| && NoSeparator(s[..i]) && NoSeparator(s[i..])
    ensures NoSeparator(s)
  {
    forall k | 0 <= k < |s| ensures !IsSeparator(s[k]) {
      if k < i {
        assert s[k] == s[..i][k];
      } else {
        assert s[k] == s[i..][k - i];
      }
    }
  }

  /** `int()` refuses text holding an information separator anywhere: it
      is neither skipped as whitespace nor part of a number, although
      `strip()` would remove it at either end. */
  lemma {:induction false} ParseIntNoSeparator(s: string)
    requires ParseInt(s).Some?
    ensures NoSeparator(s)
    decreases |s|
  {
    if |s| > 0 && IsIntSpace(s[0]) {
      assert ParseInt(s[1..]) == ParseInt(s);
      ParseIntNoSeparator(s[1..]);
      assert NoSeparator(s[..1]) by {
        assert s[..1][0] == s[0];
      }
      NoSeparatorJoin(s, 1);
    } else if |s| > 0 && IsIntSpace(s[|s| - 1]) {
      assert ParseInt(s[..|s| - 1]) == ParseInt(s);
      ParseIntNoSeparator(s[..|s| - 1]);
      assert NoSeparator(s[|s| - 1..]) by {
        assert s[|s| - 1..][0] == s[|s| - 1];
      }
      NoSeparatorJoin(s, |s| - 1);
    } else {
      assert ParseSigned(s).Some?;
      SignedChars(s);
      forall j | 0 <= j < |s| ensures !IsSeparator(s[j]) {
        NumberCharNotSeparator(s[j]);
      }
    }
  }

  /** Digits, signs and underscores are no separators. */
  lemma NumberCharNotSeparator(c: char)
    requires IsDigit(c) || c in "+-_"
    ensures !IsSeparator(c)
  {
    if !IsDigit(c) {
      var marks := "+-_";
      assert c == marks[0] || c == marks[1] || c == marks[2];
    }
  }

  /** A file separator before digits is refused, although `strip()`
      removes it. */
  lemma SeparatorRefused(d: string)
    requires IsDigits(d)
    ensures Strip(['\U{1C}'] + d) == d
    ensures ParseInt(['\U{1C}'] + d).None?
  {
    var s := ['\U{1C}'] + d;
    assert IsSeparator(s[0]);
    if ParseInt(s).Some? {
      ParseIntNoSeparator(s);
      assert false;
    }
    PrintableNotSpace(d[0]);
    PrintableNotSpace(d[|d| - 1]);
    assert s[1..] == d;
    assert TrimStart(s) == d;
    StripTrimmed(d);
  }

  const Minus: char := '-'

  /** The decimal text of an integer, with a minus sign when negative. */
  function ShowInt(n: int): string
  {
    if n < 0 then [Minus] + ShowNat(-n) else ShowNat(n)
  }

  /** Text with no whitespace at either end is read without stripping. */
  lemma ParseTrimmed(t: string)
    requires |t| > 0 ==> !IsSpace(t[0]) && !IsSpace(t[|t| - 1])
    ensures ParseInt(t) == ParseSigned(t)
  {
  }

  /** Plain digits read as their value. */
  lemma DigitsParse(d: string)
    requires IsDigits(d)
    ensures ParseInt(d) == Some(Value(d))
  {
    assert ParseInt(d) == ParseSigned(d) by {
      PrintableNotSpace(d[0]);
      PrintableNotSpace(d[|d| - 1]);
      ParseTrimmed(d);
    }
    DigitsSigned(d);
  }

  lemma DigitsSigned(d: string)
    requires IsDigits(d)
    ensures ParseSigned(d) == Some(Value(d))
  {
    DigitsGroups(d);
    assert DropUnderscores(d) == d;
  }

  /** Plain digits after a minus sign read as the negated value. */
  lemma NegativeParse(d: string)
    requires IsDigits(d)
    ensures ParseInt([Minus] + d) == Some(0 - Value(d))
  {
    var t := [Minus] + d;
    assert ParseInt(t) == ParseSigned(t) by {
      assert t[|t| - 1] == d[|d| - 1];
      PrintableNotSpace(t[0]);
      PrintableNotSpace(d[|d| - 1]);
      ParseTrimmed(t);
    }
    NegativeSigned(d);
  }

  lemma NegativeSigned(d: string)
    requires IsDigits(d)
    ensures ParseSigned([Minus] + d) == Some(0 - Value(d))
  {
    var t := [Minus] + d;
    assert t[1..] == d;
    DigitsGroups(d);
    assert DropUnderscores(d) == d;
  }

  /** Whatever `int()` accepts is made of digits, signs and underscores
      once the surrounding whitespace is gone. */
  lemma ParseIntChars(s: string)
    requires ParseInt(s).Some?
    ensures forall i :: 0 <= i < |Strip(s)| ==> IsDigit(Strip(s)[i]) || Strip(s)[i] in "+-_"
  {
    ParseIntNoSeparator(s);
    ParseIntStrip(s);
    SignedChars(Strip(s));
  }

  lemma SignedChars(t: string)
    requires ParseSigned(t).Some?
    ensures forall i :: 0 <= i < |t| ==> IsDigit(t[i]) || t[i] in "+-_"
  {
    var signed := |t| > 0 && (t[0] == '+' || t[0] == '-');
    var body := if signed then t[1..] else t;
    GroupsShape(body);
    forall i | 0 <= i < |t| ensures IsDigit(t[i]) || t[i] in "+-_" {
      if signed && i > 0 {
        assert t[i] == body[i - 1];
      }
    }
  }

  /** `int()` reads back what `ShowInt` writes. */
  lemma ParseShowInt(n: int)
    ensures ParseInt(ShowInt(n)) == Some(n)
  {
    if n < 0 {
      ParseShowNegative(n);
    } else {
      var d := ShowNat(n);
      assert IsDigits(d) && Value(d) == n by {
        ShowNatValue(n);
      }
      DigitsParse(d);
    }
  }

  lemma ParseShowNegative(n: int)
    requires n < 0
    ensures ParseInt(ShowInt(n)) == Some(n)
  {
    var d := ShowNat(-n);
    assert IsDigits(d) && 0 - Value(d) == n by {
      ShowNatValue(-n);
    }
    NegativeParse(d);
  }
}

=== FILE: timer.dfy ===
/** The console countdown timer of timer.py: reading the duration argument,
    showing a number of seconds as HH:MM:SS, and the timer's state machine
    driven by key presses and by the passage of whole seconds. */
module Timer {
  import opened Wrappers
  import opened Text

  /** A duration as written: whole seconds and the decimal digits after the
      point (empty when there is none). */
  datatype Duration = Duration(whole: nat, fraction: string)

  /** The message of the `ValueError` for a malformed duration. */
  const FormatMessage := "Time format: H:M:S, M:S, or S"

  /** The text of a field before the anchoring `$`, which also matches just
      before one final line break. */
  function BeforeEnd(text: string): (r: string)
    ensures |r| <= |text| && r == text[..|r|]
  {
    if |text| > 0 && text[|text| - 1] == '\n' then text[..|text| - 1] else text
  }

  /** The last field of a duration: digits, optionally a point and more
      digits. */
  function ParseSeconds(field: string): Option<Duration>
  {
    var parts := SplitOn(field, '.');
    if |parts| == 1 && IsDigits(parts[0]) then Some(Duration(Value(parts[0]), ""))
    else if |parts| == 2 && IsDigits(parts[0]) && IsDigits(parts[1]) then Some(Duration(Value(parts[0]), parts[1]))
    else None
  }

  /** The weight in seconds of the field `i` of `k` colon-separated fields:
      the last counts seconds, the one before minutes, the first of three
      hours. */
  function Weight(k: nat, i: nat): nat
    requires i < k
  {
    if i + 1 == k then 1 else if i + 2 == k then 60 else 3600
  }

  /** `parse_time`: one to three colon-separated fields, the leading ones
      plain digits, the last digits with an optional decimal fraction; the
      value is hours * 3600 + minutes * 60 + seconds. */
  function ParseTime(text: string): Result<Duration, string>
  {
    ParseFields(SplitOn(BeforeEnd(text), ':'))
  }

  /** The colon-separated fields of a duration read as one. */
  function ParseFields(fields: seq<string>): Result<Duration, string>
    requires |fields| >= 1
  {
    var k := |fields|;
    if k > 3 then Err(FormatMessage)
    else if !Leading(fields) then Err(FormatMessage)
    else
      match ParseSeconds(fields[k - 1])
      case None => Err(FormatMessage)
      case Some(s) =>
        var minutes := if k >= 2 then Value(fields[k - 2]) else 0;
        var hours := if k == 3 then Value(fields[0]) else 0;
        Ok(Duration(hours * 3600 + minutes * 60 + s.whole, s.fraction))
  }

  /** All fields but the last are plain digits. */
  predicate Leading(fields: seq<string>)
  {
    forall i :: 0 <= i < |fields| - 1 ==> IsDigits(fields[i])
  }

  /** Digit fields read as their weighted sum, the last one counting
      seconds and each earlier one sixty times the next, up to hours. */
  function Weighted(fields: seq<string>): nat
    requires forall i :: 0 <= i < |fields| ==> IsDigits(fields[i])
  {
    if |fields| == 0 then 0
    else
      assert IsDigits(fields[0]);
      Weight(|fields|, 0) * Value(fields[0]) + Weighted(fields[1..])
  }

  /** Plain digits read as seconds with no fraction. */
  lemma SecondsDigits(field: string)
    requires IsDigits(field)
    ensures ParseSeconds(field) == Some(Duration(Value(field), ""))
  {
    assert '.' !in field by {
      assert forall i :: 0 <= i < |field| ==> IsDigit(field[i]);
    }
    SplitNoSep(field, '.');
  }

  /** One to three digit fields are read with their weighted value. */
  lemma FieldsDigits(fields: seq<string>)
    requires 1 <= |fields| <= 3
    requires forall i :: 0 <= i < |fields| ==> IsDigits(fields[i])
    ensures ParseFields(fields) == Ok(Duration(Weighted(fields), ""))
  {
    FieldsValue(fields);
    WeightedSum(fields);
  }

  /** Hours, minutes and seconds of one to three digit fields in seconds. */
  function Spelled(fields: seq<string>): nat
    requires 1 <= |fields| <= 3
    requires forall i :: 0 <= i < |fields| ==> IsDigits(fields[i])
  {
    var k := |fields|;
    assert IsDigits(fields[0]) && IsDigits(fields[k - 2 + (if k >= 2 then 0 else 1)]) && IsDigits(fields[k - 1]);
    (if k == 3 then Value(fields[0]) * 3600 else 0)
      + (if k >= 2 then Value(fields[k - 2]) * 60 else 0) + Value(fields[k - 1])
  }

  lemma FieldsValue(fields: seq<string>)
    requires 1 <= |fields| <= 3
    requires forall i :: 0 <= i < |fields| ==> IsDigits(fields[i])
    ensures ParseFields(fields) == Ok(Duration(Spelled(fields), ""))
  {
    SecondsDigits(fields[|fields| - 1]);
    assert Leading(fields);
  }

  /** The weighted value spelled out by the number of fields. */
  lemma WeightedSum(fields: seq<string>)
    requires 1 <= |fields| <= 3
    requires forall i :: 0 <= i < |fields| ==> IsDigits(fields[i])
    ensures Weighted(fields) == Spelled(fields)
  {
    var k := |fields|;
    assert Weighted(fields[k..]) == 0;
    assert Weighted(fields[k - 1..]) == Value(fields[k - 1]) by {
      assert fields[k - 1..][1..] == fields[k..];
    }
    if k >= 2 {
      assert Weighted(fields[k - 2..]) == 60 * Value(fields[k - 2]) + Value(fields[k - 1]) by {
        assert fields[k - 2..][1..] == fields[k - 1..];
      }
    }
    if k == 3 {
      assert fields[1..] == fields[k - 2..];
    }
    assert fields == fields[0..];
  }

  /** Every colon-separated form of one to three digit fields is accepted,
      with the weighted value of its fields. */
  lemma ParseDigitFields(fields: seq<string>)
    requires 1 <= |fields| <= 3
    requires forall i :: 0 <= i < |fields| ==> IsDigits(fields[i])
    ensures ParseTime(Join(fields, ':')) == Ok(Duration(Weighted(fields), ""))
  {
    assert SplitOn(Join(fields, ':'), ':') == fields by {
      forall i | 0 <= i < |fields| ensures ':' !in fields[i] {
        assert IsDigits(fields[i]);
      }
      SplitJoin(fields, ':');
    }
    JoinNoBreak(fields);
    FieldsDigits(fields);
  }

  /** An accepted duration is written with digits, colons and at most one
      point, and has at most two colons. */
  lemma {:induction false} ParseTimeChars(text: string)
    requires ParseTime(text).Ok?
    ensures var t := BeforeEnd(text);
      && (forall k :: 0 <= k < |t| ==> IsDigit(t[k]) || t[k] == ':' || t[k] == '.')
      && |SplitOn(t, ':')| <= 3
  {
    var t := BeforeEnd(text);
    var fields := SplitOn(t, ':');
    var n := |fields|;
    JoinSplit(t, ':');
    var parts := SplitOn(fields[n - 1], '.');
    JoinSplit(fields[n - 1], '.');
    assert forall j :: 0 <= j < |parts| ==> IsDigits(parts[j]);
    assert forall i :: 0 <= i < n - 1 ==> IsDigits(fields[i]);
    forall k | 0 <= k < |t| ensures IsDigit(t[k]) || t[k] == ':' || t[k] == '.' {
      JoinMember(fields, ':', k);
      if t[k] != ':' {
        var i, j :| 0 <= i < n && 0 <= j < |fields[i]| && t[k] == fields[i][j];
        if i == n - 1 {
          JoinMember(parts, '.', j);
          if t[k] != '.' {
            var a, b :| 0 <= a < |parts| && 0 <= b < |parts[a]| && t[k] == parts[a][b];
            assert IsDigits(parts[a]);
          }
        } else {
          assert IsDigits(fields[i]);
        }
      }
    }
  }

  /** Digits, a point and digits read as seconds with a fraction. */
  lemma FractionSeconds(parts: seq<string>)
    requires |parts| == 2 && IsDigits(parts[0]) && IsDigits(parts[1])
    ensures ParseSeconds(Join(parts, '.')) == Some(Duration(Value(parts[0]), parts[1]))
  {
    forall i | 0 <= i < 2 ensures '.' !in parts[i] {
      assert forall k :: 0 <= k < |parts[i]| ==> IsDigit(parts[i][k]);
    }
    SplitJoin(parts, '.');
  }

  /** Digit pieces joined by points hold no colon and end in a digit. */
  lemma PointedDigits(parts: seq<string>)
    requires |parts| == 2 && IsDigits(parts[0]) && IsDigits(parts[1])
    ensures ':' !in Join(parts, '.') && BeforeEnd(Join(parts, '.')) == Join(parts, '.')
  {
    var text := Join(parts, '.');
    forall k | 0 <= k < |text| ensures text[k] != ':' {
      JoinMember(parts, '.', k);
    }
    JoinEnds(parts, '.');
  }

  /** A fraction after the seconds is kept as written. */
  lemma ParseFraction(parts: seq<string>)
    requires |parts| == 2 && IsDigits(parts[0]) && IsDigits(parts[1])
    ensures ParseTime(Join(parts, '.')) == Ok(Duration(Value(parts[0]), parts[1]))
  {
    var text := Join(parts, '.');
    PointedDigits(parts);
    var fields := SplitOn(text, ':');
    assert |fields| == 1 && fields[0] == text by {
      SplitNoSep(text, ':');
    }
    assert ParseFields(fields) == Ok(Duration(Value(parts[0]), parts[1])) by {
      FractionSeconds(parts);
      assert Leading(fields);
    }
  }

  /** More than two colons are refused. */
  lemma TooManyFields(text: string)
    requires |SplitOn(BeforeEnd(text), ':')| > 3
    ensures ParseTime(text) == Err(FormatMessage)
  {
  }

  /** Minutes past 59 are not refused: they carry into the total. */
  lemma MinutesAndSeconds(fields: seq<string>)
    requires |fields| == 2 && IsDigits(fields[0]) && IsDigits(fields[1])
    ensures ParseTime(Join(fields, ':')) == Ok(Duration(60 * Value(fields[0]) + Value(fields[1]), ""))
  {
    assert forall i :: 0 <= i < |fields| ==> IsDigits(fields[i]);
    ParseDigitFields(fields);
    WeightedSum(fields);
  }

  /** Digits joined by colons do not end in a line break. */
  lemma JoinNoBreak(fields: seq<string>)
    requires |fields| >= 1
    requires forall i :: 0 <= i < |fields| ==> IsDigits(fields[i])
    ensures BeforeEnd(Join(fields, ':')) == Join(fields, ':')
  {
    var text := Join(fields, ':');
    JoinEnds(fields, ':');
    assert IsDigits(fields[|fields| - 1]);
  }

  /** `f"{n:02d}"`: at least two characters, zero-padded after any sign. */
  function Pad2(n: int): string
  {
    if n < 0 then ['-'] + ShowNat(-n)
    else if n < 10 then ['0'] + ShowNat(n)
    else ShowNat(n)
  }

  /** `format_hhmmss`: whole seconds as hours, minutes and seconds with
      Python's flooring `divmod`, which for the divisor 60 is Dafny's
      division and remainder. */
  function FormatHHMMSS(seconds: int): string
  {
    var mins := seconds / 60;
    var secs := seconds % 60;
    Pad2(mins / 60) + [':'] + Pad2(mins % 60) + [':'] + Pad2(secs)
  }

  /** Two-digit padding of a number below 60 is two digits holding it. */
  lemma Pad2Small(n: int)
    requires 0 <= n < 60
    ensures |Pad2(n)| == 2 && IsDigits(Pad2(n)) && Value(Pad2(n)) == n
  {
    ShowNatValue(n);
    var d := ShowNat(n);
    if n < 10 {
      assert |d| == 1;
      var p := ['0'] + d;
      assert p[..1] == ['0'] && p[1..] == d;
    } else {
      assert ShowNat(n / 10) == [('0' as int + n / 10) as char];
    }
  }

  /** Padding a natural number gives digits holding it. */
  lemma Pad2Nat(n: nat)
    ensures IsDigits(Pad2(n)) && Value(Pad2(n)) == n
  {
    ShowNatValue(n);
    if n < 10 {
      Pad2Small(n);
    }
  }

  /** Three pieces joined by colons. */
  lemma JoinThree(a: string, b: string, c: string)
    ensures Join([a, b, c], ':') == a + [':'] + b + [':'] + c
  {
    var p := [a, b, c];
    var q := [b, c];
    assert p[1..] == q && q[1..] == [c];
    assert Join(q, ':') == b + [':'] + c;
  }

  /** A formatted non-negative count of seconds has three digit fields, the
      last two of exactly two digits below 60, and they add up to the count. */
  lemma FormatFields(seconds: nat)
    ensures var f := SplitOn(FormatHHMMSS(seconds), ':');
      && |f| == 3 && (forall i :: 0 <= i < 3 ==> IsDigits(f[i]))
      && |f[1]| == 2 && |f[2]| == 2 && Value(f[1]) < 60 && Value(f[2]) < 60
      && Value(f[0]) * 3600 + Value(f[1]) * 60 + Value(f[2]) == seconds
  {
    var mins := seconds / 60;
    var fields := [Pad2(mins / 60), Pad2(mins % 60), Pad2(seconds % 60)];
    Pad2Nat(mins / 60);
    Pad2Small(mins % 60);
    Pad2Small(seconds % 60);
    JoinThree(fields[0], fields[1], fields[2]);
    assert SplitOn(FormatHHMMSS(seconds), ':') == fields by {
      forall i | 0 <= i < 3 ensures ':' !in fields[i] {
        assert IsDigits(fields[i]);
      }
      SplitJoin(fields, ':');
    }
  }

  /** Reading a formatted duration gives back the seconds. */
  lemma ParseFormat(seconds: nat)
    ensures ParseTime(FormatHHMMSS(seconds)) == Ok(Duration(seconds, ""))
  {
    var text := FormatHHMMSS(seconds);
    var f := SplitOn(text, ':');
    assert Spelled(f) == seconds by {
      FormatFields(seconds);
    }
    WeightedSum(f);
    JoinSplit(text, ':');
    ParseDigitFields(f);
  }

  /** A key as `msvcrt.getch` returns it: one byte. */
  newtype Byte = b: int | 0 <= b < 256

  const Quit: Byte := 'q' as Byte
  const CtrlC: Byte := 3
  const Space: Byte := ' ' as Byte
  const Restart: Byte := 'r' as Byte

  /** `bytes.lower()` on one byte: only A to Z change. */
  function Lower(key: Byte): Byte
  {
    if 'A' as Byte <= key <= 'Z' as Byte then key + 32 else key
  }

  /** The timer's flags and counters. The monotonic clock is not part of the
      state: time reaches the model as a number of whole elapsed seconds. */
  datatype TimerState = TimerState(
    stop: bool,       // stop_all
    countdown: bool,  // countdown_active
    paused: bool,     // paused
    alarm: bool,      // alarm_active
    sound: bool,      // alarm_sound_active
    remaining: int,   // remaining_seconds
    total: int)       // total_seconds

  /** The state `main` sets up for a parsed duration: counting down, not
      paused. */
  function Start(total: nat): TimerState
  {
    TimerState(false, true, false, false, false, total, total)
  }

  /** What one key press does (the body of the loop in `process_keys`). */
  function ProcessKey(st: TimerState, key: Byte): TimerState
  {
    var k := Lower(key);
    if k == Quit || k == CtrlC then
      st.(stop := true, countdown := false, alarm := false, sound := false)
    else if st.countdown then
      if k == Space then st.(paused := !st.paused)
      else if k == Restart then st.(remaining := st.total, paused := false)
      else st
    else if st.alarm then
      st.(remaining := st.total, countdown := true, paused := false, alarm := false, sound := false)
    else st
  }

  /** `process_keys`: the queued keys in order. */
  function ProcessKeys(st: TimerState, keys: seq<Byte>): TimerState
    decreases |keys|
  {
    if |keys| == 0 then st else ProcessKeys(ProcessKey(st, keys[0]), keys[1..])
  }

  /** One pass of the countdown loop after `whole` whole seconds have
      elapsed: it runs only while counting, not stopped and not paused; the
      seconds come off the remainder, and at zero the countdown ends and the
      alarm and its sound start. */
  function Tick(st: TimerState, whole: nat): TimerState
  {
    if !st.countdown || st.stop || st.paused then st
    else
      var rem := st.remaining - whole;
      if rem <= 0 then st.(remaining := 0, countdown := false, alarm := true, sound := true)
      else st.(remaining := rem)
  }

  /** The states the timer can be in: the remainder lies between zero and
      the total, counting and ringing exclude each other, the sound rings
      exactly with the alarm, a stopped timer neither counts nor rings, and
      a ringing timer has run out and is not paused. */
  predicate Consistent(st: TimerState)
  {
    && 0 <= st.remaining <= st.total
    && !(st.countdown && st.alarm)
    && st.sound == st.alarm
    && (st.stop ==> !st.countdown && !st.alarm)
    && (st.alarm ==> st.remaining == 0 && !st.paused)
  }

  lemma StartConsistent(total: nat)
    ensures Consistent(Start(total)) && Start(total).countdown && Start(total).remaining == total
  {
  }

  /** Keys keep the timer consistent and never change the total. */
  lemma ProcessKeyConsistent(st: TimerState, key: Byte)
    requires Consistent(st)
    ensures Consistent(ProcessKey(st, key)) && ProcessKey(st, key).total == st.total
  {
  }

  lemma {:induction false} ProcessKeysConsistent(st: TimerState, keys: seq<Byte>)
    requires Consistent(st)
    ensures Consistent(ProcessKeys(st, keys)) && ProcessKeys(st, keys).total == st.total
    decreases |keys|
  {
    if |keys| > 0 {
      ProcessKeyConsistent(st, keys[0]);
      ProcessKeysConsistent(ProcessKey(st, keys[0]), keys[1..]);
    }
  }

  /** Time keeps the timer consistent, never raises the remainder and never
      touches the total, the pause or the stop flag. */
  lemma TickConsistent(st: TimerState, whole: nat)
    requires Consistent(st)
    ensures var t := Tick(st, whole);
      && Consistent(t) && t.remaining <= st.remaining
      && t.total == st.total && t.paused == st.paused && t.stop == st.stop
  {
  }

  /** After a quit key nothing any later key does changes the state. */
  lemma {:induction false} QuitAbsorbs(st: TimerState, key: Byte, keys: seq<Byte>)
    requires Lower(key) == Quit || key == CtrlC
    ensures var q := ProcessKey(st, key);
      q.stop && !q.countdown && !q.alarm && !q.sound && ProcessKeys(q, keys) == q
    decreases |keys|
  {
    var q := ProcessKey(st, key);
    if |keys| > 0 {
      assert ProcessKey(q, keys[0]) == q;
      QuitAbsorbs(st, key, keys[1..]);
    }
  }

  /** A stopped timer that neither counts nor rings ignores the clock. */
  lemma StoppedIgnoresTime(st: TimerState, whole: nat)
    requires st.stop
    ensures Tick(st, whole) == st
  {
  }

  /** While counting down, space pauses and a second space resumes with
      nothing else changed. */
  lemma PauseResume(st: TimerState)
    requires st.countdown
    ensures ProcessKey(st, Space) == st.(paused := !st.paused)
    ensures ProcessKeys(st, [Space, Space]) == st
  {
    assert Space == 32 && Quit == 113 && Lower(Space) == Space;
    var once := ProcessKey(st, Space);
    assert once == st.(paused := !st.paused);
    assert ProcessKey(once, Space) == st;
    var keys := [Space, Space];
    var empty: seq<Byte> := [];
    assert keys[1..] == [Space] && keys[1..][1..] == empty;
    assert ProcessKeys(once, [Space]) == ProcessKeys(st, empty);
  }

  /** A paused timer ignores the clock. */
  lemma PausedIgnoresTime(st: TimerState, whole: nat)
    requires st.paused
    ensures Tick(st, whole) == st
  {
  }

  /** Elapsed time adds up: two passes cost what one pass over the sum of
      their seconds costs. */
  lemma TickAdditive(st: TimerState, a: nat, b: nat)
    ensures Tick(Tick(st, a), b) == Tick(st, a + b)
  {
  }

  /** A countdown from `total` rings exactly once the whole total has
      elapsed, and ends with nothing left. */
  lemma RunsOut(total: nat, whole: nat)
    ensures Tick(Start(total), whole).alarm <==> whole >= total
    ensures whole >= total ==> Tick(Start(total), whole).remaining == 0 && !Tick(Start(total), whole).countdown
  {
  }

  /** While ringing, any key other than quit restarts the countdown from the
      total and silences the alarm. */
  lemma AlarmRestarts(st: TimerState, key: Byte)
    requires Consistent(st) && st.alarm && Lower(key) != Quit && key != CtrlC
    ensures ProcessKey(st, key) == Start(st.total).(stop := st.stop)
  {
  }

  /** While counting, the restart key resumes from the full total, with
      nothing else changed. */
  lemma RestartRefills(st: TimerState, key: Byte)
    requires st.countdown && Lower(key) == Restart
    ensures ProcessKey(st, key) == st.(remaining := st.total, paused := false)
    ensures var r := ProcessKey(st, key);
      r.remaining == r.total == st.total && !r.paused && r.countdown
  {
  }

  /** While counting, a key other than space, `r`, `q` and Ctrl+C changes
      nothing: the `if`/`elif` under the countdown has no `else`. */
  lemma OtherKeysIgnored(st: TimerState, key: Byte)
    requires st.countdown
    requires Lower(key) != Quit && Lower(key) != CtrlC && Lower(key) != Space && Lower(key) != Restart
    ensures ProcessKey(st, key) == st
  {
  }
}

=== FILE: wrappers.dfy ===
/** Optional values and results with an error, shared by every module. */
module Wrappers {

  datatype Option<+T> = None | Some(value: T)

  datatype Result<+T, +E> = Ok(value: T) | Err(error: E)
}
